=== FILE: README.md ===
# Tetra-Terminal, modelled in Dafny

Tetra-Terminal is a browser front end for a TETRA radio. The radio is reached
over a serial link with AT commands. The program also talks to a second "PEI"
serial link, a DAPNET paging server and a web status feed. This project models
the logic behind those links as pure Dafny functions over immutable state, and
proves properties about them.

- **Radio side** (`parsing.js`, `sds.js`). `Radio.HandleData` splits a chunk
  from the radio into lines. It then runs the per-line state machine: it
  reassembles `+CTSDSR` headers, parses SDS payloads and counts `+GCLI` rows.
  It also treats `+CME ERROR: 35` as harmless and parses signal reports and
  group-call activity (module `AtLines`).
  - `SdsDecoder.Decode` classifies an SDS payload in the program's order: ACK,
    text header, likely text, compact LIP, LIP/Long LIP/LRRP, too short.
  - `HexCodec` holds the hex helpers: signed 24-bit, little-endian, byte swap
    and hex to text.
  - `SdsOut` builds the AT command sequences that send SDS messages, ACKs and
    position requests. It also keeps the per-ISSI retry counters.
  - Each step returns the next `Session` and a list of `Events.Event`:
    - prints, log entries and map updates;
    - `Command` for an AT command written to the radio;
    - `RetryScheduled` for a delayed position re-request.
- **DAPNET client** (`dapnetClient.js`). This covers the login line, the
  line buffer across TCP chunks, `parseMessage`, and the reply written for
  each line.
- **PEI link** (`serialPei.js`). This covers `\r\n` framing of received text,
  the frame that `sendPeiCommand` writes, and `runPeiInit` over a mode table.
- **Serial link** (`serial.js`). This covers `sendCommand`, the default init
  sequence, and the TNP1 service-profile commands.
- **Map bookkeeping** (`map.js`). This covers ISSI icon types, GPS positions,
  tracks keyed by id, the current track and static markers. The model keeps
  the data only, not the Leaflet layers.
- **Logs** (`utils.js`, `logViewer.js`, `webParser.js`). This covers the
  console log with its SDS pane and CSV export, the stored-log formatter and
  its CSV export, and the web-parser state (status list, QRV list, and the
  newest-first web log capped at 100).

Effects are data: `Link.Effect` (print, log command, write) for the two
serial links and `Events.Event` for the radio side. Wall-clock time, DOM
elements and sockets become parameters or are left out (see below). The CSV
exports are checked against a small CSV reader written for this model
(`Csv.Records`). It follows the quoting rules of RFC 4180: fields in double
quotes, inner quotes doubled.

## Model

| member | source | states |
|---|---|---|
| AtLines.Dbm | parsing.js:114 | dBm is -113 + 2·rssi. It is odd, and reading it back gives the rssi, so distinct readings never show the same dBm; rssi 0..31 maps into -113..-51 |
| AtLines.GroupActivity | parsing.js:26-64 | `+CTICN`/`+CTGS` record call ref → talkgroup when they have 6/2 fields. `+CTXG` looks up the ref and shows the talker from field 6. `+CTCR` forgets the ref. Activity is shown only for the known talkgroups. Other lines change nothing |
| AtLines.GrantAfterSetup | parsing.js:39-58 | a transmit grant after a group setup with the same call ref shows the setup's talkgroup and the grant's talker; after a release of that ref the grant shows nothing |
| AtLines.ParseSignalStrength | parsing.js:110-118 | at most one signal report, and its dBm is always Dbm of its rssi |
| AtLines.CsqReadsBack | parsing.js:110-118 | a `+CSQ: <n>,<ber>` response is reported as rssi n with dBm -113 + 2n |
| AtLines.ParseCreg | parsing.js:120-139 | an explicit `<n> dBm` anywhere in the line wins. Otherwise the last comma field is reported only if it parses as an integer in 0..31 |
| AtLines.CregRssiField | parsing.js:129-138 | a `+CREG` line without "d" ending in `,<n>` reports rssi n exactly when n ≤ 31 |
| AtLines.ParseGcliEntry | parsing.js:156-168 | rows with fewer than 4 comma fields are ignored. Otherwise it reports cell and frequency trimmed plus the dBm of field 3, or the raw line when field 3 is not a number |
| AtLines.GcliRowReadsBack | parsing.js:156-168 | a row `cell,freq,<n>,...` reads back as that cell, that frequency and rssi n |
| Radio.HeaderNames | parsing.js:173-175 | the sender is header field 2 and the destination field 4, both trimmed, for a header whose fields hold them |
| Radio.HeaderFrom | parsing.js:174 | the sender is never empty: it is the trimmed second field, or `Unbekannt` |
| Radio.HeaderDest | parsing.js:175 | a destination is present only when the header has a fourth field that is non-blank after trimming |
| Radio.ParseSds | parsing.js:170-171 | a payload whose previous line lacks `+CTSDSR` is ignored: no state change, no events. The parser state is never touched |
| Radio.AckNotAnswered | parsing.js:184-187 | the ACK pattern is logged and acknowledged as received. It changes no state and sends no ACK back |
| Radio.MainOutcome | parsing.js:267-289 | a full fix stores the position, extends the current track and resets the retry counter. A lat-only fix schedules a retry with counter + 1 while the counter is below 2, then gives up. No latitude reports invalid data and changes nothing |
| Radio.Outcome | parsing.js:205-289 | only a full main fix changes the retry counters. Compact fixes record the position. ACK, text and short payloads change nothing |
| Radio.OutcomeEffects | parsing.js:205-289 | decoding sends no AT command. The only retry scheduled is the lat-only retry |
| Radio.AnswerCommands | parsing.js:184-290 | the commands an SDS causes are exactly those of `sendSdsAck` to its sender (none while ACKs are off), and none for an incoming ACK |
| Radio.AnswerScheduled | parsing.js:267-289 | the retries an SDS causes are exactly the lat-only retry for its sender |
| Radio.AnswerState | parsing.js:205-289 | over the whole answer: a full fix stores the sender's position and resets its retry counter, any other payload leaves the counters alone, a compact fix records its position, and ACK, text and short payloads change nothing |
| Radio.AckSchedulesNothing | sds.js:95-100 | sending an ACK never schedules a retry |
| Radio.LipFixByLength | parsing.js:229-245 | a LIP-class payload yields a full fix exactly when it has at least 26 hex digits; otherwise only the latitude |
| Radio.FireRetry | parsing.js:283 | the delayed retry calls `sendSdsRaw` with the scheduled attempt, which records that attempt for the ISSI and leaves the map alone |
| Radio.RetryBudget | parsing.js:280-286 | a position request followed by repeated lat-only answers schedules attempts 1 and 2 and then no more |
| Radio.Dispatch | parsing.js:81-105 | each line moves the reassembly state as classified. Only an SDS payload line can change the SDS or map state or send commands |
| Radio.Announce | parsing.js:69-74 | every line is first echoed, then passed to group-activity parsing and to the line listeners. Only the call-ref table changes |
| Radio.HandleDataSplit | parsing.js:66-108 | handling `a + "\n" + b` equals handling `a` and then `b` from the resulting state, with the events concatenated |
| Radio.NoCarryOver | parsing.js:66-68 | a line cut across two chunks is handled as two lines: nothing is buffered between calls |
| Radio.CmeLeavesBlocks | parsing.js:76-79 | a `+CME ERROR: 35` line adds a notice and leaves the SDS header, the GCLI count, SDS and map state as they were |
| Radio.HeaderReplaces | parsing.js:81-83 | a `+CTSDSR` line becomes the pending header, replacing any earlier one |
| Radio.ContinuationAppends | parsing.js:84-86 | with a header pending, a line starting (after blanks) with a comma is appended to it |
| Radio.PayloadCloses | parsing.js:87-90 | with a header pending, an all-hex line is decoded against that header and the header is cleared |
| Radio.OtherLineKeepsHeader | parsing.js:81-91 | any other line leaves a pending header in place |
| Radio.GcliCountSet | parsing.js:93-96 | `+GCLI:` sets the pending row count when the text after the colon parses as an integer, otherwise keeps it |
| Radio.GcliRowCounted | parsing.js:97-100 | while rows are pending, a line is parsed as a GCLI row and the count drops by one |
| Radio.BookkeepingOnly | parsing.js:81-96 | header, continuation and GCLI-count lines only move the parser state |
| Radio.RunGood | parsing.js:66-108 | from a good session (pending header starts with `+CTSDSR`, retry counters in 0..2) any line sequence keeps it good, and every scheduled retry is attempt 1 or 2 |
| Radio.FireRetryGood | parsing.js:283 | firing a scheduled retry keeps the session good |
| Radio.InitialGood | parsing.js:19-24 | the start state is good |
| SdsDecoder.ParseLip | parsing.js:293-335 | a LIP report needs 26 digits; lat and lon are the little-endian fields at 10..18 and 18..26. Speed, heading and accuracy are present exactly from 30, 34 and 36 digits |
| SdsDecoder.ParseLongLip | parsing.js:337-354 | a Long LIP report needs 40 digits and carries the byte-swapped altitude at 26..30 |
| SdsDecoder.ParseCompactLip | parsing.js:356-392 | a compact report needs exactly 22 digits. Lat and lon are signed 24-bit / 131072 minus the program's offsets; speed, heading and accuracy are single bytes |
| SdsDecoder.ParseLrrp | parsing.js:394-406 | an LRRP report needs 28 digits; lat and lon are little-endian at 12..20 and 20..28 |
| SdsDecoder.MainFieldsOf | parsing.js:225-265 | the main latitude is always present, and the longitude exactly from 26 digits |
| SdsDecoder.Decode | parsing.js:184-223 | the first matching rule wins: exact ACK, then the text header or likely text after 8 digits, then compact (22 digits, `0A00`), then LIP-class from 18 digits, else short. The sub-reports are present exactly at their length and prefix thresholds |
| SdsDecoder.CompactPayload | parsing.js:362-366 | an encoder laying out prefix, two 24-bit codes and three bytes at the offsets the decoder reads |
| SdsDecoder.CompactRoundTrip | parsing.js:205-209 | an encoded compact report that does not look like text decodes back to exactly its fields |
| SdsDecoder.CompactShadowedByText | parsing.js:198-205 | every 22-digit `0A00…` payload whose 14-digit tail passes the likely-text test is decoded as the text of that tail, never as a compact report |
| SdsDecoder.LipReadBack | parsing.js:211-245 | a LIP payload built from two codes decodes, via the LIP and main paths, to those codes with the 8-digit sign quirk (unsigned value − 1) |
| HexCodec.Parse24Signed | parsing.js:408-413 | there is a value exactly for 6 hex digits; it lies in [-2^23, 2^23) and is negative exactly when the top digit is ≥ 8 |
| HexCodec.Encode24 | parsing.js:408-413 | an encoder producing 6 hex digits for every 24-bit signed code |
| HexCodec.Parse24RoundTrip | parsing.js:408-413 | decoding an encoded 24-bit code gives the code back |
| HexCodec.HexToSignedShort | parsing.js:422-427 | for 1 to 7 digits the value is two's complement at 4 bits per digit |
| HexCodec.HexToSignedEight | parsing.js:422-427 | for 8 digits the 32-bit `1 << 31` wraps negative, so the result is the unsigned value minus one |
| HexCodec.ReversePairsInvolution | parsing.js:417-418 | reversing the byte pairs twice restores the field and keeps it hex |
| HexCodec.ParseLittleEndianSigned | parsing.js:415-420 | there is a value exactly for 8 hex digits |
| HexCodec.LittleEndianReadBack | parsing.js:415-427 | a little-endian encoding of a code reads back as the code mod 2^32 minus one |
| HexCodec.LittleEndianNeverExact | parsing.js:415-427 | no 32-bit signed code reads back as itself through the little-endian path |
| HexCodec.SwapBytes | parsing.js:429-433 | two-byte fields are swapped, other lengths kept. An odd fifth digit is dropped, as the pairwise match drops it |
| HexCodec.SwapBytesLittleEndian | parsing.js:429-433 | a swapped 4-digit field is read little-endian, and swapping twice restores it |
| HexCodec.HexToAscii | parsing.js:435-442 | one character per digit pair, the last odd digit read alone |
| HexCodec.HexToAsciiAt | parsing.js:435-442 | character k has the code of digit pair k |
| HexCodec.IsLikelyText | parsing.js:444-453 | true exactly when the decoded text is non-empty and more than 80% of it is printable ASCII |
| HexCodec.RatioAbove | parsing.js:452 | the 0.8 ratio test equals the integer test 5·printable > 4·length |
| SdsOut.SetAckEnabled | sds.js:9-11 | only the ACK flag changes, to the given value |
| SdsOut.SendSdsHex | sds.js:13-31 | with no destination or data it only warns. Otherwise it sends CTSDS, CMGS with 4 bits per hex digit, then the data with Ctrl-Z, and records the sent SDS last |
| SdsOut.SdsLengthAnnounced | sds.js:18-25 | the CMGS command announces 8 bits per payload byte (a number that reads back), and the third command is the payload followed by Ctrl-Z |
| SdsOut.TextPdu | sds.js:40-41 | the PDU is hex and starts with the text header `8200010D` |
| SdsOut.TextHexRoundTrip | sds.js:40 | for Latin-1 text, the upper-case hex of the code units decodes back to the text |
| SdsOut.TextPduRoundTrip | sds.js:40-42 | a Latin-1 message other than the lone ACK character decodes as that text. The announced length is 8 bits per byte of header plus message |
| SdsOut.AckCharTextReadAsAck | sds.js:40-41 | a text SDS holding only the ACK character is byte-for-byte the ACK pattern, and the receiver takes it as an ACK |
| SdsOut.SendSds | sds.js:33-57 | blank destination or message (after trimming) only warns. Otherwise it sends CTSP=1,3,2, CTSDS, CMGS and the PDU with Ctrl-Z, and records the message |
| SdsOut.SendSdsAck | sds.js:95-100 | sends nothing while ACKs are disabled |
| SdsOut.AckSentIsAck | sds.js:95-100 | with ACKs on, the third command is the ACK pattern with Ctrl-Z, which the decoder classifies as an ACK |
| SdsOut.RequestPayloads | sds.js:80-93 | the request payloads are hex of 7, 8 and 6 bytes; the Long LIP request is the LIP request plus one zero byte |
| SdsOut.SendSdsRaw | sds.js:59-72 | with no ISSI it only warns. Otherwise it records the ISSI as last requested and its retry count, and sends the LIP request |
| SdsOut.SendSdsRawKeepsRetriesBounded | sds.js:63-64 | recording an attempt in 0..2 keeps every counter in 0..2 |
| Dapnet.Login | dapnetClient.js:15-19 | refuses with the program's error exactly when the callsign or the key is empty |
| Dapnet.LoginFields | dapnetClient.js:18 | the login line splits on spaces into the gateway tag, the version, the lower-cased callsign and the key closed by `]\r\n` |
| Dapnet.ParseMessageFields | dapnetClient.js:3-13 | a `#xx` line with at least five colon fields parses id (hex), type, timestamp, address (hex) and function. The separator after the id is skipped. The text is the rest rejoined with colons |
| Dapnet.ParseMessageLine | dapnetClient.js:3-13 | a message line built from its fields parses back to exactly those fields |
| Dapnet.ReplyTo | dapnetClient.js:26-40 | a message is handed on only for a line starting with `#`, and for such a line it is exactly what `parseMessage` gives, with one acknowledgement written; an empty line gets no reply |
| Dapnet.ReplyIdNext | dapnetClient.js:31-32 | the reply id is (id + 1) mod 256 as two lower-case hex digits |
| Dapnet.AckNextId | dapnetClient.js:28-32 | a parsed `#` line is answered with `#<id+1> +` (mod 256, reading back as that number) and handed on as a message |
| Dapnet.AckUnparsed | dapnetClient.js:28-32 | an unparsable `#` line is answered `#01 +` and hands on nothing |
| Dapnet.TimeReply | dapnetClient.js:33-35 | a line starting with `2` is echoed with `:0000`, then `+` |
| Dapnet.FramesSplitLines | dapnetClient.js:24-25 | the framer yields the pieces of a CR?LF split except the last, which stays buffered |
| Dapnet.FramesRest | dapnetClient.js:24-25 | the buffered rest has no line feed and is the text after the last line feed |
| Dapnet.BufferAfterLastBreak | dapnetClient.js:23-25 | after a chunk, the buffer is what follows the last line feed of buffer + chunk |
| Dapnet.OnDataChunks | dapnetClient.js:22-42 | feeding `a + b` at once gives the same buffer, writes and messages as feeding `a` then `b` |
| Dapnet.OnChunksConcat | dapnetClient.js:22-42 | any sequence of chunks is handled as their concatenation |
| Pei.IndexOfCrLf | serialPei.js:90 | a found index is a `\r\n` position |
| Pei.IndexOfCrLfFirst | serialPei.js:90 | it finds the first `\r\n`, and none exactly when there is none |
| Pei.ExtractRebuilds | serialPei.js:88-101 | the extracted lines, each followed by `\r\n`, plus the kept buffer rebuild the input |
| Pei.ExtractClean | serialPei.js:88-101 | neither the lines nor the kept buffer contain `\r\n` |
| Pei.BareLineFeed | serialPei.js:90 | text without a carriage return yields no line: a bare `\n` does not end one |
| Pei.ExtractResume | serialPei.js:84-92 | extracting `x + y` equals extracting `x` and then the kept rest plus `y` |
| Pei.EchoesShowNonBlank | serialPei.js:98-100 | exactly the non-blank lines are echoed, trimmed, with the PEI tag, and nothing is written |
| Pei.ReceiveChunks | serialPei.js:84-101 | receiving `a + b` in one chunk gives the same buffer and effects as `a` then `b` |
| Pei.ReceivePrints | serialPei.js:88-100 | what a chunk prints is the tagged trimmed non-blank lines it completes, in order; it writes nothing |
| Pei.SendPeiCommand | serialPei.js:70-79 | without a link the only effect is the warning and nothing is written. With one, the frame `PeiData(cmd)` is written exactly once, before the single echo of the command with the PEI tag, and nothing is handed to the log store |
| Pei.PeiDataFramed | serialPei.js:72-77 | a command is written as one `\r\n`-terminated line, except that a Ctrl-Z-terminated one gets only `\n` and so is not a line to the framer |
| Pei.PeiSendWrites | serialPei.js:70-79 | it writes one frame when connected and nothing otherwise |
| Pei.FindModeFirst | serialPei.js:111 | the chosen entry is the first with the mode; there is none exactly when no entry has it |
| Pei.RunPeiInit | serialPei.js:109-118 | it always ends with a print: the not-found warning or the done message |
| Pei.RunPeiInitWrites | serialPei.js:109-118 | an unknown mode only warns. Otherwise the first matching entry's commands are written in order, each framed, when connected |
| Serial.SendCommand | serial.js:94-100 | without a link the only effect is the warning and nothing is written. With one, exactly one write `cmd\r\n` is made, as the last effect after the echo, and the logged command is that write less its `\r\n` |
| Serial.SendCommandWrites | serial.js:94-100 | it writes `cmd\r\n` when connected and nothing otherwise |
| Serial.SendCommandLine | serial.js:99 | the written text splits into exactly the command as one line |
| Serial.RunInitialSetupWrites | serial.js:121-127 | when connected, the init commands are written in order, each with `\r\n`; otherwise nothing |
| Serial.ProfileIndexReadBack | serial.js:131 | a profile command's middle field reads back as the profile index |
| Serial.EnableAllWrites | serial.js:129-135 | profiles 0 to 15 are enabled in order, one command each |
| Serial.EnableTnp1Profile | serial.js:137-144 | it always ends with a print: the invalid-profile warning or the confirmation |
| Serial.EnableTnp1ProfileWrites | serial.js:137-144 | an input that is not an integer in 0..15 writes nothing. Otherwise it writes `AT+CTSP=1,<idx>,1` when connected |
| Serial.EnableTnp1ProfileOf | serial.js:137-144 | every profile number 0..15, written in decimal, is enabled by its own command |
| MapModel.SetIssiIconType | map.js:39-41 | a known icon name, or a name inherited by plain objects (which passes the `in` test), is stored exactly as given; any other name is stored as `man`. Other ISSIs and other state are unchanged |
| MapModel.SetCurrentTrack | map.js:196-199 | the current track is set exactly when the id parses as a decimal integer, cleared otherwise; nothing else changes |
| MapModel.SetCurrentTrackPrinted | map.js:196-199 | a track id printed in decimal selects that id |
| MapModel.AddTrackPoint | map.js:206-216 | without a map nothing changes. Otherwise the point is appended to that track, created if missing, and other tracks are unchanged |
| MapModel.AddTrackPointForCurrent | map.js:201-204 | it does nothing without a current track, else adds to it |
| MapModel.ClearTrack | map.js:218-225 | the track becomes empty (present), others unchanged, even without a map |
| MapModel.ClearThenAdd | map.js:206-225 | with a map, clearing a track and then adding any number of points one at a time leaves exactly those points, in order |
| MapModel.RecordPosition | parsing.js:268-269 | a fix sets the ISSI's position and extends the current track when there is one and a map |
| MapModel.LoadTracks | map.js:227-235 | every listed id ends up with a track |
| MapModel.LoadTracksKeys | map.js:227-235 | the track ids afterwards are the old ones plus the listed ones |
| MapModel.LoadTracksLastWins | map.js:227-235 | a listed id holds the points of its last entry, or none when those are missing |
| MapModel.LoadTracksKeepsOthers | map.js:227-235 | tracks not listed are kept |
| MapModel.LoadTrackLines | map.js:227-235 | without a map or a list nothing changes, and only tracks change otherwise |
| MapModel.AddStaticMarker | map.js:148-157 | with a map, the marker is stored under its id, popup = description, HAMNET icon exactly when the description mentions `hamnetdb.net` |
| MapModel.LoadMarkers | map.js:159-177 | without a map nothing changes, and only markers change otherwise |
| MapModel.LoadMarkersReconciles | map.js:159-177 | the marker ids become exactly the listed ids. Each takes position and popup from its last entry, and kept markers keep their icon |
| MapModel.GetTracksData | map.js:237-239 | one record per stored track, with its points, in ascending id order |
| UiLog.Print | utils.js:3-15 | one record (time, text) is appended to the log and the text to the output. The SDS pane changes exactly when it exists and the text starts with the SDS-text or GPS prefix |
| UiLog.PrintAllOutput | utils.js:5 | after a series of prints the output gains each text followed by a line feed |
| UiLog.PrintAllPane | utils.js:7-13 | the SDS pane gains exactly the mirrored texts, in order |
| UiLog.PrintAllEntries | utils.js:14 | the log gains one record per print, in order, earlier records untouched |
| UiLog.ExportToCsvReadsBack | utils.js:21-26 | the CSV reads back as the header `timestamp,text` and one record per log entry with its timestamp and exact text |
| LogViewer.FormatEntry | logViewer.js:104-131 | the store name overrides the entry type. The result is undefined exactly for a command entry without `command` or an SDS entry with neither message nor hex. Unknown selectors give the empty string |
| LogViewer.StoreTakesPrecedence | logViewer.js:105 | with a store name the entry's type has no influence |
| LogViewer.TypeWithoutStore | logViewer.js:105 | without a store the entry's own type selects the format |
| LogViewer.SdsShowsMessage | logViewer.js:110-111 | an SDS entry shows its non-empty message, else its hex |
| LogViewer.TrackReadsBack | logViewer.js:125-127 | a track's text splits back into one piece per point, each the point's coordinates joined with commas |
| LogViewer.ExportDbCsv | logViewer.js:133-139 | the export exists exactly when every entry formats, since the quote-doubling `replace` fails on undefined |
| LogViewer.ExportDbCsvReadsBack | logViewer.js:133-139 | the CSV reads back as the header `timestamp,type,data` and, per entry, its timestamp, type and formatted data |
| WebParser.PushLog | webParser.js:87-88 | the entry goes first, the old entries follow in order, and a log within the cap stays within it |
| WebParser.PushIsCap | webParser.js:87-88 | pushing onto a log within the cap equals prepending and keeping the first 100 |
| WebParser.HandleMessage | webParser.js:56-92 | unreadable frames and frames without a usable body change nothing. Status and QRV lists are replaced wholesale. Accepted log frames (`logging`, module containing `log/`) are put first in the web log, and nothing else changes |
| WebParser.GroupsReadBack | webParser.js:68 | a site's groups text splits back into its outgoing, incoming and ignored calls, in that order |
| WebParser.LogKeepsNewest | webParser.js:85-91 | after any frame sequence the web log is the accepted entries newest first, then the old log, cut to 100 |
| JsText.SplitPieces | parsing.js:32 | split pieces contain no separator, and there are several exactly when the separator occurs |
| JsText.JoinSplit | dapnetClient.js:11 | joining the pieces of a split with the separator restores the string |
| JsText.SplitJoin | webParser.js:68 | splitting a join of separator-free pieces gives the pieces back |
| JsText.SplitLinesHaveNoNewline | parsing.js:67 | the pieces of a CR?LF split contain no line feed |
| JsText.NonEmpty | parsing.js:67 | keeps exactly the non-empty strings |
| JsText.ToLowerAscii | dapnetClient.js:18 | same length; ASCII capitals become lower case, everything else is kept |
| JsText.UndoubleDouble | utils.js:24 | undoubling the doubled quotes gives the text back |
| JsText.DoubledQuotesPair | utils.js:24 | after doubling, every quote belongs to a pair |
| JsNum.DigitPrefix | parsing.js:94 | the digits read are the longest digit prefix |
| JsNum.ParseIntOfHex | parsing.js:438 | `parseInt(x, 16)` of non-empty hex is its hex value |
| JsNum.ParseDecimal | serial.js:138 | a number printed in decimal parses back to itself |
| JsNum.ParseIntString | map.js:197 | any integer printed with its sign parses back to itself |
| JsNum.ToRadix | dapnetClient.js:32 | the digits are valid for the radix and denote the number; one digit exactly below the radix |
| JsNum.PadStart | dapnetClient.js:32 | the result has the wanted width, ends with the input and is padded with the fill character |
| JsNum.HexBytePadded | sds.js:40 | a byte printed in hex and padded to two digits is its two-digit hex |
| JsNum.JsRem | dapnetClient.js:31 | the remainder keeps the sign of the dividend, as JavaScript's `%` does |
| Link.SendEachWrites | serial.js:123-126 | sending each command writes exactly one frame per command, in order |

## Left out

- Radio.HandleData, Radio.ParseSds: the debug prints (the 🧪 lines of parsing.js:180-182, 227-264, 296, 338, 357 and 395) have no event. They show float renderings (`toFixed`) that the model does not compute. They still reach the log entries and the CSV export in the program.
- Radio.HandleData: the other prints become typed events rather than their German text. `logSds`/`logGps` (IndexedDB) and `updateMap` (Leaflet) are folded into those events.
- Radio.HandleData: `parseGps` (parsing.js:141-154) is reduced to a `TerminalGps` event. Its regular expression over floating-point minutes is not modelled.
- Radio.HandleData: the line listeners (parsing.js:72-74) are outside the core. The model records a `LineObserved` event in their place.
- Radio.FireRetry: the one-second `setTimeout` before a retry is not modelled. A retry is an event that the caller fires later, in any order with other input.
- Pei.Receive: the `⏱️ PEI Antwortzeit` print (serialPei.js:93-97) and the `pendingTime2` timestamp behind it are left out, because they read the clock.
- Serial.SendCommand: the `⏱️ Antwortzeit` print of `listen` (serial.js:108-112) and the `pendingTime` state are left out for the same reason.
- Dapnet.Login: `ToLowerAscii` lower-cases ASCII letters only, while `toLowerCase` maps all of Unicode. A callsign with non-ASCII capitals (`DÖ1AB`) keeps them in the model.
- Dapnet.OnDataChunks: chunks are text that is already decoded. The program decodes each TCP chunk separately, so invariance under re-chunking holds only for cuts at UTF-8 character boundaries. A cut inside a multi-byte character becomes replacement characters in the program.
- Dapnet.OnChunksConcat: the same UTF-8 boundary caveat applies.
- JsNum.ParseInt: results are unbounded integers. JavaScript numbers lose precision above 2^53, so digit strings that long parse to rounded values in the program.
- SdsOut.SendSdsHex, SdsOut.SendSds, Serial.RunInitialSetup, Serial.EnableAllTnp1Profiles, Pei.RunPeiInit: the delays between commands (sds.js:22-24, 46-50, serial.js:125, 133, serialPei.js:115) are not modelled. Neither is the interleaving of other input during those awaits: a send is one atomic run of effects.
- SdsOut.SendSdsHex: the `catch` branches for a failed write are left out, since a write into the model never fails.
- WebParser.HandleMessage: JSON parsing is a parameter. A frame arrives already parsed, with the entries of `msg` in the order `Object.keys` gives; that order is not derived.
- WebParser.HandleMessage: a `status` or `qrv` frame whose `msg` is not JSON throws in the program and is modelled as a frame that changes nothing.
- MapModel.GetTracksData: the ascending-id order is JavaScript's key order only for ids that are array indexes (0 to 2^32 − 2). The program's ids are 1..10 (script.js:239) or database auto-increment keys, which are. Other keys would be listed after those, in insertion order, which the model does not track.
- MapModel: the Leaflet layers, popups, icons, the house marker (`updateHousePosition`), remote markers and `notifyTrackChange` are left out; only the data behind them is modelled.
- MapModel.LoadMarkers: `Number(id)` on object keys is taken as the identity on integer ids.
- UiLog.Print: the timestamp is a parameter instead of `new Date().toISOString()`. Scrolling and the DOM are left out.
- UiLog.ExportToCsv, LogViewer.ExportDbCsv: the Blob download is left out. The read-back lemmas assume that timestamps and types contain no double quote, as ISO timestamps and the program's type names do not; the program does not double quotes in those two columns.
- LogViewer.FormatEntry: stored fields are strings, with `undefined` rendered for missing ones. Numbers in stored entries (such as `lat`) are assumed already rendered as text.
- Pei: `loadPeiInit` (the fetch of `peiInit.json`) is replaced by a table parameter. Connecting, disconnecting and the reader loop's error prints are left out.
- Serial, Pei: opening, closing and losing the Web Serial ports is left out. `connected` stands for the presence of the writer.
- Dapnet: the socket, host, port, error handler and the command-line entry point (dapnetClient.js:15-17, 43-52) are left out.
- Dapnet, Pei, Radio: line handling works on decoded strings whose characters are Unicode code points, where JavaScript strings count UTF-16 code units. Text encoders and decoders are left out.
- Dapnet.ParseMessage: `slice(4)` (dapnetClient.js:4-5) cuts after four characters where JavaScript cuts after four UTF-16 code units, so the two differ when the first four characters of a line hold one outside the Basic Multilingual Plane. The same holds for every other index-based cut of a line in the model.
- Coordinates are exact reals. Floating-point rounding of the divisions by 1e6 and 131072 is not modelled.

=== FILE: atlines.dfy ===
/** The single-line readers of parsing.js: the call-reference to
    talkgroup bookkeeping behind the group activity display, the `+CSQ`
    signal reading, the `+CREG` reading and the rows of a `+GCLI` cell
    listing. */
module AtLines {
  import opened Wrappers
  import opened JsText
  import opened JsNum
  import opened Events

  /** The talkgroups whose activity is shown. */
  const KnownTgs: seq<string> := ["1", "2", "3", "4", "91102", "262", "26200"]

  /** `callRefToTg`: the talkgroup of each open call reference. */
  type CallRefs = map<string, string>

  /** The RSSI to dBm mapping of the `+CSQ` response in section 8.5 of
      3GPP TS 27.007: 0 is -113 dBm or less, each step adds 2 dB, and 31
      is -51 dBm or more. */
  function Dbm(rssi: int): (d: int)
    ensures 0 <= rssi <= 31 ==> -113 <= d <= -51
    ensures d % 2 == 1 && (d + 113) / 2 == rssi
  {
    -113 + rssi * 2
  }

  /** `Dbm` is strictly increasing, so it can be read back. */
  lemma DbmInjective(a: int, b: int)
    ensures a < b <==> Dbm(a) < Dbm(b)
    ensures Dbm(a) == Dbm(b) ==> a == b
  {
  }

  /** `line.split(':')[1].split(',').map(p => p.trim())`. Every line it
      is applied to has a colon; without one the second piece is taken as
      empty. */
  function Fields(line: string): (f: seq<string>)
    ensures |f| >= 1
  {
    var pieces := Split(line, ':');
    var parts := Split(if |pieces| >= 2 then pieces[1] else [], ',');
    seq(|parts|, k requires 0 <= k < |parts| => Trim(parts[k]))
  }

  /** The call-control notifications the group display follows. */
  datatype CallTag = SetupIndication | GroupSetup | TransmitGrant | Release | Unrelated

  /** Which notification a line starts with. */
  function TagOf(line: string): (t: CallTag)
    ensures t == SetupIndication <==> "+CTICN:" <= line
    ensures t == GroupSetup <==> "+CTGS:" <= line
    ensures t == TransmitGrant <==> "+CTXG:" <= line
    ensures t == Release <==> "+CTCR:" <= line
  {
    if "+CTICN:" <= line then
      assert line[3] == 'I';
      SetupIndication
    else if "+CTGS:" <= line then
      assert line[3] == 'G';
      GroupSetup
    else if "+CTXG:" <= line then
      assert line[3] == 'X';
      TransmitGrant
    else if "+CTCR:" <= line then Release
    else Unrelated
  }

  /** The group activity shown for a talkgroup: only known talkgroups. */
  function Show(tg: string, talker: Option<string>): (r: seq<Event>)
    ensures r != [] <==> tg in KnownTgs
    ensures r != [] ==> r == [GroupActive(tg, talker)]
  {
    if tg != [] && tg in KnownTgs then [GroupActive(tg, talker)] else []
  }

  /** `parseGroupActivity`: a call set-up indication (`+CTICN`, six
      fields or more) or a group call set-up (`+CTGS`, two fields or
      more) records the talkgroup of its call reference; a transmission
      grant (`+CTXG`, six fields or more) looks the talkgroup up; a call
      release (`+CTCR`) forgets the reference. A known talkgroup found on
      the way is shown as active. */
  function GroupActivity(refs: CallRefs, line: string): (r: (CallRefs, seq<Event>))
    ensures |r.1| <= 1
    ensures r.1 != [] ==> r.1[0].GroupActive? && r.1[0].tg in KnownTgs
    ensures TagOf(line) == Unrelated ==> r == (refs, [])
    ensures TagOf(line) == SetupIndication ==> var f := Fields(line);
      r == if |f| >= 6 then (refs[f[0] := f[|f| - 2]], Show(f[|f| - 2], Some(f[4]))) else (refs, [])
    ensures TagOf(line) == GroupSetup ==> var f := Fields(line);
      r == if |f| >= 2 then (refs[f[0] := f[1]], Show(f[1], None)) else (refs, [])
    ensures TagOf(line) == TransmitGrant ==> var f := Fields(line);
      r.0 == refs && (r.1 != [] <==> |f| >= 6 && f[0] in refs && refs[f[0]] in KnownTgs)
      && (r.1 != [] ==> r.1 == [GroupActive(refs[f[0]], Some(f[5]))])
    ensures TagOf(line) == Release ==> r == (refs - {Fields(line)[0]}, [])
  {
    var f := Fields(line);
    match TagOf(line)
    case SetupIndication =>
      if |f| >= 6 then (refs[f[0] := f[|f| - 2]], Show(f[|f| - 2], Some(f[4]))) else (refs, [])
    case GroupSetup =>
      if |f| >= 2 then (refs[f[0] := f[1]], Show(f[1], None)) else (refs, [])
    case TransmitGrant =>
      if |f| >= 6 && f[0] in refs then (refs, Show(refs[f[0]], Some(f[5]))) else (refs, [])
    case Release => (refs - {f[0]}, [])
    case Unrelated => (refs, [])
  }

  /** A transmission grant names the talkgroup its call reference was set
      up with, and after a release of that reference it names none. */
  lemma GrantAfterSetup(refs: CallRefs, setup: string, grant: string, release: string)
    requires TagOf(setup) == GroupSetup && |Fields(setup)| >= 2
    requires TagOf(grant) == TransmitGrant && |Fields(grant)| >= 6 && Fields(grant)[0] == Fields(setup)[0]
    requires TagOf(release) == Release && Fields(release)[0] == Fields(setup)[0]
    ensures var afterSetup := GroupActivity(refs, setup).0;
      && GroupActivity(afterSetup, grant).1 == Show(Fields(setup)[1], Some(Fields(grant)[5]))
      && GroupActivity(GroupActivity(afterSetup, release).0, grant).1 == []
  {
    var ref := Fields(setup)[0];
    var afterSetup := GroupActivity(refs, setup).0;
    assert afterSetup == refs[ref := Fields(setup)[1]];
    var afterRelease := GroupActivity(afterSetup, release).0;
    assert ref !in afterRelease;
  }

  /** The value of the `+CSQ:` match starting at the beginning of `s`:
      white space, then the longest run of decimal digits. */
  function CsqAt(s: string): Option<nat> {
    if !("+CSQ:" <= s) then None
    else
      var digits := DigitPrefix(TrimStart(s[5..]), 10);
      if digits == [] then None else Some(DigitsValue(digits, 10))
  }

  /** The first match of `/\+CSQ:\s*(\d+)/` in `s`. */
  function CsqSearch(s: string): (r: Option<nat>)
    decreases |s|
  {
    if s == [] then None
    else if CsqAt(s).Some? then CsqAt(s)
    else CsqSearch(s[1..])
  }

  /** `parseSignalStrength`: the RSSI value and its dBm reading are shown
      and charted when the pattern matches. */
  function ParseSignalStrength(line: string): (r: seq<Event>)
    ensures |r| <= 1
    ensures r != [] ==> r[0].SignalStrength? && r[0].dbm == Dbm(r[0].rssi)
  {
    match CsqSearch(line)
    case None => []
    case Some(rssi) => [SignalStrength(rssi, Dbm(rssi))]
  }

  /** A `+CSQ: <rssi>,<ber>` response is read as its RSSI value. */
  lemma CsqReadsBack(rssi: nat, ber: string)
    ensures ParseSignalStrength("+CSQ: " + Decimal(rssi) + "," + ber) == [SignalStrength(rssi, Dbm(rssi))]
  {
    var d := Decimal(rssi);
    var tail := d + "," + ber;
    var line := "+CSQ: " + d + "," + ber;
    assert line[..5] == "+CSQ:" && line[5] == ' ' && line[6..] == tail;
    CsqAtResponse(line, d, "," + ber);
  }

  lemma CsqAtResponse(line: string, d: string, rest: string)
    requires |line| >= 6 && line[..5] == "+CSQ:" && line[5] == ' ' && line[6..] == d + rest
    requires d != [] && AllDigitsOf(d, 10) && rest != [] && !IsDecDigit(rest[0])
    ensures CsqAt(line) == Some(DigitsValue(d, 10))
  {
    var tail := d + rest;
    var after := line[5..];
    assert "+CSQ:" <= line;
    SpaceThenDigits(after, d, rest);
    DigitPrefixStops(d, rest);
  }

  /** One space before digits trims away. */
  lemma SpaceThenDigits(after: string, d: string, rest: string)
    requires |after| >= 1 && after[0] == ' ' && after[1..] == d + rest
    requires d != [] && AllDigitsOf(d, 10)
    ensures TrimStart(after) == d + rest
  {
    var t := after[1..];
    assert IsDigitOf(d[0], 10);
    var c := t[0];
    assert c == d[0];
    assert !IsSpace(c);
    assert TrimStart(t) == t;
  }

  /** The digit prefix of digits followed by a non-digit is those digits. */
  lemma {:induction false} DigitPrefixStops(d: string, tail: string)
    requires AllDigitsOf(d, 10) && tail != [] && !IsDecDigit(tail[0])
    ensures DigitPrefix(d + tail, 10) == d
  {
    if d == [] {
      assert d + tail == tail;
    } else {
      assert (d + tail)[1..] == d[1..] + tail;
      DigitPrefixStops(d[1..], tail);
      HeadTail(d);
    }
  }

  /** The value of the match of `/(-?\d+)\s*dBm/i` starting at the
      beginning of `s`: a minus sign is taken if present, then the
      longest run of digits, white space and the letters d, b, m in
      either case. */
  function DbmAt(s: string): Option<int> {
    var negative := s != [] && s[0] == '-';
    var body := if negative then s[1..] else s;
    var digits := DigitPrefix(body, 10);
    if digits == [] then None
    else
      var unit := TrimStart(body[|digits|..]);
      if |unit| >= 3 && ToLowerAscii(unit[..3]) == "dbm" then
        var v: int := DigitsValue(digits, 10);
        Some(if negative then -v else v)
      else None
  }

  /** The first match of `/(-?\d+)\s*dBm/i` in `s`. */
  function DbmSearch(s: string): Option<int>
    decreases |s|
  {
    if s == [] then None
    else if DbmAt(s).Some? then DbmAt(s)
    else DbmSearch(s[1..])
  }

  /** The last comma-separated field of a line. */
  function LastField(line: string): string {
    var parts := Split(line, ',');
    parts[|parts| - 1]
  }

  /** `parseCreg`: an explicit dBm value anywhere in the line is shown;
      otherwise a last field reading as 0..31 is an RSSI value, shown and
      charted with its dBm reading. */
  function ParseCreg(line: string): (r: seq<Event>)
    ensures |r| <= 1
    ensures DbmSearch(line).Some? ==> r == [CregDbm(DbmSearch(line).value)]
    ensures DbmSearch(line).None? ==>
      (r != [] <==> ParseInt(LastField(line), 0).Some? && 0 <= ParseInt(LastField(line), 0).value <= 31)
    ensures r != [] && r[0].CregRssi? ==> 0 <= r[0].rssi <= 31 && r[0].dbm == Dbm(r[0].rssi)
  {
    match DbmSearch(line)
    case Some(d) => [CregDbm(d)]
    case None =>
      match ParseInt(LastField(line), 0)
      case Some(v) => if 0 <= v <= 31 then [CregRssi(v, Dbm(v))] else []
      case None => []
  }

  /** A line without the letter d has no dBm match. */
  lemma {:induction false} NoDbmWithoutD(s: string)
    requires forall k :: 0 <= k < |s| ==> s[k] != 'd' && s[k] != 'D'
    ensures DbmSearch(s) == None
    decreases |s|
  {
    if s != [] {
      NoDbmAtWithoutD(s);
      NoDbmWithoutD(s[1..]);
    }
  }

  /** No match starts anywhere in a text without the letter d. */
  lemma NoDbmAtWithoutD(s: string)
    requires forall k :: 0 <= k < |s| ==> s[k] != 'd' && s[k] != 'D'
    ensures DbmAt(s) == None
  {
    var negative := s != [] && s[0] == '-';
    var body := if negative then s[1..] else s;
    var digits := DigitPrefix(body, 10);
    if digits != [] {
      var unit := TrimStart(body[|digits|..]);
      if |unit| >= 3 {
        assert unit[0] in s;
        assert ToLowerAscii(unit[..3])[0] != 'd';
      }
    }
  }

  /** A registration line whose last field is an RSSI value is charted
      with its dBm reading when the value is in 0..31, and ignored
      otherwise. */
  lemma CregRssiField(head: string, rssi: nat)
    requires forall k :: 0 <= k < |head| ==> head[k] != 'd' && head[k] != 'D'
    ensures ParseCreg(head + "," + Decimal(rssi)) ==
      if rssi <= 31 then [CregRssi(rssi, Dbm(rssi))] else []
  {
    var d := Decimal(rssi);
    var line := head + [','] + d;
    assert head + "," + d == line;
    assert DbmSearch(line) == None by {
      assert forall k :: 0 <= k < |d| ==> IsDecDigit(d[k]);
      forall k | 0 <= k < |line| ensures line[k] != 'd' && line[k] != 'D' {
        if k > |head| {
          assert line[k] == d[k - |head| - 1];
        }
      }
      NoDbmWithoutD(line);
    }
    assert LastField(line) == d by {
      assert forall k :: 0 <= k < |d| ==> IsDecDigit(d[k]);
      SplitLastPiece(head, d, ',');
    }
    assert ParseInt(d, 0) == Some(rssi) by {
      ParseDecimal(rssi, 0);
    }
  }

  /** `parseGcliEntry`: rows with fewer than four comma-separated fields
      are ignored; otherwise the third field is read as the RSSI value,
      and a row where it is not a number is shown as it is. */
  function ParseGcliEntry(line: string): (r: seq<Event>)
    ensures r == [] <==> |Split(line, ',')| < 4
    ensures |r| <= 1
    ensures r != [] ==> var parts := Split(line, ',');
      match ParseInt(parts[2], 0)
      case Some(v) => r[0] == GcliCell(Trim(parts[0]), Trim(parts[1]), v, Dbm(v))
      case None => r[0] == GcliRaw(line)
  {
    var parts := Split(line, ',');
    if |parts| < 4 then []
    else
      match ParseInt(parts[2], 0)
      case Some(v) => [GcliCell(Trim(parts[0]), Trim(parts[1]), v, Dbm(v))]
      case None => [GcliRaw(line)]
  }

  /** A cell row `cell,freq,rssi,...` is shown with the trimmed cell and
      frequency and the RSSI value with its dBm reading. */
  lemma GcliRowReadsBack(cell: string, freq: string, rssi: nat, rest: string)
    requires ',' !in cell && ',' !in freq
    ensures ParseGcliEntry(cell + "," + freq + "," + Decimal(rssi) + "," + rest) ==
      [GcliCell(Trim(cell), Trim(freq), rssi, Dbm(rssi))]
  {
    var d := Decimal(rssi);
    var t2 := d + [','] + rest;
    var t1 := freq + [','] + t2;
    var line := cell + [','] + t1;
    assert cell + "," + freq + "," + d + "," + rest == line;
    GcliRowFields(line, cell, t1, freq, t2, d, rest);
    ParseDecimal(rssi, 0);
  }

  lemma GcliRowFields(line: string, cell: string, t1: string, freq: string, t2: string, d: string, rest: string)
    requires ',' !in cell && ',' !in freq && AllDigitsOf(d, 10)
    requires line == cell + [','] + t1 && t1 == freq + [','] + t2 && t2 == d + [','] + rest
    ensures var parts := Split(line, ',');
      |parts| >= 4 && parts[0] == cell && parts[1] == freq && parts[2] == d
  {
    assert ',' !in d by {
      assert forall k :: 0 <= k < |d| ==> IsDecDigit(d[k]);
    }
    SplitAtSeparator(d, rest, ',');
    SplitAtSeparator(freq, t2, ',');
    SplitAtSeparator(cell, t1, ',');
  }
}

=== FILE: csv.dfy ===
/** The CSV files the console and the log viewer export, and a reader for
    them in the sense of RFC 4180: fields separated by `,`, records by a
    line feed, a field in double quotes may hold both and writes a quote
    as two. The reader is the model's own; it states what the exported
    text means. */
module Csv {
  import opened Wrappers
  import opened JsText

  /** A field written in double quotes, inner quotes doubled. */
  function Quote(field: string): string {
    "\"" + DoubleQuotes(field) + "\""
  }

  /** A record of quoted fields separated by commas. */
  function QuotedRow(fields: seq<string>): string
    requires fields != []
  {
    if |fields| == 1 then Quote(fields[0]) else Quote(fields[0]) + "," + QuotedRow(fields[1..])
  }

  /** A record of plain fields separated by commas. */
  function PlainRow(fields: seq<string>): string
    requires fields != []
  {
    if |fields| == 1 then fields[0] else fields[0] + "," + PlainRow(fields[1..])
  }

  /** Two plain fields joined by a comma. */
  lemma PlainPair(a: string, b: string)
    ensures PlainRow([a, b]) == a + "," + b
  {
    assert [a, b][1..] == [b];
  }

  /** Three plain fields joined by commas. */
  lemma PlainTriple(a: string, b: string, c: string)
    ensures PlainRow([a, b, c]) == a + "," + b + "," + c
  {
    assert [a, b, c][1..] == [b, c];
    PlainPair(b, c);
  }

  /** Three quoted fields, spelled out as a template literal would. */
  lemma QuotedTriple(a: string, b: string, c: string)
    ensures QuotedRow([a, b, c])
      == "\"" + DoubleQuotes(a) + "\",\"" + DoubleQuotes(b) + "\",\"" + DoubleQuotes(c) + "\""
  {
    var fields := [a, b, c];
    assert fields[1..] == [b, c] && fields[1..][1..] == [c];
    var q, x, y, z := "\"", DoubleQuotes(a), DoubleQuotes(b), DoubleQuotes(c);
    assert QuotedRow(fields[1..][1..]) == q + z + q;
    assert QuotedRow(fields[1..]) == (q + y + q) + "," + (q + z + q);
    assert QuotedRow(fields) == (q + x + q) + "," + ((q + y + q) + "," + (q + z + q));
    assert "\",\"" == q + "," + q;
    Regroup3(q, ",", x, y, z);
  }

  /** Three wrapped pieces with a separator between each, regrouped so the
      wrapping and the separator meet. */
  lemma Regroup3<T>(q: seq<T>, c: seq<T>, x: seq<T>, y: seq<T>, z: seq<T>)
    ensures (q + x + q) + c + ((q + y + q) + c + (q + z + q))
      == q + x + (q + c + q) + y + (q + c + q) + z + q
  {
  }

  /** The inside of a quoted field, read after its opening quote up to the
      closing one: a doubled quote stands for one quote. `None` when the
      closing quote is missing. */
  function QuotedRest(s: string): (r: Option<(string, string)>)
    ensures r.Some? ==> |r.value.1| < |s|
    decreases |s|
  {
    if s == [] then None
    else if s[0] == '"' then
      if |s| >= 2 && s[1] == '"' then
        match QuotedRest(s[2..])
        case None => None
        case Some(p) => Some(("\"" + p.0, p.1))
      else Some(([], s[1..]))
    else
      match QuotedRest(s[1..])
      case None => None
      case Some(p) => Some(([s[0]] + p.0, p.1))
  }

  /** An unquoted field: everything up to the next comma or line feed. */
  function PlainRest(s: string): (r: (string, string))
    ensures |r.1| <= |s|
  {
    if s == [] || s[0] == ',' || s[0] == '\n' then ([], s)
    else
      var p := PlainRest(s[1..]);
      ([s[0]] + p.0, p.1)
  }

  /** An unquoted field and what follows it make up the input, and the
      field holds no comma and no line feed. */
  lemma {:induction false} PlainRestSplits(s: string)
    ensures var r := PlainRest(s); r.0 + r.1 == s && ',' !in r.0 && '\n' !in r.0
  {
    if !(s == [] || s[0] == ',' || s[0] == '\n') {
      PlainRestSplits(s[1..]);
      var p := PlainRest(s[1..]);
      assert PlainRest(s) == ([s[0]] + p.0, p.1);
      Associate([s[0]], p.0, p.1);
      HeadTail(s);
      assert forall i :: 0 <= i < |[s[0]] + p.0| ==> ([s[0]] + p.0)[i] == if i == 0 then s[0] else p.0[i - 1];
    }
  }

  /** One field from the start of `s`, and what follows it. */
  function Field(s: string): (r: Option<(string, string)>)
    ensures r.Some? ==> |r.value.1| <= |s|
  {
    if s != [] && s[0] == '"' then QuotedRest(s[1..]) else Some(PlainRest(s))
  }

  /** One record from the start of `s`: its fields, and the text after the
      line feed that ends it. `None` when a field is not followed by a
      comma, a line feed or the end. */
  function Record(s: string): (r: Option<(seq<string>, string)>)
    ensures r.Some? ==> r.value.0 != [] && (|r.value.1| < |s| || s == [])
    decreases |s|
  {
    match Field(s)
    case None => None
    case Some(p) =>
      if p.1 == [] then Some(([p.0], []))
      else if p.1[0] == '\n' then Some(([p.0], p.1[1..]))
      else if p.1[0] == ',' then
        match Record(p.1[1..])
        case None => None
        case Some(q) => Some(([p.0] + q.0, q.1))
      else None
  }

  /** All records of a file. */
  function Records(s: string): (r: Option<seq<seq<string>>>)
    decreases |s|
  {
    if s == [] then Some([])
    else
      match Record(s)
      case None => None
      case Some(p) =>
        match Records(p.1)
        case None => None
        case Some(rs) => Some([p.0] + rs)
  }

  /** What may follow a complete record. */
  predicate EndsRecord(rest: string) {
    rest == [] || rest[0] == '\n'
  }

  /** The text after a record's line feed. */
  function AfterRecord(rest: string): string {
    if rest == [] then [] else rest[1..]
  }

  /** A text without quotes is written unchanged by the quote doubling. */
  lemma {:induction false} DoubleQuotesNone(s: string)
    requires '"' !in s
    ensures DoubleQuotes(s) == s
  {
    if s != [] {
      assert '"' !in s[1..];
      DoubleQuotesNone(s[1..]);
      HeadTail(s);
    }
  }

  /** The doubled text followed by one closing quote reads back as the
      text, whatever comes after the closing quote (as long as it does not
      start with a second quote). */
  lemma {:induction false} QuotedRestDouble(x: string, rest: string)
    requires rest == [] || rest[0] != '"'
    ensures QuotedRest(DoubleQuotes(x) + "\"" + rest) == Some((x, rest))
  {
    var s := DoubleQuotes(x) + "\"" + rest;
    if x == [] {
      assert s == "\"" + rest;
      assert s[1..] == rest;
    } else {
      QuotedRestDouble(x[1..], rest);
      var t := DoubleQuotes(x[1..]) + "\"" + rest;
      if x[0] == '"' {
        assert s == "\"\"" + t;
        assert s[2..] == t;
        assert "\"" + x[1..] == x;
      } else {
        assert s == [x[0]] + t;
        assert s[1..] == t;
        HeadTail(x);
      }
    }
  }

  /** A quoted field reads back as its text. */
  lemma QuotedField(x: string, rest: string)
    requires rest == [] || rest[0] != '"'
    ensures Field(Quote(x) + rest) == Some((x, rest))
  {
    var s := Quote(x) + rest;
    assert s[0] == '"';
    assert s[1..] == DoubleQuotes(x) + "\"" + rest;
    QuotedRestDouble(x, rest);
  }

  /** A plain field reads back as itself. */
  lemma {:induction false} PlainRestOf(x: string, rest: string)
    requires ',' !in x && '\n' !in x
    requires rest == [] || rest[0] == ',' || rest[0] == '\n'
    ensures PlainRest(x + rest) == (x, rest)
  {
    if x == [] {
      assert x + rest == rest;
    } else {
      assert (x + rest)[1..] == x[1..] + rest;
      assert ',' !in x[1..] && '\n' !in x[1..];
      PlainRestOf(x[1..], rest);
      HeadTail(x);
    }
  }

  /** A record whose first field ends the record. */
  lemma RecordAtEnd(s: string, f: string, rest: string)
    requires Field(s) == Some((f, rest)) && EndsRecord(rest)
    ensures Record(s) == Some(([f], AfterRecord(rest)))
  {
  }

  /** A record whose first field is followed by a comma goes on with the
      next field. */
  lemma RecordAfterComma(s: string, f: string, t: string)
    requires Field(s) == Some((f, "," + t))
    ensures Record(t).Some? ==> Record(s) == Some(([f] + Record(t).value.0, Record(t).value.1))
  {
    assert ("," + t)[1..] == t;
  }

  /** A plain field reads back as itself. */
  lemma PlainField(x: string, rest: string)
    requires ',' !in x && '\n' !in x && (x == [] || x[0] != '"')
    requires rest == [] || rest[0] == ',' || rest[0] == '\n'
    ensures Field(x + rest) == Some((x, rest))
  {
    PlainRestOf(x, rest);
    if x == [] {
      assert x + rest == rest;
    } else {
      assert (x + rest)[0] == x[0];
    }
  }

  /** Quoted fields separated by commas read back as one record. */
  lemma {:induction false} QuotedRowRecord(fields: seq<string>, rest: string)
    requires fields != []
    requires EndsRecord(rest)
    ensures Record(QuotedRow(fields) + rest) == Some((fields, AfterRecord(rest)))
  {
    if |fields| == 1 {
      QuotedField(fields[0], rest);
      RecordAtEnd(QuotedRow(fields) + rest, fields[0], rest);
      assert [fields[0]] == fields;
    } else {
      QuotedRowRecord(fields[1..], rest);
      QuotedRowStep(fields, rest);
    }
  }

  /** One more quoted field in front of a record that reads back. */
  lemma QuotedRowStep(fields: seq<string>, rest: string)
    requires |fields| >= 2
    requires Record(QuotedRow(fields[1..]) + rest) == Some((fields[1..], AfterRecord(rest)))
    ensures Record(QuotedRow(fields) + rest) == Some((fields, AfterRecord(rest)))
  {
    var tail := QuotedRow(fields[1..]) + rest;
    var s := QuotedRow(fields) + rest;
    RowShape(Quote(fields[0]), QuotedRow(fields[1..]), rest);
    QuotedField(fields[0], "," + tail);
    RecordAfterComma(s, fields[0], tail);
    HeadTail(fields);
  }

  /** Regrouping a row with what follows it. */
  lemma RowShape(head: string, row: string, rest: string)
    ensures head + "," + row + rest == head + ("," + (row + rest))
  {
  }

  /** Plain fields without commas, line feeds or a leading quote read back
      as one record. */
  lemma {:induction false} PlainRowRecord(fields: seq<string>, rest: string)
    requires fields != []
    requires forall k | 0 <= k < |fields| :: ',' !in fields[k] && '\n' !in fields[k] && (fields[k] == [] || fields[k][0] != '"')
    requires EndsRecord(rest)
    ensures Record(PlainRow(fields) + rest) == Some((fields, AfterRecord(rest)))
  {
    var f := fields[0];
    if |fields| == 1 {
      PlainField(f, rest);
      RecordAtEnd(PlainRow(fields) + rest, f, rest);
      assert [f] == fields;
    } else {
      var tail := PlainRow(fields[1..]) + rest;
      var s := PlainRow(fields) + rest;
      RowShape(f, PlainRow(fields[1..]), rest);
      PlainField(f, "," + tail);
      PlainRowRecord(fields[1..], rest);
      RecordAfterComma(s, f, tail);
      HeadTail(fields);
    }
  }

  /** Lines joined by line feeds read back record by record, when each line
      is non-empty and reads as one record whatever follows it. */
  lemma {:induction false} RecordsJoined(lines: seq<string>, rows: seq<seq<string>>)
    requires |lines| == |rows| && lines != []
    requires forall k | 0 <= k < |lines| :: lines[k] != []
    requires forall k, rest | 0 <= k < |lines| && EndsRecord(rest) ::
               Record(lines[k] + rest) == Some((rows[k], AfterRecord(rest)))
    ensures Records(Join(lines, "\n")) == Some(rows)
  {
    var s := Join(lines, "\n");
    if |lines| == 1 {
      assert EndsRecord([]);
      assert lines[0] + [] == s;
      assert Record(s) == Some((rows[0], []));
      assert Records(s) == Some([rows[0]] + []);
      assert [rows[0]] + [] == rows;
    } else {
      var tail := Join(lines[1..], "\n");
      var rest := "\n" + tail;
      assert s == lines[0] + rest;
      assert EndsRecord(rest) && AfterRecord(rest) == tail;
      assert Record(s) == Some((rows[0], tail));
      RecordsJoined(lines[1..], rows[1..]);
      assert s != [];
      assert Records(s) == Some([rows[0]] + rows[1..]);
      HeadTail(rows);
    }
  }
}

=== FILE: dapnet.dfy ===
/** The DAPNET gateway client: the login line, the line framer on the
    socket and the answer to each line the core sends. The socket itself
    is left out: a data event is a step from the old buffer and a chunk
    to the new buffer, the writes in order and the parsed messages. */
module Dapnet {
  import opened Wrappers
  import opened JsText
  import opened JsNum

  /** A parsed message line. Every number is `NaN` (here `None`) when
      its field does not start with a digit of its radix. */
  datatype Message = Message(id: Option<int>, msgType: Option<int>, timestamp: string,
                             address: Option<int>, func: Option<int>, text: string)

  /** What one data event leaves behind: the unfinished line, the writes
      to the socket in order and the messages handed to `onMessage`. */
  datatype Fed = Fed(buffer: string, writes: seq<string>, messages: seq<Message>)

  const LoginError: string := "callsign and authKey required"

  /** The first write after connecting, or the error thrown before any
      connection is made when the callsign or the auth key is missing
      (the empty string standing for a missing one). */
  function Login(callsign: string, authKey: string): (r: Result<string, string>)
    ensures r.Failure? <==> callsign == [] || authKey == []
    ensures r.Failure? ==> r.error == LoginError
  {
    if callsign == [] || authKey == [] then Failure(LoginError)
    else Success("[DAPNETGateway v1.0 " + ToLowerAscii(callsign) + " " + authKey + "]\r\n")
  }

  lemma LowerHasNoSpace(s: string)
    requires ' ' !in s
    ensures ' ' !in ToLowerAscii(s)
  {
    var r := ToLowerAscii(s);
    forall k | 0 <= k < |r| ensures r[k] != ' ' {
      if 'A' <= s[k] <= 'Z' {
        assert 'a' <= r[k] <= 'z';
      }
    }
  }

  /** The login line read back: split at its blanks it gives the gateway
      name, the version, the lower-cased callsign and the auth key with
      the closing bracket and line end, as long as neither credential
      holds a blank. */
  lemma LoginFields(callsign: string, authKey: string)
    requires callsign != [] && authKey != [] && ' ' !in callsign && ' ' !in authKey
    ensures Login(callsign, authKey).Success?
    ensures Split(Login(callsign, authKey).value, ' ') ==
      ["[DAPNETGateway", "v1.0", ToLowerAscii(callsign), authKey + "]\r\n"]
  {
    var lower := ToLowerAscii(callsign);
    var tail := authKey + "]\r\n";
    var fields := ["[DAPNETGateway", "v1.0", lower];
    LoginJoined(callsign, authKey);
    LowerHasNoSpace(callsign);
    assert forall f | f in fields :: ' ' !in f;
    KeyTailSolid(authKey);
    SplitJoined(fields, tail, ' ');
  }

  /** The login line is its three leading fields joined before the key. */
  lemma LoginJoined(callsign: string, authKey: string)
    requires callsign != [] && authKey != []
    ensures Login(callsign, authKey).value ==
      Joined(["[DAPNETGateway", "v1.0", ToLowerAscii(callsign)], authKey + "]\r\n", ' ')
  {
    var lower := ToLowerAscii(callsign);
    var tail := authKey + "]\r\n";
    var fields := ["[DAPNETGateway", "v1.0", lower];
    assert fields[2..][1..] == [];
    assert Joined(fields[2..], tail, ' ') == lower + [' '] + tail;
    assert fields[1..][1..] == fields[2..];
    assert fields[1..][0] == "v1.0";
    assert Joined(fields, tail, ' ') == "[DAPNETGateway v1.0 " + (lower + [' '] + tail);
    JoinShape("[DAPNETGateway v1.0 ", lower, [' '], authKey, "]\r\n");
  }

  /** Regrouping the pieces of the login line. */
  lemma JoinShape<T>(head: seq<T>, a: seq<T>, sp: seq<T>, b: seq<T>, end: seq<T>)
    ensures head + (a + sp + (b + end)) == head + a + sp + b + end
  {
  }

  /** The key with the closing bracket and line end is one field. */
  lemma KeyTailSolid(authKey: string)
    requires ' ' !in authKey
    ensures Split(authKey + "]\r\n", ' ') == [authKey + "]\r\n"]
  {
    var tail := authKey + "]\r\n";
    assert ' ' !in tail by {
      assert forall k :: 0 <= k < |tail| ==> tail[k] == if k < |authKey| then authKey[k] else "]\r\n"[k - |authKey|];
    }
    SplitSolid(tail, ' ');
  }

  /** `s.replace(/\r?\n$/, '')`: one line break at the very end removed. */
  function DropTrailingBreak(s: string): (r: string)
    ensures (s == [] || s[|s| - 1] != '\n') ==> r == s
  {
    if |s| >= 2 && s[|s| - 2] == '\r' && s[|s| - 1] == '\n' then s[..|s| - 2]
    else if |s| >= 1 && s[|s| - 1] == '\n' then s[..|s| - 1]
    else s
  }

  /** `s.replace(/\r?\n/, '')`: the first line break removed. */
  function DropFirstBreak(s: string): (r: string)
    ensures '\n' !in s ==> r == s
  {
    if s == [] then []
    else if s[0] == '\n' then s[1..]
    else if |s| >= 2 && s[0] == '\r' && s[1] == '\n' then s[2..]
    else
      var rest := DropFirstBreak(s[1..]);
      assert '\n' !in s ==> [s[0]] + s[1..] == s;
      [s[0]] + rest
  }

  /** `parseMessage(line)`: the id is read from the two characters after
      `#`, the character after them is skipped, and the rest must hold at
      least five colon-separated fields; the text is every field from the
      fifth on, joined again with colons. */
  function ParseMessage(line: string): (r: Option<Message>)
  {
    var parts := Split(Slice(line, 4, |line|), ':');
    if |parts| < 5 then None
    else
      Some(Message(ParseInt(Slice(line, 1, 3), 16), ParseInt(parts[0], 10), parts[1],
                   ParseInt(parts[2], 16), ParseInt(parts[3], 10), DropTrailingBreak(Join(parts[4..], ":"))))
  }

  /** A message line as a DAPNET core sends it: `#`, the two-digit id,
      one separator character, then type, timestamp, address, function and
      text separated by colons. */
  function MessageLine(id: nat, sep: char, msgType: nat, timestamp: string, address: nat, func: nat,
                       text: string): string
    requires id < 256
  {
    "#" + HexByte(id, false) + [sep]
      + Joined([Decimal(msgType), timestamp, ToRadix(address, 16, false), Decimal(func)], text, ':')
  }

  lemma DigitsHaveNoColon(d: string, radix: nat)
    requires AllDigitsOf(d, radix)
    ensures ':' !in d
  {
    forall k | 0 <= k < |d| ensures d[k] != ':' {
      assert IsDigitOf(d[k], radix);
    }
  }

  /** Fields each followed by the separator, then the text. */
  function Joined(fields: seq<string>, text: string, sep: char): string {
    if fields == [] then text else fields[0] + [sep] + Joined(fields[1..], text, sep)
  }

  /** Splitting fields joined by a separator gives back every field
      before the text, as long as none of them holds the separator. */
  lemma {:induction false} SplitJoined(fields: seq<string>, text: string, sep: char)
    requires forall f | f in fields :: sep !in f
    ensures Split(Joined(fields, text, sep), sep) == fields + Split(text, sep)
  {
    if fields != [] {
      var head, rest := fields[0], fields[1..];
      var tail := Joined(rest, text, sep);
      assert head in fields && forall f | f in rest :: f in fields;
      SplitJoined(rest, text, sep);
      SplitAtSeparator(head, tail, sep);
      assert [head] + (rest + Split(text, sep)) == ([head] + rest) + Split(text, sep);
      assert [head] + rest == fields;
    }
  }

  /** A line made of `#`, two id characters, a separator and colon-joined
      fields is parsed field by field. */
  lemma ParseMessageFields(line: string, h: string, sep: char, fields: seq<string>, text: string)
    requires |h| == 2 && |fields| == 4 && forall f | f in fields :: ':' !in f
    requires line == "#" + h + [sep] + Joined(fields, text, ':')
    requires text == [] || text[|text| - 1] != '\n'
    ensures ParseMessage(line) == Some(Message(ParseInt(h, 16), ParseInt(fields[0], 10), fields[1],
                                               ParseInt(fields[2], 16), ParseInt(fields[3], 10), text))
  {
    var body := Joined(fields, text, ':');
    assert Slice(line, 1, 3) == h && Slice(line, 4, |line|) == body by {
      assert line[1..3] == h && line[4..] == body;
    }
    var parts := Split(body, ':');
    assert parts == fields + Split(text, ':') by {
      SplitJoined(fields, text, ':');
    }
    assert Join(parts[4..], ":") == text by {
      assert parts[4..] == Split(text, ':');
      JoinSplit(text, ':');
    }
    assert parts[..4] == fields;
  }

  /** Parsing a message line as a core sends it gives back every field:
      the text keeps its colons as long as it does not end in a line
      break, and the timestamp is taken as it is. */
  lemma ParseMessageLine(id: nat, sep: char, msgType: nat, timestamp: string, address: nat, func: nat,
                         text: string)
    requires id < 256 && ':' !in timestamp && (text == [] || text[|text| - 1] != '\n')
    ensures ParseMessage(MessageLine(id, sep, msgType, timestamp, address, func, text)) ==
      Some(Message(Some(id), Some(msgType), timestamp, Some(address), Some(func), text))
  {
    var h, d0, a, d3 := HexByte(id, false), Decimal(msgType), ToRadix(address, 16, false), Decimal(func);
    var fields := [d0, timestamp, a, d3];
    assert forall f | f in fields :: ':' !in f by {
      DigitsHaveNoColon(d0, 10);
      DigitsHaveNoColon(a, 16);
      DigitsHaveNoColon(d3, 10);
    }
    ParseMessageFields(MessageLine(id, sep, msgType, timestamp, address, func, text), h, sep, fields, text);
    assert ParseInt(h, 16) == Some(id) by {
      ParseIntOfHex(h);
    }
    assert ParseInt(d0, 10) == Some(msgType) && ParseInt(d3, 10) == Some(func) by {
      ParseDecimal(msgType, 10);
      ParseDecimal(func, 10);
    }
    assert ParseInt(a, 16) == Some(address) by {
      ParseIntOfHex(a);
    }
  }

  /** The id a `#` line is acknowledged with: `(msg?.id ?? 0) + 1` modulo
      256 in lower-case hex, padded to two digits. A line that does not
      parse counts as id 0; a parsed id that is `NaN` stays `NaN`. */
  function ReplyId(msg: Option<Message>): string {
    var id := if msg.None? then Some(0) else msg.value.id;
    match id
    case None => "NaN"
    case Some(i) => NextIdHex(i)
  }

  /** `((i + 1) % 256).toString(16).padStart(2, '0')`. */
  function NextIdHex(i: int): string {
    PadStart(NumberHex(JsRem(i + 1, 256)), 2, '0')
  }

  /** The answer to one line of the stream: nothing for an empty line,
      the acknowledgement for a `#` message (and the message itself when
      it parses), the time reply for a `2` line, `+` for a `7` line and
      `-` for anything else. */
  function ReplyTo(line: string): (r: (seq<string>, Option<Message>))
    ensures r.1.Some? ==> line != [] && line[0] == '#'
    ensures line != [] && line[0] == '#' ==> r.1 == ParseMessage(line) && |r.0| == 1
    ensures line == [] ==> r == ([], None)
  {
    if line == [] then ([], None)
    else if line[0] == '#' then
      var msg := ParseMessage(line);
      (["#" + ReplyId(msg) + " +\r\n"], msg)
    else if line[0] == '2' then ([DropFirstBreak(line) + ":0000\r\n", "+\r\n"], None)
    else if line[0] == '7' then (["+\r\n"], None)
    else (["-\r\n"], None)
  }

  /** The acknowledgement of a parsed id in 0..255 is the next id modulo
      256 as two lower-case hex digits. */
  lemma ReplyIdNext(msg: Option<Message>, i: int)
    requires msg.Some? && msg.value.id == Some(i) && 0 <= i < 256
    ensures ReplyId(msg) == HexByte(JsRem(i + 1, 256), false)
  {
    var j := JsRem(i + 1, 256);
    ReplyIdOf(msg, i);
    PaddedNumberHex(j);
  }

  /** The acknowledgement of a parsed id is built from the next id. */
  lemma ReplyIdOf(msg: Option<Message>, i: int)
    requires msg.Some? && msg.value.id == Some(i)
    ensures ReplyId(msg) == NextIdHex(i)
  {
  }

  /** A parsed id in 0..255 is acknowledged with the next id modulo 256 in
      two lower-case hex digits, which read back as that id; 255 wraps
      around to `00`. */
  lemma AckNextId(line: string, i: int)
    requires line != [] && line[0] == '#'
    requires ParseMessage(line).Some? && ParseMessage(line).value.id == Some(i) && 0 <= i < 256
    ensures ReplyTo(line).0 == ["#" + HexByte((i + 1) % 256, false) + " +\r\n"]
    ensures ParseInt(HexByte((i + 1) % 256, false), 16) == Some((i + 1) % 256)
    ensures ReplyTo(line).1 == ParseMessage(line)
  {
    assert JsRem(i + 1, 256) == (i + 1) % 256;
    ReplyIdNext(ParseMessage(line), i);
    ParseIntOfHex(HexByte((i + 1) % 256, false));
  }

  /** A `#` line that does not parse is still acknowledged, as id 0, and
      hands no message on. */
  lemma AckUnparsed(line: string)
    requires line != [] && line[0] == '#' && ParseMessage(line).None?
    ensures ReplyTo(line) == (["#01 +\r\n"], None)
  {
    assert "#" + "01" + " +\r\n" == "#01 +\r\n";
    assert ReplyId(None) == "01" by {
      assert JsRem(1, 256) == 1;
      assert NumberHex(1) == "1";
      assert PadStart("1", 2, '0') == "01";
    }
  }

  /** A `2` line of the stream gets exactly two writes: the line with
      `:0000` appended, then `+`. */
  lemma TimeReply(line: string)
    requires line != [] && line[0] == '2' && '\n' !in line
    ensures ReplyTo(line) == ([line + ":0000\r\n", "+\r\n"], None)
  {
  }

  /** A per-line answer applied to a run of lines, the writes and the
      messages of each line following those of the previous one. */
  function Collect(answer: string -> (seq<string>, Option<Message>), lines: seq<string>): (r: (seq<string>, seq<Message>))
    decreases |lines|
  {
    if lines == [] then ([], [])
    else
      var first := answer(lines[0]);
      var rest := Collect(answer, lines[1..]);
      (first.0 + rest.0, (if first.1.Some? then [first.1.value] else []) + rest.1)
  }

  lemma {:induction false} CollectAppend(answer: string -> (seq<string>, Option<Message>), a: seq<string>, b: seq<string>)
    ensures Collect(answer, a + b) == (Collect(answer, a).0 + Collect(answer, b).0, Collect(answer, a).1 + Collect(answer, b).1)
    decreases |a|
  {
    if a == [] {
      assert a + b == b;
      var rb := Collect(answer, b);
      assert Collect(answer, a) == ([], []);
      assert [] + rb.0 == rb.0 && [] + rb.1 == rb.1;
      assert rb == (rb.0, rb.1);
    } else {
      assert (a + b)[0] == a[0] && (a + b)[1..] == a[1..] + b;
      CollectAppend(answer, a[1..], b);
      var first := answer(a[0]);
      var m: seq<Message> := if first.1.Some? then [first.1.value] else [];
      var ra, rb := Collect(answer, a[1..]), Collect(answer, b);
      assert first.0 + (ra.0 + rb.0) == (first.0 + ra.0) + rb.0;
      assert m + (ra.1 + rb.1) == (m + ra.1) + rb.1;
    }
  }

  /** The answers to a run of lines, in order. */
  function Replies(lines: seq<string>): (seq<string>, seq<Message>) {
    Collect(ReplyTo, lines)
  }

  /** One `data` event: the chunk is added to the buffer, the text is
      split at every line feed (dropping one carriage return before it),
      the last piece becomes the buffer and every other piece is
      answered. The lines are found by `Frames`, which `FramesSplitLines`
      shows to be the split with its last piece popped. */
  function OnData(buffer: string, chunk: string): Fed {
    var frames := Frames(buffer + chunk);
    var replies := Replies(frames.0);
    Fed(frames.1, replies.0, replies.1)
  }

  /** The complete lines of a text and what follows its last line feed,
      found one line feed at a time. */
  function Frames(text: string): (seq<string>, string)
    decreases |text|
  {
    match IndexOf(text, '\n')
    case None => ([], text)
    case Some(i) =>
      var rest := Frames(text[i + 1..]);
      ([DropCr(text[..i])] + rest.0, rest.1)
  }

  /** Splitting at every line feed and popping the last piece finds the
      lines one line feed at a time. */
  lemma {:induction false} FramesSplitLines(text: string)
    ensures var lines := SplitLines(text);
      Frames(text) == (lines[..|lines| - 1], lines[|lines| - 1])
    decreases |text|
  {
    IndexOfFirst(text, '\n');
    match IndexOf(text, '\n')
    case None =>
      assert SplitLines(text) == [text] by {
        SplitSolid(text, '\n');
      }
    case Some(i) =>
      var head, tail := text[..i], text[i + 1..];
      var lt := SplitLines(tail);
      assert SplitLines(text) == [DropCr(head)] + lt by {
        assert text == head + ['\n'] + tail;
        SplitAtSeparator(head, tail, '\n');
        LinesOfCons(head, Split(tail, '\n'));
      }
      assert Frames(tail) == (lt[..|lt| - 1], lt[|lt| - 1]) by {
        FramesSplitLines(tail);
      }
      ConsLast(DropCr(head), lt);
  }

  lemma ConsLast(a: string, l: seq<string>)
    requires |l| >= 1
    ensures var c := [a] + l; c[..|c| - 1] == [a] + l[..|l| - 1] && c[|c| - 1] == l[|l| - 1]
  {
  }

  /** The framer resumes where it stopped: the lines of a grown text are
      the lines found so far, then the lines of the unfinished rest
      followed by the new text. */
  lemma {:induction false} FramesResume(x: string, y: string)
    ensures var fx := Frames(x);
      var fr := Frames(fx.1 + y);
      Frames(x + y) == (fx.0 + fr.0, fr.1)
    decreases |x|
  {
    var idx := IndexOf(x, '\n');
    if idx.None? {
      assert Frames(x) == ([], x);
      assert [] + Frames(x + y).0 == Frames(x + y).0;
    } else {
      var i := idx.value;
      var line, tail := [DropCr(x[..i])], x[i + 1..];
      var ft := Frames(tail);
      var fr := Frames(ft.1 + y);
      assert Frames(x) == (line + ft.0, ft.1) by {
        FramesStep(x, i);
      }
      assert Frames(x + y) == (line + Frames(tail + y).0, Frames(tail + y).1) by {
        FramesGrow(x, y, i);
      }
      assert Frames(tail + y) == (ft.0 + fr.0, fr.1) by {
        FramesResume(tail, y);
      }
      Associate(line, ft.0, fr.0);
    }
  }

  /** A line feed found in a text is found in the grown text as well. */
  lemma FramesGrow(x: string, y: string, i: nat)
    requires IndexOf(x, '\n') == Some(i)
    ensures var rest := Frames(x[i + 1..] + y);
      Frames(x + y) == ([DropCr(x[..i])] + rest.0, rest.1)
  {
    IndexOfPrefix(x, y, '\n');
    assert (x + y)[..i] == x[..i];
    assert (x + y)[i + 1..] == x[i + 1..] + y;
    FramesStep(x + y, i);
  }

  lemma FramesStep(text: string, i: nat)
    requires IndexOf(text, '\n') == Some(i)
    ensures var rest := Frames(text[i + 1..]);
      Frames(text) == ([DropCr(text[..i])] + rest.0, rest.1)
  {
  }

  /** What is left in the buffer is the text after the last line feed,
      or all of the text when it has none. */
  lemma {:induction false} FramesRest(text: string)
    ensures var rest := Frames(text).1;
      && '\n' !in rest && |rest| <= |text| && rest == text[|text| - |rest|..]
      && (|rest| < |text| ==> text[|text| - |rest| - 1] == '\n')
    decreases |text|
  {
    IndexOfFirst(text, '\n');
    var idx := IndexOf(text, '\n');
    if idx.Some? {
      var i := idx.value;
      var tail := text[i + 1..];
      var rest := Frames(tail).1;
      assert Frames(text).1 == rest by {
        FramesStep(text, i);
      }
      FramesRest(tail);
      SuffixPastBreak(text, i, tail, rest);
    }
  }

  /** A suffix of the text after a line feed, itself preceded by a line
      feed or the whole of that text, is a suffix of the whole text
      preceded by a line feed. */
  lemma SuffixPastBreak(text: string, i: nat, tail: string, rest: string)
    requires i < |text| && text[i] == '\n' && tail == text[i + 1..]
    requires |rest| <= |tail| && rest == tail[|tail| - |rest|..]
    requires |rest| < |tail| ==> tail[|tail| - |rest| - 1] == '\n'
    ensures |rest| < |text| && rest == text[|text| - |rest|..] && text[|text| - |rest| - 1] == '\n'
  {
    var m := |tail| - |rest|;
    SliceOfSlice(text, i + 1, m);
    if m > 0 {
      assert tail[m - 1] == text[i + m];
    }
  }

  /** After a data event the buffer holds no line feed: it is the text
      after the last one. */
  lemma BufferAfterLastBreak(buffer: string, chunk: string)
    ensures var text, rest := buffer + chunk, OnData(buffer, chunk).buffer;
      && '\n' !in rest && |rest| <= |text| && rest == text[|text| - |rest|..]
      && (|rest| < |text| ==> text[|text| - |rest| - 1] == '\n')
  {
    FramesRest(buffer + chunk);
  }

  /** Receiving two chunks one after the other writes and reports the same
      as receiving them at once, and leaves the same buffer. The chunks
      are text already decoded from the socket's bytes, so this says the
      stream does not depend on how the transport cuts it only for cuts at
      UTF-8 character boundaries: a cut inside a multi-byte character is
      decoded to replacement characters before it reaches this model. */
  lemma OnDataChunks(buffer: string, a: string, b: string)
    ensures var first := OnData(buffer, a);
      var second := OnData(first.buffer, b);
      var whole := OnData(buffer, a + b);
      && whole.buffer == second.buffer
      && whole.writes == first.writes + second.writes
      && whole.messages == first.messages + second.messages
  {
    var x := buffer + a;
    assert buffer + (a + b) == x + b;
    FramesResume(x, b);
    CollectAppend(ReplyTo, Frames(x).0, Frames(Frames(x).1 + b).0);
  }

  /** A run of chunks received one by one. */
  function OnChunks(buffer: string, chunks: seq<string>): (r: Fed)
    decreases |chunks|
  {
    if chunks == [] then Fed(buffer, [], [])
    else
      var first := OnData(buffer, chunks[0]);
      var rest := OnChunks(first.buffer, chunks[1..]);
      Fed(rest.buffer, first.writes + rest.writes, first.messages + rest.messages)
  }

  /** All the chunks of a run, concatenated. */
  function Concat(chunks: seq<string>): string
    decreases |chunks|
  {
    if chunks == [] then [] else chunks[0] + Concat(chunks[1..])
  }

  /** Receiving a non-empty run of chunks one by one is receiving their
      concatenation at once (for chunks of decoded text, as above). */
  lemma {:induction false} OnChunksConcat(buffer: string, chunks: seq<string>)
    requires chunks != []
    ensures OnChunks(buffer, chunks) == OnData(buffer, Concat(chunks))
    decreases |chunks|
  {
    var first := OnData(buffer, chunks[0]);
    if |chunks| == 1 {
      assert Concat(chunks) == chunks[0] + [];
      assert chunks[0] + [] == chunks[0];
      var none := OnChunks(first.buffer, []);
      assert first.writes + none.writes == first.writes && first.messages + none.messages == first.messages;
    } else {
      OnChunksConcat(first.buffer, chunks[1..]);
      OnDataChunks(buffer, chunks[0], Concat(chunks[1..]));
    }
  }
}

=== FILE: events.dfy ===
/** The observable effects of the radio-side logic, in the order the
    source produces them: console lines the operator sees, records handed
    to the log store, commands handed to the serial link and calls into
    the map and chart views. */
module Events {
  import opened Wrappers
  import SdsDecoder

  datatype Event =
      /** A received line is echoed to the console. */
    | Echo(line: string)
      /** Every registered line listener is called with the line. */
    | LineObserved(line: string)
      /** A known talkgroup is shown as active, with the talking ISSI if known. */
    | GroupActive(tg: string, talker: Option<string>)
      /** The hint that `+CME ERROR: 35` is probably harmless. */
    | CmeNotice
      /** A `+CSQ` reading is shown and added to the RSSI chart. */
    | SignalStrength(rssi: int, dbm: int)
      /** A `+CREG` line carried an explicit dBm value; it is only shown. */
    | CregDbm(dbm: int)
      /** A `+CREG` line ended in an RSSI value 0..31; it is shown and charted. */
    | CregRssi(rssi: int, dbm: int)
      /** A cell row of a `+GCLI` listing with a readable RSSI field. */
    | GcliCell(cell: string, freq: string, rssi: int, dbm: int)
      /** A cell row whose RSSI field is not a number is shown raw. */
    | GcliRaw(line: string)
      /** A line carrying the terminal's own `+GPSPOS` position. */
    | TerminalGps(line: string)
      /** A `+CMGS` delivery report is shown. */
    | DeliveryReport(line: string)
      /** An incoming SDS is logged with its sender, destination and payload. */
    | SdsReceived(from: string, to: Option<string>, hex: string)
      /** The payload was the acknowledgement pattern. */
    | AckReceived(from: string)
      /** A text SDS is shown (and mirrored to the message pane). */
    | TextReceived(from: string, text: string)
      /** The payload is too short for position data. */
    | TooShortForGps(hex: string)
      /** The LIP helper found fewer than 26 digits. */
    | LipTooShort
      /** A decoded position: stored per ISSI, added to the current track,
          logged, shown and the map redrawn. */
    | PositionReported(issi: string, report: SdsDecoder.Report)
      /** The main LIP decode found no longitude field. */
    | LonMissing
      /** Only a latitude was decoded. */
    | LatOnly(from: string, lat: real)
      /** A GPS re-request is scheduled, to run `sendSdsRaw(attempt, issi)` later. */
    | RetryScheduled(attempt: int, issi: string)
      /** The retry budget is spent; nothing is scheduled. */
    | RetriesExhausted
      /** Neither coordinate could be read. */
    | InvalidGps(hex: string)
      /** An AT command is handed to `sendCommand`. */
    | Command(cmd: string)
      /** An SDS with a hex payload was sent and logged. */
    | SdsSent(dest: string, hex: string, sdsType: string)
      /** A text SDS was sent and logged. */
    | TextSdsSent(dest: string, message: string, sdsType: string)
      /** Sending was refused for lack of a destination or payload. */
    | MissingTarget
      /** A GPS request was refused for lack of an ISSI. */
    | MissingIssi
      /** A GPS request went out as attempt `retryCount + 1`. */
    | GpsRequestSent(issi: string, retryCount: int)

  /** The AT commands among some events, in order. */
  function Commands(events: seq<Event>): (cmds: seq<string>)
    ensures |cmds| <= |events|
  {
    if events == [] then []
    else (if events[0].Command? then [events[0].cmd] else []) + Commands(events[1..])
  }

  lemma {:induction false} CommandsAppend(a: seq<Event>, b: seq<Event>)
    ensures Commands(a + b) == Commands(a) + Commands(b)
  {
    if a == [] {
      assert a + b == b;
    } else {
      assert (a + b)[0] == a[0] && (a + b)[1..] == a[1..] + b;
      CommandsAppend(a[1..], b);
      var head := if a[0].Command? then [a[0].cmd] else [];
      assert Commands(a + b) == head + (Commands(a[1..]) + Commands(b));
      assert head + (Commands(a[1..]) + Commands(b)) == (head + Commands(a[1..])) + Commands(b);
    }
  }

  /** Commands handed to `sendCommand` in the given order. */
  function CommandEvents(cmds: seq<string>): (events: seq<Event>)
    ensures |events| == |cmds|
  {
    seq(|cmds|, k requires 0 <= k < |cmds| => Command(cmds[k]))
  }

  lemma {:induction false} CommandsOfCommandEvents(cmds: seq<string>)
    ensures Commands(CommandEvents(cmds)) == cmds
  {
    if cmds != [] {
      assert CommandEvents(cmds)[1..] == CommandEvents(cmds[1..]);
      CommandsOfCommandEvents(cmds[1..]);
      assert [cmds[0]] + cmds[1..] == cmds;
    }
  }

  /** The commands of a run of commands followed by other events. */
  lemma CommandsThen(cmds: seq<string>, rest: seq<Event>)
    ensures Commands(CommandEvents(cmds) + rest) == cmds + Commands(rest)
  {
    CommandsAppend(CommandEvents(cmds), rest);
    CommandsOfCommandEvents(cmds);
  }

  /** The GPS re-requests scheduled among some events, in order. */
  function Scheduled(events: seq<Event>): (r: seq<Event>)
    ensures |r| <= |events|
    ensures forall k :: 0 <= k < |r| ==> r[k].RetryScheduled?
  {
    if events == [] then []
    else (if events[0].RetryScheduled? then [events[0]] else []) + Scheduled(events[1..])
  }

  lemma {:induction false} ScheduledAppend(a: seq<Event>, b: seq<Event>)
    ensures Scheduled(a + b) == Scheduled(a) + Scheduled(b)
  {
    if a == [] {
      assert a + b == b;
    } else {
      assert (a + b)[0] == a[0] && (a + b)[1..] == a[1..] + b;
      ScheduledAppend(a[1..], b);
      var head := if a[0].RetryScheduled? then [a[0]] else [];
      assert Scheduled(a + b) == head + (Scheduled(a[1..]) + Scheduled(b));
      assert head + (Scheduled(a[1..]) + Scheduled(b)) == (head + Scheduled(a[1..])) + Scheduled(b);
    }
  }

  /** Events that neither send a command nor schedule a re-request. */
  predicate Quiet(events: seq<Event>) {
    forall k :: 0 <= k < |events| ==> !events[k].Command? && !events[k].RetryScheduled?
  }

  lemma {:induction false} QuietFilters(events: seq<Event>)
    requires Quiet(events)
    ensures Commands(events) == [] && Scheduled(events) == []
  {
    if events != [] {
      QuietFilters(events[1..]);
    }
  }

  /** Quiet events in front change neither the commands nor the
      re-requests. */
  lemma QuietThen(a: seq<Event>, b: seq<Event>)
    requires Quiet(a)
    ensures Commands(a + b) == Commands(b) && Scheduled(a + b) == Scheduled(b)
  {
    QuietFilters(a);
    CommandsAppend(a, b);
    ScheduledAppend(a, b);
    assert [] + Commands(b) == Commands(b);
    assert [] + Scheduled(b) == Scheduled(b);
  }

  /** A run of commands schedules no re-request. */
  lemma {:induction false} CommandEventsSchedule(cmds: seq<string>)
    ensures Scheduled(CommandEvents(cmds)) == []
  {
    if cmds != [] {
      assert CommandEvents(cmds)[1..] == CommandEvents(cmds[1..]);
      CommandEventsSchedule(cmds[1..]);
    }
  }
}

=== FILE: hexcodec.dfy ===
/** The hex helpers the SDS decoder is built on (parsing.js): signed
    24-bit fields, little-endian 32-bit fields read through JavaScript's
    32-bit shift, byte swapping of 16-bit fields, hex-to-text and the
    printable-text heuristic. */
module HexCodec {
  import opened Wrappers
  import opened JsNum

  const Two23: int := 0x80_0000
  const Two24: int := 0x100_0000
  const Two31: int := 0x8000_0000
  const Two32: int := 0x1_0000_0000

  lemma Pow16Six()
    ensures Pow(16, 5) == 0x10_0000 && Pow(16, 6) == Two24 && Pow(16, 8) == Two32
  {
  }

  /** `parse24Signed`: six hex digits read as a 24-bit two's-complement
      number; anything else is `NaN`. */
  function Parse24Signed(hex: string): (r: Option<int>)
    ensures r.Some? <==> |hex| == 6 && AllHex(hex)
    ensures r.Some? ==> -Two23 <= r.value < Two23
    ensures r.Some? ==> (r.value < 0 <==> DigitValue(hex[0]) >= 8)
  {
    if |hex| == 6 && AllHex(hex) then
      var v := HexValue(hex);
      Pow16Six();
      HighDigitSign(hex);
      Some(if (v / Two23) % 2 == 1 then v - Two24 else v)
    else None
  }

  /** Bit 23 of a six-digit value is the top bit of its first digit. */
  lemma HighDigitSign(hex: string)
    requires |hex| == 6 && AllHex(hex)
    ensures HexValue(hex) < Two24
    ensures (HexValue(hex) / Two23) % 2 == 1 <==> DigitValue(hex[0]) >= 8
    ensures (HexValue(hex) / Two23) % 2 == 1 <==> HexValue(hex) >= Two23
  {
    LeadingDigit(hex);
    BitOf24(HexValue(hex));
  }

  /** A six-digit value is its first digit times 16^5 plus the rest. */
  lemma LeadingDigit(hex: string)
    requires |hex| == 6 && AllHex(hex)
    ensures HexValue(hex) == DigitValue(hex[0]) * 0x10_0000 + HexValue(hex[1..])
    ensures HexValue(hex[1..]) < 0x10_0000
  {
    Pow16Six();
    DigitsValueAppend(hex[..1], hex[1..], 16);
    assert hex[..1] + hex[1..] == hex;
    DigitAlone(hex[..1]);
    DigitsValueBound(hex[1..], 16);
  }

  /** Bit 23 of a 24-bit value is set exactly when it reaches 2^23. */
  lemma BitOf24(v: int)
    requires 0 <= v < Two24
    ensures (v / Two23) % 2 == 1 <==> v >= Two23
  {
    if v >= Two23 {
      ModUnique(v, Two23, 1, v - Two23);
    } else {
      ModUnique(v, Two23, 0, v);
    }
  }

  /** The six-digit field a sender writes for a signed 24-bit value. */
  function Encode24(code: int): (r: string)
    requires -Two23 <= code < Two23
    ensures |r| == 6 && AllHex(r)
  {
    FixedHex(if code < 0 then code + Two24 else code, 6)
  }

  /** Every signed 24-bit value survives the round trip through its field. */
  lemma Parse24RoundTrip(code: int)
    requires -Two23 <= code < Two23
    ensures Parse24Signed(Encode24(code)) == Some(code)
  {
    var u := if code < 0 then code + Two24 else code;
    var f := Encode24(code);
    assert HexValue(f) == u by {
      FixedHexValue(u, 6);
      Pow16Six();
      ModSmall(u, Two24);
    }
    HighDigitSign(f);
  }

  lemma ModSmall(n: int, m: int)
    requires 0 <= n < m
    ensures n % m == n
  {
  }

  /** JavaScript's `1 << k` for `k >= 0`: the count is taken modulo 32 and
      the result is a signed 32-bit integer, so a shift by 31 is negative. */
  function ShiftOne(k: nat): (r: int)
    ensures k % 32 < 31 ==> r == Pow(2, k % 32)
    ensures k % 32 == 31 ==> r == -Two31
  {
    if k % 32 == 31 then -Two31 else Pow(2, k % 32)
  }

  /** `hexToSigned`: the field is negative when its value reaches
      `1 << (bits - 1)`, and then `1 << bits` is subtracted, both shifts
      taken as JavaScript computes them. */
  function HexToSigned(hex: string): int
    requires AllHex(hex) && hex != []
  {
    var num := HexValue(hex);
    var bits := |hex| * 4;
    if num >= ShiftOne(bits - 1) then num - ShiftOne(bits) else num
  }

  /** For one to seven digits the shifts stay below bit 31 and the result
      is the two's-complement reading of the field. */
  lemma HexToSignedShort(hex: string)
    requires AllHex(hex) && 1 <= |hex| <= 7
    ensures var bits := 4 * |hex|;
      HexToSigned(hex) ==
        if HexValue(hex) >= Pow(2, bits - 1) then HexValue(hex) - Pow(2, bits) else HexValue(hex)
  {
    var bits := 4 * |hex|;
    assert (bits - 1) % 32 == bits - 1 && bits % 32 == bits;
    assert ShiftOne(bits - 1) == Pow(2, bits - 1);
    assert ShiftOne(bits) == Pow(2, bits);
  }

  /** For exactly eight digits `1 << 31` is negative and `1 << 32` is 1,
      so the test always succeeds and the result is the unsigned value
      minus one. */
  lemma HexToSignedEight(hex: string)
    requires AllHex(hex) && |hex| == 8
    ensures HexToSigned(hex) == HexValue(hex) - 1
  {
  }

  /** The byte pairs of an eight-digit field in reverse order. */
  function ReversePairs(hex: string): (r: string)
    requires |hex| == 8
    ensures |r| == 8
  {
    hex[6..8] + hex[4..6] + hex[2..4] + hex[0..2]
  }

  lemma ReversePairsInvolution(hex: string)
    requires |hex| == 8
    ensures ReversePairs(ReversePairs(hex)) == hex
    ensures AllHex(hex) ==> AllHex(ReversePairs(hex))
  {
    var r := ReversePairs(hex);
    assert r[0..2] == hex[6..8] && r[2..4] == hex[4..6] && r[4..6] == hex[2..4] && r[6..8] == hex[0..2];
    assert hex == hex[0..2] + hex[2..4] + hex[4..6] + hex[6..8];
    if AllHex(hex) {
      forall k | 0 <= k < 8
        ensures IsHexDigit(r[k])
      {
        if k < 2 {
          assert r[k] == hex[k + 6];
        } else if k < 4 {
          assert r[k] == hex[k + 2];
        } else if k < 6 {
          assert r[k] == hex[k - 2];
        } else {
          assert r[k] == hex[k - 6];
        }
      }
    }
  }

  /** `parseLittleEndianSigned`: eight hex digits, bytes reversed, then
      `hexToSigned`; anything else is `NaN`. */
  function ParseLittleEndianSigned(hex: string): (r: Option<int>)
    ensures r.Some? <==> |hex| == 8 && AllHex(hex)
  {
    if |hex| == 8 && AllHex(hex) then
      ReversePairsInvolution(hex);
      Some(HexToSigned(ReversePairs(hex)))
    else None
  }

  /** The eight-digit little-endian field a sender writes for a value,
      taken modulo 2^32 (two's complement for negative values). */
  function EncodeLe32(code: int): (r: string)
    ensures |r| == 8 && AllHex(r)
  {
    var f := FixedHex(code % Two32, 8);
    ReversePairsInvolution(f);
    ReversePairs(f)
  }

  /** What the decoder reads back from a little-endian field: the value
      modulo 2^32, minus one. Positive coordinates come back one unit low
      and negative ones come back as large positive numbers. */
  lemma LittleEndianReadBack(code: int)
    ensures ParseLittleEndianSigned(EncodeLe32(code)) == Some(code % Two32 - 1)
  {
    var u := code % Two32;
    var f := FixedHex(u, 8);
    ReversePairsInvolution(f);
    assert HexValue(f) == u by {
      FixedHexValue(u, 8);
      Pow16Six();
      ModSmall(u, Two32);
    }
    HexToSignedEight(f);
  }

  /** No signed 32-bit value is read back as itself. */
  lemma LittleEndianNeverExact(code: int)
    requires -Two31 <= code < Two31
    ensures ParseLittleEndianSigned(EncodeLe32(code)) != Some(code)
  {
    LittleEndianReadBack(code);
  }

  /** `swapBytes`: a field of exactly two byte pairs has its pairs swapped;
      any other field is returned unchanged. Hex digits contain no line
      terminator, so the pairs are the consecutive two-character slices. */
  function SwapBytes(hex: string): (r: string)
    requires AllHex(hex)
    ensures |r| == (if |hex| / 2 == 2 then 4 else |hex|) && AllHex(r)
  {
    if |hex| / 2 != 2 then hex else hex[2..4] + hex[0..2]
  }

  /** A four-digit field is read as a little-endian 16-bit number, and
      swapping twice restores it. */
  lemma SwapBytesLittleEndian(hex: string)
    requires AllHex(hex) && |hex| == 4
    ensures HexValue(SwapBytes(hex)) == HexValue(hex[2..4]) * 256 + HexValue(hex[0..2])
    ensures SwapBytes(SwapBytes(hex)) == hex
  {
    DigitsValueAppend(hex[2..4], hex[0..2], 16);
    assert Pow(16, 2) == 256;
    var s := SwapBytes(hex);
    assert s[2..4] + s[0..2] == hex;
  }

  /** `String.fromCharCode(code)` for the code of one byte. */
  function FromCharCode(code: int): (c: char)
    requires 0 <= code < 256
  {
    code as char
  }

  /** The value of a byte pair from its two digits. */
  lemma PairValue(pair: string)
    requires AllHex(pair) && |pair| == 2
    ensures HexValue(pair) == DigitValue(pair[0]) * 16 + DigitValue(pair[1]) < 256
  {
    assert pair[..1][..0] == [];
    assert DigitsValue(pair[..1], 16) == DigitValue(pair[0]);
  }

  /** A single digit is its own value. */
  lemma DigitAlone(hex: string)
    requires AllHex(hex) && |hex| == 1
    ensures HexValue(hex) == DigitValue(hex[0]) < 16
  {
    assert hex[..0] == [];
    assert DigitsValue(hex[..0], 16) == 0;
  }

  /** `hexToAscii` on hex digits: each two-digit slice, and a single last
      digit, adds the character whose code is its value (`parseInt(·, 16)`
      of a run of hex digits is its value, see `ParseIntOfHex`). */
  function HexToAscii(hex: string): (r: string)
    requires AllHex(hex)
    ensures |r| == (|hex| + 1) / 2
    decreases |hex|
  {
    if hex == [] then []
    else if |hex| == 1 then
      DigitAlone(hex);
      [FromCharCode(HexValue(hex))]
    else
      PairValue(hex[..2]);
      [FromCharCode(HexValue(hex[..2]))] + HexToAscii(hex[2..])
  }

  /** A leading byte pair decodes to the character of its value. */
  lemma HexToAsciiPair(pair: string, tail: string)
    requires AllHex(pair) && |pair| == 2 && AllHex(tail)
    ensures HexValue(pair) < 256
    ensures HexToAscii(pair + tail) == [FromCharCode(HexValue(pair))] + HexToAscii(tail)
  {
    var hex := pair + tail;
    AllHexAppend(pair, tail);
    assert hex[..2] == pair && hex[2..] == tail;
    PairValue(pair);
  }

  /** Character `k` of the decoded text carries the value of byte pair `k`. */
  lemma {:induction false} HexToAsciiAt(hex: string, k: nat)
    requires AllHex(hex) && 2 * k + 1 < |hex|
    ensures HexToAscii(hex)[k] as int == DigitValue(hex[2 * k]) * 16 + DigitValue(hex[2 * k + 1])
    decreases k
  {
    var tail := hex[2..];
    assert AllHex(tail);
    if k > 0 {
      HexToAsciiAt(tail, k - 1);
      assert hex[2 * k] == tail[2 * (k - 1)] && hex[2 * k + 1] == tail[2 * (k - 1) + 1];
    } else {
      PairValue(hex[..2]);
    }
  }

  predicate IsPrintable(c: char) {
    32 <= c as int <= 126
  }

  function CountPrintable(s: string): (n: nat)
    ensures n <= |s|
  {
    if s == [] then 0 else (if IsPrintable(s[0]) then 1 else 0) + CountPrintable(s[1..])
  }

  /** `isLikelyText`: the decoded text is non-empty and more than 80 % of
      its characters are printable ASCII. */
  function IsLikelyText(hex: string): (r: bool)
    requires AllHex(hex)
    ensures var text := HexToAscii(hex);
      r <==> text != [] && (CountPrintable(text) as real) / (|text| as real) > 0.8
  {
    var text := HexToAscii(hex);
    if text == [] then false
    else
      RatioAbove(CountPrintable(text), |text|);
      5 * CountPrintable(text) > 4 * |text|
  }

  lemma RatioAbove(p: nat, n: nat)
    requires n > 0
    ensures (p as real) / (n as real) > 0.8 <==> 5 * p > 4 * n
  {
    DivAbove(p as real, n as real, 0.8);
  }

  lemma DivAbove(a: real, b: real, c: real)
    requires b > 0.0
    ensures a / b > c <==> a > c * b
  {
  }
}

=== FILE: intsets.dfy ===
/** Facts about finite sets of integers. */
module IntSets {
  /** `m` is the least element of `ids`. */
  predicate IsMin(ids: set<int>, m: int) {
    m in ids && forall x :: x in ids ==> m <= x
  }

  /** Adding an element keeps the smaller of it and the old least element least. */
  lemma MinOfAdded(rest: set<int>, y: int, m: int)
    requires IsMin(rest, m)
    ensures IsMin(rest + {y}, if y < m then y else m)
  {
  }

  /** A non-empty set has an element. */
  lemma HasElement(ids: set<int>)
    requires ids != {}
    ensures exists y :: y in ids
  {
    if forall y :: y !in ids {
      assert false;
    }
  }

  /** A non-empty finite set of integers has a least element. */
  lemma {:induction false} MinExists(ids: set<int>)
    requires ids != {}
    ensures exists m :: IsMin(ids, m)
    decreases |ids|
  {
    HasElement(ids);
    var y :| y in ids;
    if ids == {y} {
      assert IsMin(ids, y);
    } else {
      if forall z :: z in ids ==> z == y {
        assert false;
      }
      var z :| z in ids && z != y;
      var rest := ids - {y};
      assert z in rest;
      MinExists(rest);
      var m :| IsMin(rest, m);
      assert ids == rest + {y};
      MinOfAdded(rest, y, m);
    }
  }
}

=== FILE: jsnum.dfy ===
/** JavaScript number parsing and printing as the application uses them:
    `parseInt` with radix 10, 16 or none, and `toString(radix)` with
    `padStart`. Values are unbounded integers; `None` stands for `NaN`. */
module JsNum {
  import opened Wrappers
  import opened JsText

  predicate IsDecDigit(c: char) {
    '0' <= c <= '9'
  }

  predicate IsHexDigit(c: char) {
    '0' <= c <= '9' || 'a' <= c <= 'f' || 'A' <= c <= 'F'
  }

  /** The regex `^[0-9A-Fa-f]*$`. */
  predicate AllHex(s: string) {
    forall k :: 0 <= k < |s| ==> IsHexDigit(s[k])
  }

  lemma AllHexAppend(a: string, b: string)
    requires AllHex(a) && AllHex(b)
    ensures AllHex(a + b)
  {
    forall k | 0 <= k < |a + b|
      ensures IsHexDigit((a + b)[k])
    {
      if k >= |a| {
        assert (a + b)[k] == b[k - |a|];
      }
    }
  }

  /** Every slice of a hex text is hex. */
  lemma AllHexSlices(s: string)
    requires AllHex(s)
    ensures forall i, j :: 0 <= i <= j <= |s| ==> AllHex(s[i..j])
  {
  }

  predicate IsRadix(radix: nat) {
    radix == 10 || radix == 16
  }

  predicate IsDigitOf(c: char, radix: nat) {
    if radix == 16 then IsHexDigit(c) else IsDecDigit(c)
  }

  predicate AllDigitsOf(s: string, radix: nat) {
    forall k :: 0 <= k < |s| ==> IsDigitOf(s[k], radix)
  }

  function DigitValue(c: char): (v: nat)
    requires IsHexDigit(c)
    ensures v < 16
    ensures IsDecDigit(c) ==> v < 10
  {
    if '0' <= c <= '9' then c as int - '0' as int
    else if 'a' <= c <= 'f' then c as int - 'a' as int + 10
    else c as int - 'A' as int + 10
  }

  function Pow(b: nat, e: nat): (r: nat)
    ensures b >= 1 ==> r >= 1
  {
    if e == 0 then 1 else b * Pow(b, e - 1)
  }

  /** The value of a big-endian digit string; the empty string is 0. */
  function DigitsValue(d: string, radix: nat): nat
    requires IsRadix(radix) && AllDigitsOf(d, radix)
  {
    if d == [] then 0
    else
      var high := DigitsValue(d[..|d| - 1], radix);
      var low := DigitValue(d[|d| - 1]);
      if radix == 16 then high * 16 + low else high * 10 + low
  }

  /** A digit string of length `n` holds less than `radix^n`. */
  lemma {:induction false} DigitsValueBound(d: string, radix: nat)
    requires IsRadix(radix) && AllDigitsOf(d, radix)
    ensures DigitsValue(d, radix) < Pow(radix, |d|)
    decreases |d|
  {
    if d != [] {
      DigitsValueBound(d[..|d| - 1], radix);
    }
  }

  function HexValue(s: string): nat
    requires AllHex(s)
  {
    DigitsValue(s, 16)
  }

  /** The longest prefix of `s` made of digits of `radix`. */
  function DigitPrefix(s: string, radix: nat): (r: string)
    requires IsRadix(radix)
    ensures r <= s && AllDigitsOf(r, radix)
    ensures |r| < |s| ==> !IsDigitOf(s[|r|], radix)
  {
    if s == [] || !IsDigitOf(s[0], radix) then []
    else [s[0]] + DigitPrefix(s[1..], radix)
  }

  /** `parseInt(s, radix)`, with radix 0 standing for an omitted radix:
      leading white space is skipped, one sign is read, a `0x`/`0X` prefix
      selects hexadecimal unless the radix is 10, and the longest run of
      digits that follows is the value. No digits at all gives `NaN`. */
  function ParseInt(s: string, radix: nat): Option<int>
    requires radix == 0 || IsRadix(radix)
  {
    var t := TrimStart(s);
    var negative := t != [] && t[0] == '-';
    var u := if t != [] && (t[0] == '-' || t[0] == '+') then t[1..] else t;
    var prefixed := |u| >= 2 && u[0] == '0' && (u[1] == 'x' || u[1] == 'X');
    var r := if radix == 10 || (radix == 0 && !prefixed) then 10 else 16;
    var body := if r == 16 && prefixed then u[2..] else u;
    var d := DigitPrefix(body, r);
    if d == [] then None
    else
      var magnitude: int := DigitsValue(d, r);
      Some(if negative then -magnitude else magnitude)
  }

  lemma {:induction false} DigitPrefixOfDigits(s: string, radix: nat)
    requires IsRadix(radix) && AllDigitsOf(s, radix)
    ensures DigitPrefix(s, radix) == s
  {
    if s != [] {
      DigitPrefixOfDigits(s[1..], radix);
      HeadTail(s);
    }
  }

  /** On a non-empty string of hex digits `parseInt(s, 16)` is the plain
      big-endian value: nothing is skipped and no prefix is recognised. */
  lemma ParseIntOfHex(s: string)
    requires AllHex(s) && s != []
    ensures ParseInt(s, 16) == Some(HexValue(s))
  {
    assert TrimStart(s) == s;
    DigitPrefixOfDigits(s, 16);
  }

  /** The digit of value `d`. */
  function DigitChar(d: nat, upper: bool): (c: char)
    requires d < 16
    ensures IsHexDigit(c) && DigitValue(c) == d
    ensures d < 10 <==> IsDecDigit(c)
    ensures !upper ==> !('A' <= c <= 'Z')
  {
    if d < 10 then ('0' as int + d) as char
    else if upper then ('A' as int + d - 10) as char
    else ('a' as int + d - 10) as char
  }

  /** `n.toString(radix)` for a non-negative integer: the shortest digit
      string, lower case unless `upper` (the effect of a later `toUpperCase`). */
  function ToRadix(n: nat, radix: nat, upper: bool): (r: string)
    requires IsRadix(radix)
    ensures r != [] && AllDigitsOf(r, radix)
    ensures DigitsValue(r, radix) == n
    ensures n < radix <==> |r| == 1
    decreases n
  {
    if n < radix then [DigitChar(n, upper)]
    else
      var q := if radix == 16 then n / 16 else n / 10;
      var d := if radix == 16 then n % 16 else n % 10;
      var high := ToRadix(q, radix, upper);
      var r := high + [DigitChar(d, upper)];
      assert r[..|r| - 1] == high;
      r
  }

  /** `String(n)` for a non-negative integer. */
  function Decimal(n: nat): string {
    ToRadix(n, 10, false)
  }

  /** `String(n)` for an integer. */
  function IntString(n: int): string {
    if n < 0 then "-" + Decimal(-n) else Decimal(n)
  }

  lemma NoLeadingSpace(s: string)
    requires s != [] && (s[0] == '-' || IsDecDigit(s[0]))
    ensures TrimStart(s) == s
  {
  }

  /** `parseInt` (radix 10 or omitted) reads a run of decimal digits as
      its value. */
  lemma ParseIntPlain(d: string, radix: nat)
    requires radix == 0 || radix == 10
    requires d != [] && AllDigitsOf(d, 10)
    ensures ParseInt(d, radix) == Some(DigitsValue(d, 10))
  {
    assert IsDecDigit(d[0]);
    NoLeadingSpace(d);
    assert !(|d| >= 2 && d[0] == '0' && (d[1] == 'x' || d[1] == 'X')) by {
      if |d| >= 2 {
        assert IsDecDigit(d[1]);
      }
    }
    assert DigitPrefix(d, 10) == d by {
      DigitPrefixOfDigits(d, 10);
    }
  }

  /** ... and a minus sign followed by decimal digits as the negated value. */
  lemma ParseIntMinus(s: string, d: string, radix: nat)
    requires radix == 0 || radix == 10
    requires d != [] && AllDigitsOf(d, 10)
    requires |s| >= 1 && s[0] == '-' && s[1..] == d
    ensures ParseInt(s, radix) == Some(-(DigitsValue(d, 10) as int))
  {
    NoLeadingSpace(s);
    assert IsDecDigit(d[0]);
    assert !(|d| >= 2 && d[0] == '0' && (d[1] == 'x' || d[1] == 'X')) by {
      if |d| >= 2 {
        assert IsDecDigit(d[1]);
      }
    }
    assert DigitPrefix(d, 10) == d by {
      DigitPrefixOfDigits(d, 10);
    }
  }

  /** Printing a count and reading it back with `parseInt` (radix 10 or
      omitted) gives the count back. */
  lemma ParseDecimal(n: nat, radix: nat)
    requires radix == 0 || radix == 10
    ensures ParseInt(Decimal(n), radix) == Some(n)
  {
    ParseIntPlain(Decimal(n), radix);
  }

  /** Printing an integer and reading it back with `parseInt` (radix 10
      or omitted) gives the integer back, sign included. */
  lemma ParseIntString(n: int, radix: nat)
    requires radix == 0 || radix == 10
    ensures ParseInt(IntString(n), radix) == Some(n)
  {
    if n >= 0 {
      ParseDecimal(n, radix);
    } else {
      var s, d := IntString(n), Decimal(-n);
      assert s[0] == '-' && s[1..] == d;
      ParseIntMinus(s, d, radix);
    }
  }

  /** `s.padStart(width, fill)`. */
  function PadStart(s: string, width: nat, fill: char): (r: string)
    ensures |r| == if |s| >= width then |s| else width
    ensures r[|r| - |s|..] == s
    ensures forall k :: 0 <= k < |r| - |s| ==> r[k] == fill
  {
    if |s| >= width then s else seq(width - |s|, _ => fill) + s
  }

  /** `b.toString(16).padStart(2, '0')` for a byte value. */
  function HexByte(b: nat, upper: bool): (r: string)
    requires b < 256
    ensures |r| == 2 && AllHex(r) && HexValue(r) == b
    ensures !upper ==> forall k :: 0 <= k < 2 ==> !('A' <= r[k] <= 'Z')
  {
    var t := ToRadix(b, 16, upper);
    if b < 16 then
      var r := PadStart(t, 2, '0');
      assert r == ['0'] + t && r[..1] == ['0'];
      assert ['0'][..0] == [];
      assert DigitsValue(r[..1], 16) == 0;
      r
    else
      assert t == ToRadix(b / 16, 16, upper) + [DigitChar(b % 16, upper)];
      t
  }

  /** `n.toString(16)` for an integer: a minus sign, then the magnitude. */
  function NumberHex(n: int): string {
    if n < 0 then "-" + ToRadix(-n, 16, false) else ToRadix(n, 16, false)
  }

  /** A byte in hex is its digits padded with zeros to a width of two. */
  lemma HexBytePadded(b: nat, upper: bool)
    requires b < 256
    ensures HexByte(b, upper) == PadStart(ToRadix(b, 16, upper), 2, '0')
  {
    if b >= 16 {
      assert |ToRadix(b, 16, upper)| >= 2;
    }
  }

  /** `n.toString(16).padStart(2, '0')` for a byte value is `HexByte`. */
  lemma PaddedNumberHex(n: int)
    requires 0 <= n < 256
    ensures PadStart(NumberHex(n), 2, '0') == HexByte(n, false)
  {
    HexBytePadded(n, false);
  }

  /** JavaScript's `a % b` for a positive divisor: the remainder takes the
      sign of the dividend. */
  function JsRem(a: int, b: int): (r: int)
    requires b > 0
    ensures a >= 0 ==> 0 <= r < b
    ensures a < 0 ==> -b < r <= 0
  {
    if a >= 0 then a % b else -((-a) % b)
  }

  lemma ShiftDistributes(x: int, p: int, y: int, radix: int)
    ensures (x * p + y) * radix == x * (p * radix) + y * radix
  {
  }

  /** The value of a concatenation: the left part shifted by the digits of the right part. */
  lemma {:induction false} DigitsValueAppend(a: string, b: string, radix: nat)
    requires IsRadix(radix) && AllDigitsOf(a, radix) && AllDigitsOf(b, radix)
    ensures DigitsValue(a + b, radix) == DigitsValue(a, radix) * Pow(radix, |b|) + DigitsValue(b, radix)
    decreases |b|
  {
    if b == [] {
      assert a + b == a;
    } else {
      var b' := b[..|b| - 1];
      var ab := a + b;
      assert ab[..|ab| - 1] == a + b';
      assert ab[|ab| - 1] == b[|b| - 1];
      DigitsValueAppend(a, b', radix);
      var x, p, y := DigitsValue(a, radix), Pow(radix, |b'|), DigitsValue(b', radix);
      assert DigitsValue(ab, radix) == (x * p + y) * radix + DigitValue(b[|b| - 1]);
      ShiftDistributes(x, p, y, radix);
      assert Pow(radix, |b|) == p * radix;
    }
  }

  lemma MulMonotone(d: nat, a: int, b: int)
    requires a <= b
    ensures d * a <= d * b
  {
  }

  lemma SmallMultiple(d: int, x: int)
    requires d > 0 && -d < d * x < d
    ensures x == 0
  {
    if x > 0 {
      MulMonotone(d, 1, x);
    } else if x < 0 {
      MulMonotone(d, x, -1);
    }
  }

  /** Division with remainder has a unique result. */
  lemma ModUnique(n: int, d: int, q: int, r: int)
    requires d > 0 && n == d * q + r && 0 <= r < d
    ensures n % d == r && n / d == q
  {
    var q', r' := n / d, n % d;
    assert d * (q' - q) == r - r' by {
      assert n == d * q' + r';
    }
    SmallMultiple(d, q' - q);
  }

  /** Taking the lowest hex digit off and the rest modulo `p` is the
      number modulo `16 * p`. */
  lemma ModStep(n: nat, p: nat)
    requires p > 0
    ensures (n / 16 % p) * 16 + n % 16 == n % (16 * p)
  {
    var q, a := n / 16, n % 16;
    var k, m := q / p, q % p;
    assert n == (16 * p) * k + (m * 16 + a) by {
      assert n == 16 * q + a;
      assert q == p * k + m;
    }
    ModUnique(n, 16 * p, k, m * 16 + a);
  }

  /** `width` upper-case hex digits holding `n` modulo 16^width: the
      fixed-width field a sender puts on the air. */
  function FixedHex(n: nat, width: nat): (r: string)
    ensures |r| == width && AllHex(r)
  {
    if width == 0 then [] else FixedHex(n / 16, width - 1) + [DigitChar(n % 16, true)]
  }

  /** A fixed-width field keeps the value modulo its capacity. */
  lemma {:induction false} FixedHexValue(n: nat, width: nat)
    ensures HexValue(FixedHex(n, width)) == n % Pow(16, width)
  {
    if width > 0 {
      var high := FixedHex(n / 16, width - 1);
      var r := FixedHex(n, width);
      assert r[..|r| - 1] == high;
      assert HexValue(r) == HexValue(high) * 16 + n % 16;
      FixedHexValue(n / 16, width - 1);
      ModStep(n, Pow(16, width - 1));
    }
  }
}

=== FILE: jstext.dfy ===
/** The JavaScript string operations the application relies on, written out
    over `seq<char>`: `trim`, `startsWith`, `includes`, `split` on one
    character, `indexOf`, `join`, `slice`, the `/\r?\n/` line split and the CSV quote
    doubling `replace(/"/g, '""')`. */
module JsText {
  import opened Wrappers

  /** The code points JavaScript's `trim` removes and the regex class `\s`
      matches (WhiteSpace and LineTerminator of ECMA-262). */
  predicate IsSpace(c: char) {
    || c == ' ' || c == '\t' || c == '\n' || c == '\U{000B}' || c == '\U{000C}' || c == '\r'
    || c == '\U{00A0}' || c == '\U{1680}' || ('\U{2000}' <= c <= '\U{200A}')
    || c == '\U{2028}' || c == '\U{2029}' || c == '\U{202F}' || c == '\U{205F}'
    || c == '\U{3000}' || c == '\U{FEFF}'
  }

  /** The characters the regex wildcard `.` refuses (no `s` flag). */
  predicate IsLineTerminator(c: char) {
    c == '\n' || c == '\r' || c == '\U{2028}' || c == '\U{2029}'
  }

  /** `s.trimStart()`: the longest suffix of `s` that does not start with white space. */
  function TrimStart(s: string): (r: string)
    ensures |r| <= |s| && r == s[|s| - |r|..]
    ensures r == [] || !IsSpace(r[0])
    ensures forall i :: 0 <= i < |s| - |r| ==> IsSpace(s[i])
  {
    if s == [] || !IsSpace(s[0]) then s else TrimStart(s[1..])
  }

  /** `s.trimEnd()`: the longest prefix of `s` that does not end with white space. */
  function TrimEnd(s: string): (r: string)
    ensures r <= s
    ensures r == [] || !IsSpace(r[|r| - 1])
    ensures forall i :: |r| <= i < |s| ==> IsSpace(s[i])
  {
    if s == [] || !IsSpace(s[|s| - 1]) then s else TrimEnd(s[..|s| - 1])
  }

  /** `s.trim()`. */
  function Trim(s: string): string {
    TrimEnd(TrimStart(s))
  }

  /** A string without white space is its own trim. */
  lemma TrimOfSolid(s: string)
    requires forall i :: 0 <= i < |s| ==> !IsSpace(s[i])
    ensures Trim(s) == s
  {
  }

  /** `s.includes(sub)`. */
  predicate Contains(s: string, sub: string)
    decreases |s|
  {
    sub <= s || (s != [] && Contains(s[1..], sub))
  }

  /** `s.split(sep)` for a one-character separator. */
  function Split(s: string, sep: char): (r: seq<string>)
    ensures |r| >= 1
  {
    if s == [] then [[]]
    else
      var rest := Split(s[1..], sep);
      if s[0] == sep then [[]] + rest
      else [[s[0]] + rest[0]] + rest[1..]
  }

  /** No piece of a split holds the separator, and there is more than one
      piece exactly when the input holds it. */
  lemma {:induction false} SplitPieces(s: string, sep: char)
    ensures var r := Split(s, sep);
      && (forall k :: 0 <= k < |r| ==> sep !in r[k])
      && (sep in s <==> |r| >= 2)
  {
    if s != [] {
      SplitPieces(s[1..], sep);
      var rest := Split(s[1..], sep);
      var r := Split(s, sep);
      if s[0] != sep {
        assert r[0] == [s[0]] + rest[0];
        assert sep in s <==> sep in s[1..] by {
          assert s == [s[0]] + s[1..];
        }
      } else {
        assert sep in s;
      }
    }
  }

  /** `parts.join(sep)`. */
  function Join(parts: seq<string>, sep: string): string {
    if |parts| == 0 then []
    else if |parts| == 1 then parts[0]
    else parts[0] + sep + Join(parts[1..], sep)
  }

  /** Splitting and joining again on the same character gives back the input. */
  lemma {:induction false} JoinSplit(s: string, sep: char)
    ensures Join(Split(s, sep), [sep]) == s
  {
    if s != [] {
      var rest := Split(s[1..], sep);
      JoinSplit(s[1..], sep);
      if s[0] == sep {
        assert Split(s, sep) == [[]] + rest;
        assert ([[]] + rest)[1..] == rest;
      } else {
        var r := Split(s, sep);
        assert r == [[s[0]] + rest[0]] + rest[1..];
        if |rest| == 1 {
          assert r == [[s[0]] + rest[0]];
        } else {
          assert r[1..] == rest[1..];
          assert Join(rest, [sep]) == rest[0] + [sep] + Join(rest[1..], [sep]);
        }
      }
    }
  }

  /** A string without the separator splits into itself alone. */
  lemma {:induction false} SplitSolid(s: string, sep: char)
    requires sep !in s
    ensures Split(s, sep) == [s]
  {
    if s != [] {
      assert sep !in s[1..];
      SplitSolid(s[1..], sep);
      HeadTail(s);
    }
  }

  /** Splitting after one leading character. */
  lemma SplitCons(c: char, s: string, sep: char)
    ensures Split([c] + s, sep) ==
            if c == sep then [[]] + Split(s, sep)
            else [[c] + Split(s, sep)[0]] + Split(s, sep)[1..]
  {
    assert ([c] + s)[1..] == s;
  }

  /** Splitting at the first separator: the part before it is the first piece. */
  lemma {:induction false} SplitAtSeparator(a: string, b: string, sep: char)
    requires sep !in a
    ensures Split(a + [sep] + b, sep) == [a] + Split(b, sep)
  {
    if a == [] {
      assert a + [sep] + b == [sep] + b;
      SplitCons(sep, b, sep);
    } else {
      assert sep !in a[1..];
      SplitAtSeparator(a[1..], b, sep);
      assert a + [sep] + b == [a[0]] + (a[1..] + [sep] + b);
      SplitCons(a[0], a[1..] + [sep] + b, sep);
      HeadTail(a);
    }
  }

  /** Joining pieces that do not hold the separator and splitting again
      gives back the pieces. */
  lemma {:induction false} SplitJoin(parts: seq<string>, sep: char)
    requires parts != []
    requires forall k | 0 <= k < |parts| :: sep !in parts[k]
    ensures Split(Join(parts, [sep]), sep) == parts
  {
    if |parts| == 1 {
      SplitSolid(parts[0], sep);
    } else {
      SplitJoin(parts[1..], sep);
      SplitAtSeparator(parts[0], Join(parts[1..], [sep]), sep);
      HeadTail(parts);
    }
  }

  /** A character in neither the pieces nor the glue is not in their join. */
  lemma {:induction false} JoinHasNot(parts: seq<string>, glue: string, c: char)
    requires c !in glue
    requires forall k | 0 <= k < |parts| :: c !in parts[k]
    ensures c !in Join(parts, glue)
  {
    if |parts| >= 2 {
      JoinHasNot(parts[1..], glue, c);
      NotInConcat(parts[0], glue, c);
      NotInConcat(parts[0] + glue, Join(parts[1..], glue), c);
    }
  }

  /** A prefix without the separator joins the first piece. */
  lemma SplitPrefix(pre: string, s: string, sep: char)
    requires sep !in pre
    ensures var q := Split(s, sep); Split(pre + s, sep) == [pre + q[0]] + q[1..]
  {
    SplitAppend(pre, s, sep);
    SplitSolid(pre, sep);
  }

  /** Piece `k` of `n` pieces joined with padding: the padding after the
      previous separator, the piece, the padding before the next one. */
  function Padded(piece: string, k: nat, n: nat, before: string, after: string): string {
    (if k > 0 then after else []) + piece + (if k + 1 < n then before else [])
  }

  /** Piece `k` seen from the pieces after the first one. */
  lemma PaddedShift(piece: string, k: nat, n: nat, before: string, after: string)
    requires 0 < k < n
    ensures k == 1 ==> after + Padded(piece, 0, n - 1, before, after) == Padded(piece, 1, n, before, after)
    ensures k > 1 ==> Padded(piece, k - 1, n - 1, before, after) == Padded(piece, k, n, before, after)
  {
    Associate(after, piece, if 2 < n then before else []);
  }

  /** The first join step, regrouped around the separator character. */
  lemma JoinPaddedStep(parts: seq<string>, sep: char, before: string, after: string)
    requires |parts| >= 2
    ensures var glue := before + [sep] + after;
      Join(parts, glue) == (parts[0] + before) + [sep] + (after + Join(parts[1..], glue))
  {
    var glue := before + [sep] + after;
    var rest := Join(parts[1..], glue);
    Associate(parts[0], before + [sep], after + rest);
    Associate(parts[0], before, [sep]);
    Associate(parts[0] + before + [sep], after, rest);
    Associate(before + [sep], after, rest);
    Associate(parts[0], glue, rest);
  }

  /** Splitting at a separator followed by padding. */
  lemma SplitAtPadded(a: string, after: string, rest: string, sep: char)
    requires sep !in a && sep !in after
    ensures var q, p := Split(rest, sep), Split(a + [sep] + (after + rest), sep);
      && |p| == |q| + 1 && p[0] == a && p[1] == after + q[0]
      && forall i :: 2 <= i < |p| ==> p[i] == q[i - 1]
  {
    var q := Split(rest, sep);
    var m := Split(after + rest, sep);
    SplitAtSeparator(a, after + rest, sep);
    SplitPrefix(after, rest, sep);
    assert m == [after + q[0]] + q[1..];
    ConsIndex(a, m);
  }

  /** Indexing past the head of a consed sequence. */
  lemma ConsIndex<T>(x: T, m: seq<T>)
    ensures var p := [x] + m; |p| == |m| + 1 && p[0] == x && forall i :: 1 <= i < |p| ==> p[i] == m[i - 1]
  {
  }

  lemma NotInConcat(a: string, b: string, c: char)
    requires c !in a && c !in b
    ensures c !in a + b
  {
    assert forall i :: 0 <= i < |a + b| ==> (a + b)[i] == if i < |a| then a[i] else b[i - |a|];
  }

  /** Joining with a separator padded on both sides (`' | '`) and splitting
      on the separator character gives back each piece with the padding
      around it. */
  lemma {:induction false} SplitJoinPadded(parts: seq<string>, sep: char, before: string, after: string)
    requires parts != []
    requires sep !in before && sep !in after
    requires forall k | 0 <= k < |parts| :: sep !in parts[k]
    ensures var p := Split(Join(parts, before + [sep] + after), sep);
      && |p| == |parts|
      && forall k :: 0 <= k < |parts| ==> p[k] == Padded(parts[k], k, |parts|, before, after)
  {
    var glue := before + [sep] + after;
    var p := Split(Join(parts, glue), sep);
    if |parts| == 1 {
      SplitSolid(parts[0], sep);
      assert [] + parts[0] + [] == parts[0];
    } else {
      var rest := Join(parts[1..], glue);
      var a := parts[0] + before;
      NotInConcat(parts[0], before, sep);
      JoinPaddedStep(parts, sep, before, after);
      SplitJoinPadded(parts[1..], sep, before, after);
      var q := Split(rest, sep);
      SplitAtPadded(a, after, rest, sep);
      forall k | 0 <= k < |parts|
        ensures p[k] == Padded(parts[k], k, |parts|, before, after)
      {
        if k == 0 {
          assert p[0] == a;
          assert Padded(parts[0], 0, |parts|, before, after) == a by {
            assert [] + parts[0] == parts[0];
          }
        } else {
          assert parts[1..][k - 1] == parts[k];
          assert q[k - 1] == Padded(parts[k], k - 1, |parts| - 1, before, after);
          PaddedShift(parts[k], k, |parts|, before, after);
          if k == 1 {
            assert p[1] == after + q[0];
          } else {
            assert p[k] == q[k - 1];
          }
        }
      }
    }
  }

  /** After the last separator: the part behind it is the last piece. */
  lemma SplitLastPiece(a: string, b: string, sep: char)
    requires sep !in b
    ensures var p := Split(a + [sep] + b, sep); p[|p| - 1] == b
  {
    SplitAppend(a, [sep], sep);
    SplitCons(sep, [], sep);
    assert [sep] + [] == [sep];
    SplitAppend(a + [sep], b, sep);
    SplitSolid(b, sep);
  }

  /** Splitting a concatenation glues the last piece of the left part to the
      first piece of the right part. */
  lemma {:induction false} SplitAppend(a: string, b: string, sep: char)
    ensures var pa, pb := Split(a, sep), Split(b, sep);
            Split(a + b, sep) == pa[..|pa| - 1] + [pa[|pa| - 1] + pb[0]] + pb[1..]
  {
    if a == [] {
      assert a + b == b;
      var pb := Split(b, sep);
      assert Split(a, sep) == [[]];
      var empty: string := [];
      assert empty + pb[0] == pb[0];
      HeadTail(pb);
    } else {
      var c, a' := a[0], a[1..];
      assert a == [c] + a';
      assert a + b == [c] + (a' + b);
      SplitAppend(a', b, sep);
      SplitCons(c, a', sep);
      SplitCons(c, a' + b, sep);
      var pb := Split(b, sep);
      var qa := Split(a', sep);
      var n := |qa|;
      var rest := Split(a' + b, sep);
      var glued := qa[n - 1] + pb[0];
      assert rest == qa[..n - 1] + [glued] + pb[1..];
      if c == sep {
        SplitSepCase(qa, glued, pb[1..]);
      } else {
        SplitCharCase(c, qa, pb[0], pb[1..]);
      }
    }
  }

  lemma SplitSepCase(qa: seq<string>, glued: string, tail: seq<string>)
    requires |qa| >= 1
    ensures var pa := [[]] + qa;
            [[]] + (qa[..|qa| - 1] + [glued] + tail) == pa[..|pa| - 1] + [glued] + tail
  {
    var pa := [[]] + qa;
    assert pa[..|pa| - 1] == [[]] + qa[..|qa| - 1];
  }

  lemma SplitCharCase(c: char, qa: seq<string>, first: string, tail: seq<string>)
    requires |qa| >= 1
    ensures var rest := qa[..|qa| - 1] + [qa[|qa| - 1] + first] + tail;
            var pa := [[c] + qa[0]] + qa[1..];
            [[c] + rest[0]] + rest[1..] == pa[..|pa| - 1] + [pa[|pa| - 1] + first] + tail
  {
    var n := |qa|;
    var rest := qa[..n - 1] + [qa[n - 1] + first] + tail;
    var pa := [[c] + qa[0]] + qa[1..];
    if n == 1 {
      assert rest == [qa[0] + first] + tail;
      assert pa == [[c] + qa[0]];
      assert [c] + (qa[0] + first) == ([c] + qa[0]) + first;
    } else {
      assert rest[0] == qa[0];
      assert rest[1..] == qa[1..n - 1] + [qa[n - 1] + first] + tail;
      assert pa[..|pa| - 1] == [[c] + qa[0]] + qa[1..n - 1];
      assert pa[|pa| - 1] == qa[n - 1];
    }
  }

  /** One trailing carriage return removed, if present. */
  function DropCr(l: string): string {
    if |l| > 0 && l[|l| - 1] == '\r' then l[..|l| - 1] else l
  }

  /** `DropCr` applied to every element. */
  function DropCrAll(ls: seq<string>): seq<string> {
    seq(|ls|, k requires 0 <= k < |ls| => DropCr(ls[k]))
  }

  /** The lines a run of pieces stands for: every piece but the last
      was ended by a line feed and loses one carriage return before it. */
  function LinesOf(p: seq<string>): (r: seq<string>)
    requires |p| >= 1
    ensures |r| == |p|
  {
    DropCrAll(p[..|p| - 1]) + [p[|p| - 1]]
  }

  /** `s.split(/\r?\n/)`: every piece that a line feed ends loses one
      carriage return before it; the final piece is kept as it is. */
  function SplitLines(s: string): (r: seq<string>)
    ensures |r| >= 1
  {
    LinesOf(Split(s, '\n'))
  }

  /** No line of `s.split(/\r?\n/)` holds a line feed. */
  lemma SplitLinesHaveNoNewline(s: string)
    ensures var r := SplitLines(s); forall k :: 0 <= k < |r| ==> '\n' !in r[k]
  {
    var p := Split(s, '\n');
    var r := SplitLines(s);
    SplitPieces(s, '\n');
    forall k | 0 <= k < |r| ensures r[k] <= p[k] {
      if k < |r| - 1 {
        assert r[k] == DropCr(p[k]);
      }
    }
  }

  lemma GlueEmpty(pa: seq<string>, pb: seq<string>)
    requires |pa| >= 1
    ensures pa[..|pa| - 1] + [pa[|pa| - 1] + []] + pb == pa + pb
  {
    var empty: string := [];
    assert pa[|pa| - 1] + empty == pa[|pa| - 1];
    assert pa[..|pa| - 1] + [pa[|pa| - 1]] == pa;
  }

  /** Splitting at a line feed between two parts. */
  lemma SplitNewline(a: string, b: string)
    ensures Split(a + (['\n'] + b), '\n') == Split(a, '\n') + Split(b, '\n')
  {
    SplitAppend(a, ['\n'] + b, '\n');
    SplitCons('\n', b, '\n');
    GlueEmpty(Split(a, '\n'), Split(b, '\n'));
  }

  lemma DropCrAllAppend(x: seq<string>, y: seq<string>)
    ensures DropCrAll(x + y) == DropCrAll(x) + DropCrAll(y)
  {
  }

  /** The last piece of a split, seen from the split of the tail. */
  lemma SplitLastCons(s: string)
    requires s != []
    ensures var p, q := Split(s, '\n'), Split(s[1..], '\n');
      p[|p| - 1] == if s[0] != '\n' && |q| == 1 then s else q[|q| - 1]
  {
    if s[0] == '\n' {
      SplitLastAfterBreak(s);
    } else if |Split(s[1..], '\n')| == 1 {
      SplitLastSolid(s);
    } else {
      SplitLastLater(s);
    }
  }

  lemma SplitLastAfterBreak(s: string)
    requires s != [] && s[0] == '\n'
    ensures var p, q := Split(s, '\n'), Split(s[1..], '\n'); p[|p| - 1] == q[|q| - 1]
  {
    var q := Split(s[1..], '\n');
    assert Split(s, '\n') == [[]] + q;
    LastOfAppend([[]], q);
  }

  lemma SplitLastSolid(s: string)
    requires s != [] && s[0] != '\n' && |Split(s[1..], '\n')| == 1
    ensures var p := Split(s, '\n'); p[|p| - 1] == s
  {
    var q := Split(s[1..], '\n');
    SplitPieces(s[1..], '\n');
    SplitSolid(s[1..], '\n');
    assert Split(s, '\n') == [[s[0]] + s[1..]];
    HeadTail(s);
  }

  lemma SplitLastLater(s: string)
    requires s != [] && s[0] != '\n' && |Split(s[1..], '\n')| >= 2
    ensures var p, q := Split(s, '\n'), Split(s[1..], '\n'); p[|p| - 1] == q[|q| - 1]
  {
    var q := Split(s[1..], '\n');
    assert Split(s, '\n') == [[s[0]] + q[0]] + q[1..];
    LastOfAppend([[s[0]] + q[0]], q[1..]);
  }

  lemma LastOfAppend<T>(a: seq<T>, b: seq<T>)
    requires |b| >= 1
    ensures (a + b)[|a + b| - 1] == b[|b| - 1]
  {
  }

  /** The last piece of a split is a suffix of the input. */
  lemma {:induction false} SplitLastPieceSuffix(s: string)
    ensures var p := Split(s, '\n'); |p[|p| - 1]| <= |s| && p[|p| - 1] == s[|s| - |p[|p| - 1]|..]
  {
    if s != [] {
      SplitLastPieceSuffix(s[1..]);
      SplitLastCons(s);
      var rest := Split(s[1..], '\n');
      var last := rest[|rest| - 1];
      assert s[1..][|s[1..]| - |last|..] == s[|s| - |last|..];
    }
  }

  /** The last piece of a string that does not end in a carriage return
      has none to lose. */
  lemma LastPieceKeeps(a: string)
    requires a == [] || a[|a| - 1] != '\r'
    ensures var p := Split(a, '\n'); DropCr(p[|p| - 1]) == p[|p| - 1]
  {
    var p := Split(a, '\n');
    var last := p[|p| - 1];
    SplitLastPieceSuffix(a);
    if last != [] {
      assert last[|last| - 1] == a[|a| - 1];
    }
  }

  /** The lines of a chunk cut after a line feed are those of the two
      parts, unless the first part ends in a carriage return. */
  lemma SplitLinesAppend(a: string, b: string)
    requires a == [] || a[|a| - 1] != '\r'
    ensures SplitLines(a + "\n" + b) == SplitLines(a) + SplitLines(b)
  {
    var pa, pb := Split(a, '\n'), Split(b, '\n');
    assert a + "\n" + b == a + (['\n'] + b);
    assert Split(a + "\n" + b, '\n') == pa + pb by {
      SplitNewline(a, b);
    }
    assert LinesOf(pa + pb) == LinesOf(pa) + LinesOf(pb) by {
      LastPieceKeeps(a);
      LinesOfPieces(pa, pb);
    }
  }

  /** The lines of two runs of pieces, when the first run's last piece
      has no carriage return to lose. */
  lemma LinesOfPieces(pa: seq<string>, pb: seq<string>)
    requires |pa| >= 1 && |pb| >= 1 && DropCr(pa[|pa| - 1]) == pa[|pa| - 1]
    ensures LinesOf(pa + pb) == LinesOf(pa) + LinesOf(pb)
  {
    var p := pa + pb;
    var n, m := |pa|, |pb|;
    assert p[..|p| - 1] == pa + pb[..m - 1];
    assert p[|p| - 1] == pb[m - 1];
    DropCrAllAppend(pa, pb[..m - 1]);
    assert pa == pa[..n - 1] + [pa[n - 1]];
    DropCrAllAppend(pa[..n - 1], [pa[n - 1]]);
    assert DropCrAll([pa[n - 1]]) == [pa[n - 1]];
  }

  /** The lines of a run of pieces that starts with a complete piece. */
  lemma LinesOfCons(a: string, p: seq<string>)
    requires |p| >= 1
    ensures LinesOf([a] + p) == [DropCr(a)] + LinesOf(p)
  {
    var q := [a] + p;
    assert q[..|q| - 1] == [a] + p[..|p| - 1];
    DropCrAllAppend([a], p[..|p| - 1]);
  }

  /** `s.indexOf(c)`: the first position holding `c`, if any. */
  function IndexOf(s: string, c: char): (r: Option<nat>)
    ensures r.Some? ==> r.value < |s| && s[r.value] == c
  {
    if s == [] then None
    else if s[0] == c then Some(0)
    else
      var rest := IndexOf(s[1..], c);
      if rest.None? then None else Some(rest.value + 1)
  }

  /** `indexOf` finds the first occurrence, and finds none exactly when
      the character does not occur. */
  lemma {:induction false} IndexOfFirst(s: string, c: char)
    ensures IndexOf(s, c).None? <==> c !in s
    ensures IndexOf(s, c).Some? ==> c !in s[..IndexOf(s, c).value]
  {
    if s != [] && s[0] != c {
      IndexOfFirst(s[1..], c);
      assert s == [s[0]] + s[1..];
      var rest := IndexOf(s[1..], c);
      if rest.Some? {
        assert s[..rest.value + 1] == [s[0]] + s[1..][..rest.value];
      }
    }
  }

  /** A character found in a prefix is found at the same place once the
      text grows. */
  lemma {:induction false} IndexOfPrefix(x: string, y: string, c: char)
    requires IndexOf(x, c).Some?
    ensures IndexOf(x + y, c) == IndexOf(x, c)
  {
    assert (x + y)[0] == x[0];
    if x[0] != c {
      assert (x + y)[1..] == x[1..] + y;
      IndexOfPrefix(x[1..], y, c);
    }
  }

  /** A line ended by `\r\n` splits into the line and an empty rest. */
  lemma SplitLinesOfCrLf(line: string)
    requires '\n' !in line
    ensures SplitLines(line + "\r\n") == [line, []]
  {
    var p := line + "\r";
    assert line + "\r\n" == p + ['\n'] + [];
    assert Split(p + ['\n'] + [], '\n') == [p, []] by {
      assert '\n' !in p by {
        assert forall k :: 0 <= k < |p| ==> p[k] == if k < |line| then line[k] else '\r';
      }
      SplitAtSeparator(p, [], '\n');
    }
    assert DropCr(p) == line by {
      assert p[..|p| - 1] == line;
    }
    assert LinesOf([p, []]) == [line, []] by {
      assert [p, []][..1] == [p];
    }
  }

  /** A suffix of a suffix is a suffix. */
  lemma SliceOfSlice<T>(xs: seq<T>, a: nat, b: nat)
    requires a + b <= |xs|
    ensures xs[a..][b..] == xs[a + b..]
  {
  }

  /** A non-empty sequence is its head followed by its tail. */
  lemma HeadTail<T>(xs: seq<T>)
    requires xs != []
    ensures [xs[0]] + xs[1..] == xs
  {
  }

  /** Concatenation regrouped; stated apart so that proofs about longer
      sequences need not rediscover it. */
  lemma Associate<T>(a: seq<T>, b: seq<T>, c: seq<T>)
    ensures a + (b + c) == (a + b) + c
  {
  }

  /** `lines.filter(Boolean)` on strings: the empty ones are dropped. */
  function NonEmpty(ls: seq<string>): (r: seq<string>)
    ensures forall k :: 0 <= k < |r| ==> r[k] != []
    ensures forall l :: l in r <==> l in ls && l != []
  {
    if ls == [] then []
    else (if ls[0] == [] then [] else [ls[0]]) + NonEmpty(ls[1..])
  }

  lemma {:induction false} NonEmptyAppend(a: seq<string>, b: seq<string>)
    ensures NonEmpty(a + b) == NonEmpty(a) + NonEmpty(b)
  {
    if a != [] {
      assert (a + b)[1..] == a[1..] + b;
      NonEmptyAppend(a[1..], b);
    } else {
      assert a + b == b;
    }
  }

  /** `s.slice(from, to)` for non-negative bounds (clamped to the length). */
  function Slice(s: string, from: nat, to: nat): (r: string)
    ensures |r| == if from < to && from < |s| then (if to < |s| then to else |s|) - from else 0
    ensures forall k :: 0 <= k < |r| ==> r[k] == s[from + k]
  {
    if from >= to || from >= |s| then []
    else s[from..if to < |s| then to else |s|]
  }

  /** ASCII lower-casing (`toLowerCase` restricted to A-Z). */
  function ToLowerAscii(s: string): (r: string)
    ensures |r| == |s|
    ensures forall k :: 0 <= k < |s| ==> !('A' <= r[k] <= 'Z')
    ensures forall k :: 0 <= k < |s| && !('A' <= s[k] <= 'Z') ==> r[k] == s[k]
  {
    seq(|s|, k requires 0 <= k < |s| =>
      if 'A' <= s[k] <= 'Z' then (s[k] as int - 'A' as int + 'a' as int) as char else s[k])
  }

  /** `s.replace(/"/g, '""')`: every double quote is doubled. */
  function DoubleQuotes(s: string): (r: string)
    ensures |r| >= |s|
  {
    if s == [] then []
    else (if s[0] == '"' then "\"\"" else [s[0]]) + DoubleQuotes(s[1..])
  }

  /** The reading a CSV reader applies inside a quoted field: each doubled
      quote stands for one. */
  function UndoubleQuotes(s: string): string
    decreases |s|
  {
    if s == [] then []
    else if |s| >= 2 && s[0] == '"' && s[1] == '"' then "\"" + UndoubleQuotes(s[2..])
    else [s[0]] + UndoubleQuotes(s[1..])
  }

  /** Un-doubling recovers the text that was escaped. */
  lemma {:induction false} UndoubleDouble(s: string)
    ensures UndoubleQuotes(DoubleQuotes(s)) == s
  {
    if s != [] {
      UndoubleDouble(s[1..]);
      var d := DoubleQuotes(s);
      if s[0] == '"' {
        assert d == "\"\"" + DoubleQuotes(s[1..]);
        assert d[2..] == DoubleQuotes(s[1..]);
      } else {
        assert d == [s[0]] + DoubleQuotes(s[1..]);
        assert d[1..] == DoubleQuotes(s[1..]);
      }
    }
  }

  /** Position `k` of `d` is not a quote, or has a quote right next to it. */
  predicate PairedAt(d: string, k: int)
    requires 0 <= k < |d|
  {
    d[k] != '"' || (k + 1 < |d| && d[k + 1] == '"') || (k > 0 && d[k - 1] == '"')
  }

  /** Every quote of `d` has a quote right next to it. */
  predicate QuotesPaired(d: string) {
    forall k :: 0 <= k < |d| ==> PairedAt(d, k)
  }

  /** In an escaped field every quote is one of a doubled pair, so the field
      never ends a quoted CSV cell early. */
  lemma {:induction false} DoubledQuotesPair(s: string)
    ensures QuotesPaired(DoubleQuotes(s))
  {
    if s != [] {
      var t := DoubleQuotes(s[1..]);
      DoubledQuotesPair(s[1..]);
      var head: string := if s[0] == '"' then "\"\"" else [s[0]];
      var d := DoubleQuotes(s);
      assert d == head + t;
      forall k | 0 <= k < |d|
        ensures PairedAt(d, k)
      {
        if k < |head| {
          if s[0] == '"' {
            assert d[0] == '"' && d[1] == '"';
          }
        } else {
          var j := k - |head|;
          assert d[k] == t[j];
          assert PairedAt(t, j);
          if j + 1 < |t| {
            assert d[k + 1] == t[j + 1];
          }
          if j > 0 {
            assert d[k - 1] == t[j - 1];
          }
        }
      }
    }
  }
}

=== FILE: link.dfy ===
/** What the serial links do on the outside: console lines, commands
    handed to the log store, and data written to a port. */
module Link {
  datatype Effect =
      /** A line for the console (`print`). */
    | Print(text: string)
      /** A command handed to the log store (`logCommand`). */
    | LogCommand(cmd: string)
      /** Data handed to the port's writer. */
    | Write(data: string)

  /** The symbols the console lines start with. */
  const Warning: string := "\U{26A0}\U{FE0F}"
  const Outgoing: string := "\U{27A1}\U{FE0F}"
  const Incoming: string := "\U{2B05}\U{FE0F}"
  const Done: string := "\U{2705}"

  /** The data written to the port, in order. */
  function Writes(effects: seq<Effect>): (r: seq<string>)
    ensures |r| <= |effects|
  {
    if effects == [] then []
    else (if effects[0].Write? then [effects[0].data] else []) + Writes(effects[1..])
  }

  lemma {:induction false} WritesAppend(a: seq<Effect>, b: seq<Effect>)
    ensures Writes(a + b) == Writes(a) + Writes(b)
  {
    if a == [] {
      assert a + b == b;
    } else {
      assert (a + b)[0] == a[0] && (a + b)[1..] == a[1..] + b;
      WritesAppend(a[1..], b);
      var head := if a[0].Write? then [a[0].data] else [];
      assert head + (Writes(a[1..]) + Writes(b)) == (head + Writes(a[1..])) + Writes(b);
    }
  }

  /** Effects that write nothing to the port. */
  predicate Silent(effects: seq<Effect>) {
    forall k :: 0 <= k < |effects| ==> !effects[k].Write?
  }

  lemma {:induction false} SilentWritesNothing(effects: seq<Effect>)
    requires Silent(effects)
    ensures Writes(effects) == []
  {
    if effects != [] {
      SilentWritesNothing(effects[1..]);
    }
  }

  /** Commands sent one after the other, each by the same send step. */
  function SendEach(send: string -> seq<Effect>, cmds: seq<string>): seq<Effect>
    decreases |cmds|
  {
    if cmds == [] then [] else send(cmds[0]) + SendEach(send, cmds[1..])
  }

  /** When each send writes its command's frame once, a run of sends
      writes every frame once, in the order of the commands. */
  lemma {:induction false} SendEachWrites(send: string -> seq<Effect>, frame: string -> string, cmds: seq<string>)
    requires forall c :: Writes(send(c)) == [frame(c)]
    ensures var w := Writes(SendEach(send, cmds));
      |w| == |cmds| && forall k :: 0 <= k < |cmds| ==> w[k] == frame(cmds[k])
    decreases |cmds|
  {
    if cmds != [] {
      WritesAppend(send(cmds[0]), SendEach(send, cmds[1..]));
      SendEachWrites(send, frame, cmds[1..]);
      var w := Writes(SendEach(send, cmds));
      forall k | 0 <= k < |cmds| ensures w[k] == frame(cmds[k]) {
        if k > 0 {
          assert cmds[1..][k - 1] == cmds[k];
        }
      }
    }
  }

  /** When no send writes, a run of sends writes nothing. */
  lemma {:induction false} SendEachSilent(send: string -> seq<Effect>, cmds: seq<string>)
    requires forall c :: Writes(send(c)) == []
    ensures Writes(SendEach(send, cmds)) == []
    decreases |cmds|
  {
    if cmds != [] {
      WritesAppend(send(cmds[0]), SendEach(send, cmds[1..]));
      SendEachSilent(send, cmds[1..]);
    }
  }

  /** The console lines among some effects, in order. */
  function Prints(effects: seq<Effect>): (r: seq<string>)
    ensures |r| <= |effects|
  {
    if effects == [] then []
    else (if effects[0].Print? then [effects[0].text] else []) + Prints(effects[1..])
  }

  lemma {:induction false} PrintsAppend(a: seq<Effect>, b: seq<Effect>)
    ensures Prints(a + b) == Prints(a) + Prints(b)
  {
    if a == [] {
      assert a + b == b;
    } else {
      assert (a + b)[0] == a[0] && (a + b)[1..] == a[1..] + b;
      PrintsAppend(a[1..], b);
      var head := if a[0].Print? then [a[0].text] else [];
      assert head + (Prints(a[1..]) + Prints(b)) == (head + Prints(a[1..])) + Prints(b);
    }
  }
}

=== FILE: logviewer.dfy ===
/** The log viewer's text for one stored record (`formatEntry`) and its CSV
    export (`exportDbCsv`). A stored record is seen through its fields as
    text; reading IndexedDB and building the table are left out. */
module LogViewer {
  import opened Wrappers
  import opened JsText
  import opened Csv

  /** A stored record: each present field rendered as text, and for tracks
      the list of points, each a list of coordinates. */
  datatype StoredEntry = StoredEntry(fields: map<string, string>, points: Option<seq<seq<string>>>)

  /** A field as JavaScript reads it: `None` for `undefined`. */
  function Get(e: StoredEntry, name: string): Option<string> {
    if name in e.fields then Some(e.fields[name]) else None
  }

  /** A field inside a template literal: `undefined` when missing. */
  function Show(e: StoredEntry, name: string): string {
    if name in e.fields then e.fields[name] else "undefined"
  }

  /** `entry.name || fallback` on a text field: empty and missing fields
      are falsy. */
  function OrElse(e: StoredEntry, name: string, fallback: Option<string>): Option<string> {
    if name in e.fields && e.fields[name] != "" then Some(e.fields[name]) else fallback
  }

  /** `store || entry.type`: the store name wins unless it is empty or
      missing. */
  function Selector(e: StoredEntry, store: string): Option<string> {
    if store != "" then Some(store) else Get(e, "type")
  }

  /** The selectors `formatEntry` knows. */
  predicate Known(sel: string) {
    sel in {"command", "commands", "sds", "gps", "contacts", "web_status", "web_qrv",
            "web_logs", "markers", "marker", "tracks", "track"}
  }

  /** `(entry.points || []).map(p => p.join(',')).join(' | ')`. */
  function TrackText(points: Option<seq<seq<string>>>): string {
    var ps := points.GetOr([]);
    Join(seq(|ps|, k requires 0 <= k < |ps| => Join(ps[k], ",")), " | ")
  }

  /** `formatEntry(entry, store)`; `None` stands for `undefined`, which
      only a command record without a command or an SDS record without
      message and hex produce. */
  function FormatEntry(e: StoredEntry, store: string): (r: Option<string>)
    ensures r.None? <==>
      || (Selector(e, store) in {Some("command"), Some("commands")} && "command" !in e.fields)
      || (Selector(e, store) == Some("sds") && OrElse(e, "message", Get(e, "hex")).None?)
    ensures Selector(e, store).None? || !Known(Selector(e, store).value) ==> r == Some("")
  {
    match Selector(e, store)
    case None => Some("")
    case Some(sel) => FormatAs(e, sel)
  }

  /** The `switch` of `formatEntry` on a selector. */
  function FormatAs(e: StoredEntry, sel: string): Option<string> {
    if sel == "command" || sel == "commands" then Get(e, "command")
    else if sel == "sds" then OrElse(e, "message", Get(e, "hex"))
    else if sel == "gps" then Some(Show(e, "lat") + ", " + Show(e, "lon"))
    else if sel == "contacts" then
      Some(Show(e, "index") + " " + Show(e, "number") + " " + OrElse(e, "name", Some("")).value)
    else if sel == "web_status" then Some(Show(e, "site") + " " + Show(e, "state") + " " + Show(e, "groups"))
    else if sel == "web_qrv" then
      Some(Show(e, "issi") + " " + Show(e, "callsign") + " " + Show(e, "site") + " " + Show(e, "groups"))
    else if sel == "web_logs" then Some(Show(e, "site") + " " + Show(e, "module") + " " + Show(e, "message"))
    else if sel == "markers" || sel == "marker" then OrElse(e, "description", Some(""))
    else if sel == "tracks" || sel == "track" then Some(TrackText(e.points))
    else Some("")
  }

  /** A non-empty store name decides the format: the record's own type is
      not looked at. */
  lemma StoreTakesPrecedence(e: StoredEntry, store: string, t: string)
    requires store != ""
    ensures FormatEntry(e.(fields := e.fields["type" := t]), store) == FormatEntry(e, store)
  {
    var e' := e.(fields := e.fields["type" := t]);
    assert Selector(e', store) == Selector(e, store) == Some(store);
    FormatIgnoresType(e, t, store);
  }

  /** The `switch` reads every field but the type. */
  lemma FormatIgnoresType(e: StoredEntry, t: string, sel: string)
    ensures FormatAs(e.(fields := e.fields["type" := t]), sel) == FormatAs(e, sel)
  {
    var e' := e.(fields := e.fields["type" := t]);
    if sel == "command" || sel == "commands" {
      FieldSame(e, t, "command", None);
    } else if sel == "sds" {
      FieldSame(e, t, "hex", None);
      FieldSame(e, t, "message", Get(e, "hex"));
    } else if sel == "gps" {
      FieldSame(e, t, "lat", None);
      FieldSame(e, t, "lon", None);
    } else if sel == "contacts" {
      FieldSame(e, t, "index", None);
      FieldSame(e, t, "number", None);
      FieldSame(e, t, "name", Some(""));
    } else if sel == "web_status" {
      FieldSame(e, t, "site", None);
      FieldSame(e, t, "state", None);
      FieldSame(e, t, "groups", None);
    } else if sel == "web_qrv" {
      FieldSame(e, t, "issi", None);
      FieldSame(e, t, "callsign", None);
      FieldSame(e, t, "site", None);
      FieldSame(e, t, "groups", None);
    } else if sel == "web_logs" {
      FieldSame(e, t, "site", None);
      FieldSame(e, t, "module", None);
      FieldSame(e, t, "message", None);
    } else if sel == "markers" || sel == "marker" {
      FieldSame(e, t, "description", Some(""));
    }
  }

  /** A field other than the type reads the same after the type changes. */
  lemma FieldSame(e: StoredEntry, t: string, name: string, fallback: Option<string>)
    requires name != "type"
    ensures var e' := e.(fields := e.fields["type" := t]);
      Get(e', name) == Get(e, name) && Show(e', name) == Show(e, name)
      && OrElse(e', name, fallback) == OrElse(e, name, fallback)
  {
  }

  /** Without a store name the record's type decides. */
  lemma TypeWithoutStore(e: StoredEntry, t: string)
    requires "type" in e.fields && e.fields["type"] == t
    ensures FormatEntry(e, "") == FormatEntry(e, t)
  {
  }

  /** An SDS record shows its message text, and its hex payload only when
      the message is empty or missing. */
  lemma SdsShowsMessage(e: StoredEntry, store: string)
    requires Selector(e, store) == Some("sds")
    ensures "message" in e.fields && e.fields["message"] != "" ==> FormatEntry(e, store) == Some(e.fields["message"])
    ensures ("message" !in e.fields || e.fields["message"] == "") ==> FormatEntry(e, store) == Get(e, "hex")
  {
  }

  /** A track's text splits on `|` into one piece per point (a track with
      no points shows the empty text), and each piece, without the spaces
      around the bar, splits on `,` into that point's coordinates, when no
      coordinate holds `,` or `|`. */
  lemma TrackReadsBack(points: seq<seq<string>>)
    requires points != []
    requires forall k | 0 <= k < |points| :: points[k] != []
    requires forall k, i | 0 <= k < |points| && 0 <= i < |points[k]| :: ',' !in points[k][i] && '|' !in points[k][i]
    ensures var pieces := Split(TrackText(Some(points)), '|');
      && |pieces| == |points|
      && forall k :: 0 <= k < |points| ==>
           pieces[k] == Padded(Join(points[k], ","), k, |points|, " ", " ")
           && Split(Join(points[k], ","), ',') == points[k]
  {
    var texts := seq(|points|, k requires 0 <= k < |points| => Join(points[k], ","));
    assert " | " == " " + ['|'] + " ";
    assert TrackText(Some(points)) == Join(texts, " " + ['|'] + " ");
    forall k | 0 <= k < |points| ensures '|' !in texts[k] && Split(texts[k], ',') == points[k] {
      JoinHasNot(points[k], ",", '|');
      SplitJoin(points[k], ',');
    }
    SplitJoinPadded(texts, '|', " ", " ");
  }

  /** `entry.store` as `formatEntry` receives it on export; a missing
      store is falsy like the empty one. */
  function StoreOf(e: StoredEntry): string {
    if "store" in e.fields then e.fields["store"] else ""
  }

  /** Every record formats to a text. */
  predicate AllFormat(entries: seq<StoredEntry>) {
    forall k | 0 <= k < |entries| :: FormatEntry(entries[k], StoreOf(entries[k])).Some?
  }

  /** One exported row: time stamp and type in quotes as they are, the
      formatted text in quotes with its quotes doubled. */
  function DbRow(e: StoredEntry, data: string): string {
    "\"" + Show(e, "timestamp") + "\",\"" + Show(e, "type") + "\",\"" + DoubleQuotes(data) + "\""
  }

  /** The formatted text of a record that formats. */
  function DbData(e: StoredEntry): string {
    var t := FormatEntry(e, StoreOf(e));
    if t.Some? then t.value else ""
  }

  /** The exported line of one record. */
  function DbLine(e: StoredEntry): string {
    DbRow(e, DbData(e))
  }

  /** The cells a reader should find on the line of one record. */
  function DbCell(e: StoredEntry): seq<string> {
    [Show(e, "timestamp"), Show(e, "type"), DbData(e)]
  }

  function DbRows(entries: seq<StoredEntry>): (rows: seq<string>)
    ensures |rows| == |entries| + 1
  {
    ["timestamp,type,data"] + DbLines(entries)
  }

  /** The line of every record, in order. */
  function DbLines(entries: seq<StoredEntry>): (lines: seq<string>)
    ensures |lines| == |entries| && forall k :: 0 <= k < |entries| ==> lines[k] == DbLine(entries[k])
  {
    seq(|entries|, k requires 0 <= k < |entries| => DbLine(entries[k]))
  }

  /** The records a reader should find in the export: the column names,
      then time stamp, type and formatted text of each record. */
  function DbCells(entries: seq<StoredEntry>): (rows: seq<seq<string>>)
    ensures |rows| == |entries| + 1
  {
    [["timestamp", "type", "data"]] + DbCellsOf(entries)
  }

  /** The cells of every record, in order. */
  function DbCellsOf(entries: seq<StoredEntry>): (cells: seq<seq<string>>)
    ensures |cells| == |entries| && forall k :: 0 <= k < |entries| ==> cells[k] == DbCell(entries[k])
  {
    seq(|entries|, k requires 0 <= k < |entries| => DbCell(entries[k]))
  }

  /** `exportDbCsv()`: the text of the downloaded file, or `None` when a
      record formats as `undefined` and the export stops there (`replace`
      on `undefined` throws). */
  function ExportDbCsv(entries: seq<StoredEntry>): (r: Option<string>)
    ensures r.Some? <==> AllFormat(entries)
  {
    if AllFormat(entries) then Some(Join(DbRows(entries), "\n")) else None
  }

  /** The header line reads as the three column names. */
  lemma DbHeaderRecord(rest: string)
    requires EndsRecord(rest)
    ensures Record("timestamp,type,data" + rest) == Some((["timestamp", "type", "data"], AfterRecord(rest)))
  {
    var fields := ["timestamp", "type", "data"];
    PlainTriple("timestamp", "type", "data");
    assert "timestamp,type,data" == PlainRow(fields);
    assert forall k | 0 <= k < |fields| :: ',' !in fields[k] && '\n' !in fields[k] && (fields[k] == [] || fields[k][0] != '"');
    PlainRowRecord(fields, rest);
  }

  /** A row is the three quoted fields when time stamp and type hold no
      quotes. */
  lemma DbRowFields(e: StoredEntry, data: string)
    requires '"' !in Show(e, "timestamp") && '"' !in Show(e, "type")
    ensures DbRow(e, data) == QuotedRow([Show(e, "timestamp"), Show(e, "type"), data])
  {
    var ts, ty := Show(e, "timestamp"), Show(e, "type");
    DoubleQuotesNone(ts);
    DoubleQuotesNone(ty);
    QuotedTriple(ts, ty, data);
  }

  /** Line `k` of the export reads as record `k`. */
  lemma DbLineRecord(entries: seq<StoredEntry>, k: nat, rest: string)
    requires forall k | 0 <= k < |entries| :: '"' !in Show(entries[k], "timestamp") && '"' !in Show(entries[k], "type")
    requires k <= |entries| && EndsRecord(rest)
    ensures Record(DbRows(entries)[k] + rest) == Some((DbCells(entries)[k], AfterRecord(rest)))
  {
    if k == 0 {
      DbHeaderRecord(rest);
    } else {
      DbLineAt(entries, k);
      var e := entries[k - 1];
      DbRowRecord(e, DbData(e), rest);
    }
  }

  /** Line and record `k` past the header belong to entry `k - 1`. */
  lemma DbLineAt(entries: seq<StoredEntry>, k: nat)
    requires 1 <= k <= |entries|
    ensures DbRows(entries)[k] == DbLine(entries[k - 1])
    ensures DbCells(entries)[k] == DbCell(entries[k - 1])
  {
    ConsIndex("timestamp,type,data", DbLines(entries));
    ConsIndex(["timestamp", "type", "data"], DbCellsOf(entries));
  }

  /** One row reads as time stamp, type and text. */
  lemma DbRowRecord(e: StoredEntry, data: string, rest: string)
    requires '"' !in Show(e, "timestamp") && '"' !in Show(e, "type")
    requires EndsRecord(rest)
    ensures Record(DbRow(e, data) + rest) == Some(([Show(e, "timestamp"), Show(e, "type"), data], AfterRecord(rest)))
  {
    DbRowFields(e, data);
    QuotedRowRecord([Show(e, "timestamp"), Show(e, "type"), data], rest);
  }

  /** The exported file reads back as the header record followed by, for
      each record in order, its time stamp, its type and exactly the text
      `formatEntry` gave it, when time stamps and types hold no quotes. */
  lemma ExportDbCsvReadsBack(entries: seq<StoredEntry>)
    requires AllFormat(entries)
    requires forall k | 0 <= k < |entries| :: '"' !in Show(entries[k], "timestamp") && '"' !in Show(entries[k], "type")
    ensures Records(ExportDbCsv(entries).value) == Some(DbCells(entries))
  {
    var lines := DbRows(entries);
    forall k, rest | 0 <= k < |lines| && EndsRecord(rest)
      ensures Record(lines[k] + rest) == Some((DbCells(entries)[k], AfterRecord(rest)))
    {
      DbLineRecord(entries, k, rest);
    }
    forall k | 0 <= k < |lines| ensures lines[k] != [] {
      if k > 0 {
        assert lines[k][0] == '"';
      }
    }
    RecordsJoined(lines, DbCells(entries));
  }
}

=== FILE: mapmodel.dfy ===
/** The bookkeeping of map.js with the Leaflet objects left opaque: the
    last position per ISSI, the icon type per ISSI, the recorded tracks,
    the current track and the static markers. Whether a map exists is a
    flag; drawing is not modelled. */
module MapModel {
  import opened Wrappers
  import opened JsText
  import opened JsNum
  import opened SdsDecoder
  import opened IntSets

  /** The keys of `iconMap`. */
  const IconNames: set<string> := {"man", "car", "walkie", "pin", "people", "telecom"}

  /** The property names every plain object inherits from
      `Object.prototype`; the `in` operator finds them on `iconMap` too. */
  const InheritedNames: set<string> := {
    "constructor", "hasOwnProperty", "isPrototypeOf", "propertyIsEnumerable",
    "toLocaleString", "toString", "valueOf", "__proto__",
    "__defineGetter__", "__defineSetter__", "__lookupGetter__", "__lookupSetter__"}

  /** The icon type stored when the requested one is not found. */
  const DefaultIcon: string := "man"

  /** A static marker: position, popup text and whether it was created
      with the HAMNET icon. */
  datatype Marker = Marker(lat: real, lon: real, popup: string, hamnet: bool)

  /** A marker record as the marker store delivers it; a missing
      description is the empty string. */
  datatype MarkerRecord = MarkerRecord(id: int, lat: real, lon: real, description: string)

  /** A track as `loadTrackLines` receives it; `points` may be missing. */
  datatype TrackInput = TrackInput(id: int, points: Option<seq<Fix>>)

  /** A track as `getTracksData` returns it. */
  datatype TrackRecord = TrackRecord(id: int, points: seq<Fix>)

  datatype MapState = MapState(
    mapReady: bool,
    gpsPositions: map<string, Fix>,
    iconTypes: map<string, string>,
    tracks: map<int, seq<Fix>>,
    currentTrack: Option<int>,
    markers: map<int, Marker>)

  /** The state before the map is created. */
  const InitialMapState: MapState := MapState(false, map[], map[], map[], None, map[])

  /** `setIssiIconType`: the requested type if `type in iconMap` holds,
      otherwise `man`. */
  function SetIssiIconType(s: MapState, issi: string, iconType: string): (r: MapState)
    ensures issi in r.iconTypes
    ensures iconType in IconNames + InheritedNames ==> r.iconTypes[issi] == iconType
    ensures iconType !in IconNames && iconType !in InheritedNames ==> r.iconTypes[issi] == DefaultIcon
    ensures r.iconTypes[issi] in IconNames + InheritedNames
    ensures forall other :: other != issi ==>
      (other in r.iconTypes <==> other in s.iconTypes)
      && (other in s.iconTypes ==> r.iconTypes[other] == s.iconTypes[other])
    ensures r.(iconTypes := s.iconTypes) == s
  {
    var stored := if iconType in IconNames || iconType in InheritedNames then iconType else DefaultIcon;
    s.(iconTypes := s.iconTypes[issi := stored])
  }

  /** `setCurrentTrack`: the decimal reading of the id, or none. */
  function SetCurrentTrack(s: MapState, id: string): (r: MapState)
    ensures r.currentTrack.Some? <==> ParseInt(id, 10).Some?
    ensures r.(currentTrack := s.currentTrack) == s
  {
    s.(currentTrack := ParseInt(id, 10))
  }

  /** Selecting a track by its printed id selects that track. */
  lemma SetCurrentTrackPrinted(s: MapState, id: int)
    ensures SetCurrentTrack(s, IntString(id)).currentTrack == Some(id)
  {
    ParseIntString(id, 10);
  }

  /** `addTrackPoint`: without a map nothing happens; otherwise the point
      is appended to the track, which is created empty if needed. */
  function AddTrackPoint(s: MapState, id: int, fix: Fix): (r: MapState)
    ensures !s.mapReady ==> r == s
    ensures s.mapReady ==>
      && r.tracks.Keys == s.tracks.Keys + {id}
      && r.tracks[id] == (if id in s.tracks then s.tracks[id] else []) + [fix]
      && (forall other :: other in s.tracks && other != id ==> r.tracks[other] == s.tracks[other])
    ensures r.(tracks := s.tracks) == s
  {
    if !s.mapReady then s
    else
      var points := if id in s.tracks then s.tracks[id] else [];
      s.(tracks := s.tracks[id := points + [fix]])
  }

  /** `addTrackPointForCurrent`: nothing without a current track. */
  function AddTrackPointForCurrent(s: MapState, fix: Fix): (r: MapState)
    ensures s.currentTrack.None? ==> r == s
    ensures s.currentTrack.Some? ==> r == AddTrackPoint(s, s.currentTrack.value, fix)
  {
    match s.currentTrack
    case None => s
    case Some(id) => AddTrackPoint(s, id, fix)
  }

  /** `clearTrack`: the track becomes empty (and exists). */
  function ClearTrack(s: MapState, id: int): (r: MapState)
    ensures id in r.tracks && r.tracks[id] == []
    ensures forall other :: other != id ==>
      (other in r.tracks <==> other in s.tracks)
      && (other in s.tracks ==> r.tracks[other] == s.tracks[other])
    ensures r.(tracks := s.tracks) == s
  {
    s.(tracks := s.tracks[id := []])
  }

  /** `addTrackPoint` for each point in turn. */
  function AddPoints(s: MapState, id: int, fixes: seq<Fix>): MapState
    decreases |fixes|
  {
    if fixes == [] then s else AddPoints(AddTrackPoint(s, id, fixes[0]), id, fixes[1..])
  }

  /** With a map, points added one at a time extend the track in order. */
  lemma {:induction false} AddPointsAppend(s: MapState, id: int, fixes: seq<Fix>)
    requires s.mapReady
    ensures AddPoints(s, id, fixes).mapReady
    ensures id in s.tracks || fixes != [] ==> id in AddPoints(s, id, fixes).tracks
    ensures Points(AddPoints(s, id, fixes), id) == Points(s, id) + fixes
    decreases |fixes|
  {
    if fixes == [] {
      assert Points(s, id) + fixes == Points(s, id);
    } else {
      var t := AddTrackPoint(s, id, fixes[0]);
      AddPointsAppend(t, id, fixes[1..]);
      assert Points(t, id) == Points(s, id) + [fixes[0]];
      assert [fixes[0]] + fixes[1..] == fixes;
      assert (Points(s, id) + [fixes[0]]) + fixes[1..] == Points(s, id) + fixes;
    }
  }

  /** Points added after clearing are the whole track, in order. */
  lemma ClearThenAdd(s: MapState, id: int, fixes: seq<Fix>)
    requires s.mapReady
    ensures var r := AddPoints(ClearTrack(s, id), id, fixes);
      id in r.tracks && r.tracks[id] == fixes
  {
    var c := ClearTrack(s, id);
    AddPointsAppend(c, id, fixes);
    assert Points(c, id) == [];
  }

  /** A stored position with the point added to the current track: what
      every decoded position does to the map state. */
  function RecordPosition(s: MapState, issi: string, fix: Fix): (r: MapState)
    ensures issi in r.gpsPositions && r.gpsPositions[issi] == fix
    ensures r.iconTypes == s.iconTypes && r.markers == s.markers && r.currentTrack == s.currentTrack
    ensures s.currentTrack.Some? && s.mapReady ==>
      s.currentTrack.value in r.tracks && r.tracks[s.currentTrack.value] == Points(s, s.currentTrack.value) + [fix]
    ensures s.currentTrack.None? || !s.mapReady ==> r.tracks == s.tracks
  {
    AddTrackPointForCurrent(s.(gpsPositions := s.gpsPositions[issi := fix]), fix)
  }

  /** The points of a track, none if it does not exist. */
  function Points(s: MapState, id: int): seq<Fix> {
    if id in s.tracks then s.tracks[id] else []
  }

  /** `loadTrackLines` over a loaded list, in order: a later entry for the
      same id replaces an earlier one. */
  function LoadTracks(tracks: map<int, seq<Fix>>, list: seq<TrackInput>): (r: map<int, seq<Fix>>)
    ensures forall t :: 0 <= t < |list| ==> list[t].id in r
    decreases |list|
  {
    if list == [] then tracks
    else
      var last := list[|list| - 1];
      LoadTracks(tracks, list[..|list| - 1])[last.id := last.points.GetOr([])]
  }

  /** `loadTrackLines`: nothing without a map or without an array. */
  function LoadTrackLines(s: MapState, list: Option<seq<TrackInput>>): (r: MapState)
    ensures !s.mapReady || list.None? ==> r == s
    ensures r.(tracks := s.tracks) == s
  {
    if !s.mapReady || list.None? then s
    else s.(tracks := LoadTracks(s.tracks, list.value))
  }

  /** Entry `t` is the last entry of the list for its id. */
  predicate LastTrackEntry(list: seq<TrackInput>, t: int) {
    0 <= t < |list| && forall u :: t < u < |list| ==> list[u].id != list[t].id
  }

  /** After loading, the tracks are the old ones plus the listed ids. */
  lemma {:induction false} LoadTracksKeys(tracks: map<int, seq<Fix>>, list: seq<TrackInput>)
    ensures LoadTracks(tracks, list).Keys == tracks.Keys + set t | 0 <= t < |list| :: list[t].id
    decreases |list|
  {
    if list != [] {
      var init := list[..|list| - 1];
      LoadTracksKeys(tracks, init);
      var ids := set t | 0 <= t < |list| :: list[t].id;
      var initIds := set t | 0 <= t < |init| :: init[t].id;
      assert ids == initIds + {list[|list| - 1].id} by {
        forall x | x in ids ensures x in initIds + {list[|list| - 1].id} {
          var t :| 0 <= t < |list| && list[t].id == x;
          if t < |init| {
            assert init[t].id == x;
          }
        }
        forall x | x in initIds ensures x in ids {
          var t :| 0 <= t < |init| && init[t].id == x;
          assert list[t].id == x;
        }
      }
    }
  }

  /** A listed id holds the points of its last entry, or none if that
      entry has no points. */
  lemma {:induction false} LoadTracksLastWins(tracks: map<int, seq<Fix>>, list: seq<TrackInput>, t: int)
    requires LastTrackEntry(list, t)
    ensures list[t].id in LoadTracks(tracks, list)
    ensures LoadTracks(tracks, list)[list[t].id] == list[t].points.GetOr([])
    decreases |list|
  {
    var n := |list| - 1;
    if t < n {
      var init := list[..n];
      assert init[t] == list[t];
      assert LastTrackEntry(init, t) by {
        forall u | t < u < |init| ensures init[u].id != init[t].id {
          assert init[u] == list[u];
        }
      }
      LoadTracksLastWins(tracks, init, t);
      assert list[n].id != list[t].id;
    }
  }

  /** An id that is not listed keeps its points. */
  lemma {:induction false} LoadTracksKeepsOthers(tracks: map<int, seq<Fix>>, list: seq<TrackInput>, id: int)
    requires id in tracks && forall t :: 0 <= t < |list| ==> list[t].id != id
    ensures id in LoadTracks(tracks, list) && LoadTracks(tracks, list)[id] == tracks[id]
    decreases |list|
  {
    if list != [] {
      var init := list[..|list| - 1];
      assert forall t :: 0 <= t < |init| ==> init[t] == list[t];
      LoadTracksKeepsOthers(tracks, init, id);
      assert list[|list| - 1].id != id;
    }
  }

  /** A marker created by `addStaticMarker`: the HAMNET icon when the
      description mentions `hamnetdb.net`. */
  function NewMarker(m: MarkerRecord): (r: Marker)
    ensures r.lat == m.lat && r.lon == m.lon && r.popup == m.description
    ensures r.hamnet <==> Contains(m.description, "hamnetdb.net")
  {
    Marker(m.lat, m.lon, m.description, Contains(m.description, "hamnetdb.net"))
  }

  /** `addStaticMarker`: nothing without a map; otherwise the marker is
      created (replacing any marker with that id). */
  function AddStaticMarker(s: MapState, m: MarkerRecord): (r: MapState)
    ensures !s.mapReady ==> r == s
    ensures s.mapReady ==> r.markers == s.markers[m.id := NewMarker(m)]
    ensures r.(markers := s.markers) == s
  {
    if !s.mapReady then s else s.(markers := s.markers[m.id := NewMarker(m)])
  }

  /** One step of the update loop of `loadMarkers`: an existing marker is
      moved and gets the new popup, keeping its icon; a new one is created. */
  function Upsert(markers: map<int, Marker>, m: MarkerRecord): (r: map<int, Marker>)
    ensures r.Keys == markers.Keys + {m.id}
    ensures r[m.id].lat == m.lat && r[m.id].lon == m.lon && r[m.id].popup == m.description
    ensures m.id in markers ==> r[m.id].hamnet == markers[m.id].hamnet
    ensures m.id !in markers ==> r[m.id] == NewMarker(m)
    ensures forall id :: id in markers && id != m.id ==> r[id] == markers[id]
  {
    if m.id in markers then markers[m.id := markers[m.id].(lat := m.lat, lon := m.lon, popup := m.description)]
    else markers[m.id := NewMarker(m)]
  }

  /** The update loop of `loadMarkers` over the list, in order. */
  function UpsertAll(markers: map<int, Marker>, list: seq<MarkerRecord>): map<int, Marker>
    decreases |list|
  {
    if list == [] then markers
    else Upsert(UpsertAll(markers, list[..|list| - 1]), list[|list| - 1])
  }

  /** The ids of a marker list. */
  function Ids(list: seq<MarkerRecord>): set<int> {
    set t | 0 <= t < |list| :: list[t].id
  }

  /** `loadMarkers`: nothing without a map; otherwise markers whose id is
      not listed are removed, then every listed marker is updated or
      created in list order. */
  function LoadMarkers(s: MapState, list: seq<MarkerRecord>): (r: MapState)
    ensures !s.mapReady ==> r == s
    ensures r.(markers := s.markers) == s
  {
    if !s.mapReady then s
    else
      var kept := map id | id in s.markers && id in Ids(list) :: s.markers[id];
      s.(markers := UpsertAll(kept, list))
  }

  /** Entry `t` is the last entry of the list for its id. */
  predicate LastMarkerEntry(list: seq<MarkerRecord>, t: int) {
    0 <= t < |list| && forall u :: t < u < |list| ==> list[u].id != list[t].id
  }

  /** The ids of a list are the ids of all but its last entry, and the last entry's. */
  lemma IdsSnoc(list: seq<MarkerRecord>)
    requires list != []
    ensures Ids(list) == Ids(list[..|list| - 1]) + {list[|list| - 1].id}
  {
    var init := list[..|list| - 1];
    forall x | x in Ids(list) ensures x in Ids(init) + {list[|list| - 1].id} {
      var t :| 0 <= t < |list| && list[t].id == x;
      if t < |init| {
        assert init[t].id == x;
      }
    }
    forall x | x in Ids(init) ensures x in Ids(list) {
      var t :| 0 <= t < |init| && init[t].id == x;
      assert list[t].id == x;
    }
  }

  /** The update loop adds exactly the listed ids, leaves unlisted
      markers alone and never changes the icon of a marker it finds. */
  lemma {:induction false} UpsertAllKeys(markers: map<int, Marker>, list: seq<MarkerRecord>)
    ensures UpsertAll(markers, list).Keys == markers.Keys + Ids(list)
    ensures forall id :: id in markers ==> UpsertAll(markers, list)[id].hamnet == markers[id].hamnet
    ensures forall id :: id in markers && id !in Ids(list) ==> UpsertAll(markers, list)[id] == markers[id]
    decreases |list|
  {
    if list != [] {
      UpsertAllKeys(markers, list[..|list| - 1]);
      IdsSnoc(list);
    }
  }

  /** A listed id ends with the position and popup of its last entry. */
  lemma {:induction false} UpsertAllLastWins(markers: map<int, Marker>, list: seq<MarkerRecord>, t: int)
    requires LastMarkerEntry(list, t)
    ensures list[t].id in UpsertAll(markers, list)
    ensures var m := UpsertAll(markers, list)[list[t].id];
      m.lat == list[t].lat && m.lon == list[t].lon && m.popup == list[t].description
    decreases |list|
  {
    var n := |list| - 1;
    if t < n {
      var init := list[..n];
      assert init[t] == list[t];
      assert LastMarkerEntry(init, t) by {
        forall u | t < u < |init| ensures init[u].id != init[t].id {
          assert init[u] == list[u];
        }
      }
      UpsertAllLastWins(markers, init, t);
      assert list[n].id != list[t].id;
    }
  }

  /** After `loadMarkers` with a map, the marker ids are exactly the
      listed ids, each with the position and popup of its last entry; a
      marker that existed keeps its icon. */
  lemma LoadMarkersReconciles(s: MapState, list: seq<MarkerRecord>, t: int)
    requires s.mapReady && LastMarkerEntry(list, t)
    ensures LoadMarkers(s, list).markers.Keys == Ids(list)
    ensures var m := LoadMarkers(s, list).markers[list[t].id];
      m.lat == list[t].lat && m.lon == list[t].lon && m.popup == list[t].description
    ensures forall id :: id in s.markers && id in Ids(list) ==>
      LoadMarkers(s, list).markers[id].hamnet == s.markers[id].hamnet
  {
    var kept := map id | id in s.markers && id in Ids(list) :: s.markers[id];
    UpsertAllKeys(kept, list);
    UpsertAllLastWins(kept, list, t);
  }

  /** `getTracksData`: one record per stored track with its points, in
      ascending id order. JavaScript enumerates an object's keys in this
      order only when every key is an array index (0 through 2^32 - 2),
      as the track ids the program uses are: 1 through 10, or the
      store's auto-increment keys. Other keys would follow the array
      indexes in insertion order, which this model does not track. */
  method GetTracksData(s: MapState) returns (r: seq<TrackRecord>)
    ensures |r| == |s.tracks.Keys|
    ensures TrackIds(r) == s.tracks.Keys
    ensures Listed(r, s.tracks)
    ensures Ascending(r)
  {
    var remaining := s.tracks.Keys;
    r := [];
    while remaining != {}
      invariant remaining <= s.tracks.Keys
      invariant |r| + |remaining| == |s.tracks.Keys|
      invariant TrackIds(r) == s.tracks.Keys - remaining
      invariant Listed(r, s.tracks)
      invariant Ascending(r) && Below(r, remaining)
      decreases |remaining|
    {
      MinExists(remaining);
      var m :| IsMin(remaining, m);
      var next := TrackRecord(m, s.tracks[m]);
      TrackIdsSnoc(r, next);
      AppendMin(r, remaining, next);
      ListedSnoc(r, s.tracks, next);
      r := r + [next];
      remaining := remaining - {m};
    }
  }

  /** Every record carries the points stored under its id. */
  predicate Listed(r: seq<TrackRecord>, tracks: map<int, seq<Fix>>) {
    forall k :: 0 <= k < |r| ==> r[k].id in tracks && r[k].points == tracks[r[k].id]
  }

  lemma ListedSnoc(r: seq<TrackRecord>, tracks: map<int, seq<Fix>>, t: TrackRecord)
    requires Listed(r, tracks) && t.id in tracks && t.points == tracks[t.id]
    ensures Listed(r + [t], tracks)
  {
    var r' := r + [t];
    forall k | 0 <= k < |r'| ensures r'[k].id in tracks && r'[k].points == tracks[r'[k].id] {
      if k < |r| {
        assert r'[k] == r[k];
      }
    }
  }

  /** Strictly ascending ids. */
  predicate Ascending(r: seq<TrackRecord>) {
    forall i, j :: 0 <= i < j < |r| ==> r[i].id < r[j].id
  }

  /** Every id listed so far is below every id still to come. */
  predicate Below(r: seq<TrackRecord>, remaining: set<int>) {
    forall k, id :: 0 <= k < |r| && id in remaining ==> r[k].id < id
  }

  /** Appending the least remaining id keeps the list ascending and below the rest. */
  lemma AppendMin(r: seq<TrackRecord>, remaining: set<int>, next: TrackRecord)
    requires Ascending(r) && Below(r, remaining) && IsMin(remaining, next.id)
    ensures Ascending(r + [next]) && Below(r + [next], remaining - {next.id})
  {
    var r' := r + [next];
    forall i, j | 0 <= i < j < |r'| ensures r'[i].id < r'[j].id {
      assert r'[i] == r[i];
      if j < |r| {
        assert r'[j] == r[j];
      }
    }
    forall k, id | 0 <= k < |r'| && id in remaining - {next.id} ensures r'[k].id < id {
      if k < |r| {
        assert r'[k] == r[k];
      }
    }
  }

  /** The ids of some track records. */
  function TrackIds(r: seq<TrackRecord>): set<int> {
    set k | 0 <= k < |r| :: r[k].id
  }

  lemma TrackIdsSnoc(r: seq<TrackRecord>, t: TrackRecord)
    ensures TrackIds(r + [t]) == TrackIds(r) + {t.id}
  {
    var r' := r + [t];
    forall x | x in TrackIds(r') ensures x in TrackIds(r) + {t.id} {
      var k :| 0 <= k < |r'| && r'[k].id == x;
      if k < |r| {
        assert r[k].id == x;
      }
    }
    forall x | x in TrackIds(r) ensures x in TrackIds(r') {
      var k :| 0 <= k < |r| && r[k].id == x;
      assert r'[k].id == x;
    }
    assert r'[|r|].id == t.id;
  }
}

=== FILE: pei.dfy ===
/** The second serial link, to the radio's PEI port: the framer of the
    read loop, which cuts the received text at every `\r\n`, the
    terminator rule for outgoing commands, and the run of a mode's
    start-up commands. The port, the clock of the response-time line and
    the pause between start-up commands are left out. */
module Pei {
  import opened Wrappers
  import opened JsText
  import opened Link

  /** A `\r\n` starts at index `k`. */
  predicate CrLfAt(s: string, k: int) {
    0 <= k && k + 1 < |s| && s[k] == '\r' && s[k + 1] == '\n'
  }

  predicate NoCrLf(s: string) {
    forall k | 0 <= k < |s| :: !CrLfAt(s, k)
  }

  /** `s.indexOf('\r\n')`, `None` standing for -1. */
  function IndexOfCrLf(s: string): (r: Option<nat>)
    ensures r.Some? ==> CrLfAt(s, r.value)
    decreases |s|
  {
    if |s| < 2 then None
    else if s[0] == '\r' && s[1] == '\n' then Some(0)
    else
      var rest := IndexOfCrLf(s[1..]);
      if rest.None? then None
      else
        assert CrLfAt(s[1..], rest.value);
        Some(rest.value + 1)
  }

  /** `indexOf` finds the first `\r\n`, and finds none exactly when there
      is none. */
  lemma {:induction false} IndexOfCrLfFirst(s: string)
    ensures IndexOfCrLf(s).None? <==> NoCrLf(s)
    ensures IndexOfCrLf(s).Some? ==> forall k :: 0 <= k < IndexOfCrLf(s).value ==> !CrLfAt(s, k)
    decreases |s|
  {
    if |s| >= 2 && !(s[0] == '\r' && s[1] == '\n') {
      IndexOfCrLfFirst(s[1..]);
      assert !CrLfAt(s, 0);
      forall k | 1 <= k < |s| ensures CrLfAt(s, k) <==> CrLfAt(s[1..], k - 1) {
        assert s[1..][k - 1] == s[k];
        if k + 1 < |s| {
          assert s[1..][k] == s[k + 1];
        }
      }
    }
  }

  /** A `\r\n` found in a text is found at the same place once the text
      grows. */
  lemma {:induction false} IndexOfCrLfPrefix(x: string, y: string)
    requires IndexOfCrLf(x).Some?
    ensures IndexOfCrLf(x + y) == IndexOfCrLf(x)
    decreases |x|
  {
    assert (x + y)[0] == x[0] && (x + y)[1] == x[1];
    if !(x[0] == '\r' && x[1] == '\n') {
      assert (x + y)[1..] == x[1..] + y;
      IndexOfCrLfPrefix(x[1..], y);
    }
  }

  /** The inner loop of `listenPei`: the text up to the first `\r\n` is a
      line, the text after it is looked at again, and what holds no
      `\r\n` stays in the buffer. */
  function Extract(text: string): (seq<string>, string)
    decreases |text|
  {
    match IndexOfCrLf(text)
    case None => ([], text)
    case Some(i) =>
      var rest := Extract(text[i + 2..]);
      ([text[..i]] + rest.0, rest.1)
  }

  lemma ExtractStep(text: string, i: nat)
    requires IndexOfCrLf(text) == Some(i)
    ensures var rest := Extract(text[i + 2..]);
      Extract(text) == ([text[..i]] + rest.0, rest.1)
  {
  }

  /** Lines, each followed by `\r\n`. */
  function Terminated(lines: seq<string>): string
    decreases |lines|
  {
    if lines == [] then [] else lines[0] + "\r\n" + Terminated(lines[1..])
  }

  /** The lines taken out, each put back with its `\r\n`, followed by what
      stays in the buffer, give back the text. */
  lemma {:induction false} ExtractRebuilds(text: string)
    ensures Terminated(Extract(text).0) + Extract(text).1 == text
    decreases |text|
  {
    var idx := IndexOfCrLf(text);
    if idx.None? {
      assert Extract(text) == ([], text);
      assert Terminated([]) + text == text;
    } else {
      var i := idx.value;
      var head, tail := text[..i], text[i + 2..];
      var et := Extract(tail);
      assert Extract(text) == ([head] + et.0, et.1) by {
        ExtractStep(text, i);
      }
      assert Terminated(et.0) + et.1 == tail by {
        ExtractRebuilds(tail);
      }
      var rest := Terminated(et.0);
      assert Terminated([head] + et.0) == head + "\r\n" + rest by {
        assert ([head] + et.0)[0] == head && ([head] + et.0)[1..] == et.0;
      }
      assert text == head + "\r\n" + tail by {
        CutAtCrLf(text, i);
      }
      Regroup(head, "\r\n", rest, et.1, tail, text);
    }
  }

  lemma Regroup(head: string, sep: string, rest: string, kept: string, tail: string, text: string)
    requires rest + kept == tail && text == head + sep + tail
    ensures head + sep + rest + kept == text
  {
  }

  lemma CutAtCrLf(text: string, i: nat)
    requires CrLfAt(text, i)
    ensures text == text[..i] + "\r\n" + text[i + 2..]
  {
    assert text[i..i + 2] == "\r\n";
    assert text == text[..i] + text[i..i + 2] + text[i + 2..];
  }

  /** Neither a line taken out nor what stays in the buffer holds a
      `\r\n`: together with `ExtractRebuilds`, the lines are the text cut
      at every `\r\n` and nowhere else. */
  lemma {:induction false} ExtractClean(text: string)
    ensures NoCrLf(Extract(text).1)
    ensures forall k :: 0 <= k < |Extract(text).0| ==> NoCrLf(Extract(text).0[k])
    decreases |text|
  {
    IndexOfCrLfFirst(text);
    var idx := IndexOfCrLf(text);
    if idx.None? {
      assert Extract(text) == ([], text);
    } else {
      var i := idx.value;
      var head, tail := text[..i], text[i + 2..];
      var et := Extract(tail);
      assert Extract(text) == ([head] + et.0, et.1) by {
        ExtractStep(text, i);
      }
      assert NoCrLf(et.1) && forall k :: 0 <= k < |et.0| ==> NoCrLf(et.0[k]) by {
        ExtractClean(tail);
      }
      assert NoCrLf(head) by {
        forall k | 0 <= k < |head| ensures !CrLfAt(head, k) {
          if k + 1 < |head| {
            assert !CrLfAt(text, k);
          }
        }
      }
    }
  }

  /** A line feed without a carriage return before it ends no line. */
  lemma BareLineFeed(text: string)
    requires '\r' !in text
    ensures Extract(text) == ([], text)
  {
    IndexOfCrLfFirst(text);
    forall k ensures !CrLfAt(text, k) {
      if 0 <= k < |text| {
        assert text[k] != '\r';
      }
    }
  }

  lemma ExtractGrow(x: string, y: string, i: nat)
    requires IndexOfCrLf(x) == Some(i)
    ensures var rest := Extract(x[i + 2..] + y);
      Extract(x + y) == ([x[..i]] + rest.0, rest.1)
  {
    IndexOfCrLfPrefix(x, y);
    assert (x + y)[..i] == x[..i];
    assert (x + y)[i + 2..] == x[i + 2..] + y;
    ExtractStep(x + y, i);
  }

  /** The framer resumes where it stopped: the lines of a grown text are
      the lines found so far, then the lines of the kept rest followed by
      the new text, even when a `\r\n` is cut in two. */
  lemma {:induction false} ExtractResume(x: string, y: string)
    ensures var ex := Extract(x);
      var er := Extract(ex.1 + y);
      Extract(x + y) == (ex.0 + er.0, er.1)
    decreases |x|
  {
    var idx := IndexOfCrLf(x);
    if idx.None? {
      assert Extract(x) == ([], x);
      assert [] + Extract(x + y).0 == Extract(x + y).0;
    } else {
      var i := idx.value;
      var line, tail := [x[..i]], x[i + 2..];
      var et := Extract(tail);
      var er := Extract(et.1 + y);
      assert Extract(x) == (line + et.0, et.1) by {
        ExtractStep(x, i);
      }
      assert Extract(x + y) == (line + Extract(tail + y).0, Extract(tail + y).1) by {
        ExtractGrow(x, y, i);
      }
      assert Extract(tail + y) == (et.0 + er.0, er.1) by {
        ExtractResume(tail, y);
      }
      Associate(line, et.0, er.0);
    }
  }

  const PeiTag: string := " [PEI] "

  /** The console lines for received lines: a line is shown trimmed, with
      the incoming arrow, unless nothing is left of it. */
  function Echoes(lines: seq<string>): (r: seq<Effect>)
    ensures Silent(r)
    decreases |lines|
  {
    if lines == [] then []
    else
      var t := Trim(lines[0]);
      (if t != [] then [Print(Incoming + PeiTag + t)] else []) + Echoes(lines[1..])
  }

  lemma {:induction false} EchoesAppend(a: seq<string>, b: seq<string>)
    ensures Echoes(a + b) == Echoes(a) + Echoes(b)
    decreases |a|
  {
    if a == [] {
      assert a + b == b;
    } else {
      assert (a + b)[0] == a[0] && (a + b)[1..] == a[1..] + b;
      EchoesAppend(a[1..], b);
      var t := Trim(a[0]);
      var head := if t != [] then [Print(Incoming + PeiTag + t)] else [];
      assert head + (Echoes(a[1..]) + Echoes(b)) == (head + Echoes(a[1..])) + Echoes(b);
    }
  }

  /** Every line, trimmed. */
  function TrimAll(lines: seq<string>): (r: seq<string>)
    ensures |r| == |lines|
    decreases |lines|
  {
    if lines == [] then [] else [Trim(lines[0])] + TrimAll(lines[1..])
  }

  /** Texts shown as received PEI lines. */
  function Labelled(texts: seq<string>): (r: seq<Effect>)
    ensures |r| == |texts|
    ensures forall k :: 0 <= k < |texts| ==> r[k] == Print(Incoming + PeiTag + texts[k])
  {
    seq(|texts|, k requires 0 <= k < |texts| => Print(Incoming + PeiTag + texts[k]))
  }

  /** Exactly the lines that are not blank are shown, in order, each
      trimmed. */
  lemma {:induction false} EchoesShowNonBlank(lines: seq<string>)
    ensures Echoes(lines) == Labelled(NonEmpty(TrimAll(lines)))
    decreases |lines|
  {
    if lines != [] {
      var t := Trim(lines[0]);
      var head := if t == [] then [] else [t];
      var shown := NonEmpty(TrimAll(lines[1..]));
      assert Echoes(lines[1..]) == Labelled(shown) by {
        EchoesShowNonBlank(lines[1..]);
      }
      assert NonEmpty(TrimAll(lines)) == head + shown by {
        assert TrimAll(lines) == [t] + TrimAll(lines[1..]);
        assert ([t] + TrimAll(lines[1..]))[0] == t;
        assert ([t] + TrimAll(lines[1..]))[1..] == TrimAll(lines[1..]);
      }
      assert Labelled(head) == if t != [] then [Print(Incoming + PeiTag + t)] else [];
      LabelledAppend(head, shown);
    }
  }

  lemma LabelledAppend(a: seq<string>, b: seq<string>)
    ensures Labelled(a + b) == Labelled(a) + Labelled(b)
  {
  }

  /** One chunk from the reader: the new buffer and the console lines. */
  function Receive(buffer: string, chunk: string): (string, seq<Effect>) {
    var ex := Extract(buffer + chunk);
    (ex.1, Echoes(ex.0))
  }

  /** Receiving two chunks one after the other shows the same lines as
      receiving them at once, and leaves the same buffer. */
  lemma ReceiveChunks(buffer: string, a: string, b: string)
    ensures var first := Receive(buffer, a);
      var second := Receive(first.0, b);
      Receive(buffer, a + b) == (second.0, first.1 + second.1)
  {
    var x := buffer + a;
    assert buffer + (a + b) == x + b;
    ExtractResume(x, b);
    EchoesAppend(Extract(x).0, Extract(Extract(x).1 + b).0);
  }

  /** The console lines of labelled texts are the texts behind the
      incoming arrow and the PEI tag. */
  lemma {:induction false} PrintsLabelled(texts: seq<string>)
    ensures var p := Prints(Labelled(texts));
      |p| == |texts| && forall k :: 0 <= k < |texts| ==> p[k] == Incoming + PeiTag + texts[k]
    decreases |texts|
  {
    if texts != [] {
      var head := [Print(Incoming + PeiTag + texts[0])];
      assert Labelled(texts) == head + Labelled(texts[1..]);
      PrintsAppend(head, Labelled(texts[1..]));
      PrintsLabelled(texts[1..]);
    }
  }

  /** A chunk from the reader prints, in order, one console line per
      complete line that is not blank, trimmed, and writes nothing. */
  lemma ReceivePrints(buffer: string, chunk: string)
    ensures var shown := NonEmpty(TrimAll(Extract(buffer + chunk).0));
      var p := Prints(Receive(buffer, chunk).1);
      && |p| == |shown|
      && (forall k :: 0 <= k < |shown| ==> p[k] == Incoming + PeiTag + shown[k])
      && Writes(Receive(buffer, chunk).1) == []
  {
    var lines := Extract(buffer + chunk).0;
    EchoesShowNonBlank(lines);
    PrintsLabelled(NonEmpty(TrimAll(lines)));
    SilentWritesNothing(Echoes(lines));
  }

  /** The character that ends the text of an SDS. */
  const CtrlZ: char := 26 as char

  /** What `sendPeiCommand` writes: a carriage return unless the command
      ends with Ctrl-Z, then always a line feed. */
  function PeiData(cmd: string): (data: string)
    ensures |data| >= 1 && data[|data| - 1] == '\n'
  {
    var send := if cmd != [] && cmd[|cmd| - 1] == CtrlZ then cmd else cmd + "\r";
    send + "\n"
  }

  /** `sendPeiCommand(cmd)`: a warning and nothing written when the port is
      not open; otherwise the command is written and echoed. With a port,
      the frame is written once and before the echo, and nothing goes to
      the log store. */
  function SendPeiCommand(connected: bool, cmd: string): (r: seq<Effect>)
    ensures !connected ==> Silent(r) && Prints(r) == [Warning + " PEI nicht verbunden"] && |r| == 1
    ensures connected ==>
      && Writes(r) == [PeiData(cmd)]
      && Prints(r) == [Outgoing + PeiTag + cmd]
      && r[0].Write? && |r| == 2
    ensures forall k :: 0 <= k < |r| ==> !r[k].LogCommand?
  {
    if !connected then [Print(Warning + " PEI nicht verbunden")]
    else
      var r := [Write(PeiData(cmd)), Print(Outgoing + PeiTag + cmd)];
      assert r[1..][1..] == [];
      r
  }

  /** A command that does not end with Ctrl-Z goes out as one line the
      framer reads back whole; one that does goes out without a `\r\n`
      and so is not a line at all. */
  lemma PeiDataFramed(cmd: string)
    requires NoCrLf(cmd)
    ensures (cmd == [] || cmd[|cmd| - 1] != CtrlZ) ==> Extract(PeiData(cmd)) == ([cmd], [])
    ensures (cmd != [] && cmd[|cmd| - 1] == CtrlZ) ==> Extract(PeiData(cmd)) == ([], PeiData(cmd))
  {
    var data := PeiData(cmd);
    IndexOfCrLfFirst(data);
    if cmd == [] || cmd[|cmd| - 1] != CtrlZ {
      assert data == cmd + "\r\n";
      assert CrLfAt(data, |cmd|);
      forall k | 0 <= k < |cmd| ensures !CrLfAt(data, k) {
        if k + 1 < |cmd| {
          assert !CrLfAt(cmd, k);
        } else {
          assert data[k + 1] == '\r';
        }
      }
      var i := IndexOfCrLf(data).value;
      assert i == |cmd|;
      ExtractStep(data, i);
      assert data[..i] == cmd;
      assert data[i + 2..] == [];
      assert Extract([]) == ([], []);
      assert [cmd] + [] == [cmd];
    } else {
      assert data == cmd + "\n";
      forall k ensures !CrLfAt(data, k) {
        if 0 <= k && k + 1 < |cmd| {
          assert !CrLfAt(cmd, k);
        } else if k + 1 == |cmd| {
          assert data[k] == CtrlZ;
        }
      }
    }
  }

  lemma PeiSendWrites(connected: bool, cmd: string)
    ensures Writes(SendPeiCommand(connected, cmd)) == if connected then [PeiData(cmd)] else []
  {
    var r := SendPeiCommand(connected, cmd);
    if connected {
      assert r[1..][1..] == [];
    } else {
      assert r[1..] == [];
    }
  }

  /** One entry of the start-up table: a mode and its commands. */
  datatype InitEntry = InitEntry(mode: string, commands: seq<string>)

  const DefaultMode: string := "DMO-MS"

  /** `peiInit.find(e => e.mode === mode)`, as an index. */
  function FindMode(table: seq<InitEntry>, mode: string): (r: Option<nat>)
    ensures r.Some? ==> r.value < |table| && table[r.value].mode == mode
    decreases |table|
  {
    if table == [] then None
    else if table[0].mode == mode then Some(0)
    else
      var rest := FindMode(table[1..], mode);
      if rest.None? then None else Some(rest.value + 1)
  }

  /** `find` returns the first entry of the mode, and none exactly when no
      entry has it. */
  lemma {:induction false} FindModeFirst(table: seq<InitEntry>, mode: string)
    ensures FindMode(table, mode).None? <==> forall k :: 0 <= k < |table| ==> table[k].mode != mode
    ensures FindMode(table, mode).Some? ==> forall k :: 0 <= k < FindMode(table, mode).value ==> table[k].mode != mode
    decreases |table|
  {
    if table != [] && table[0].mode != mode {
      FindModeFirst(table[1..], mode);
      assert forall k :: 1 <= k < |table| ==> table[k] == table[1..][k - 1];
    }
  }

  /** `runPeiInit(mode)` over the loaded table (empty when the file could
      not be loaded): a warning when no entry has the mode, else the
      entry's commands in order and a closing line. */
  function RunPeiInit(connected: bool, table: seq<InitEntry>, mode: string): (r: seq<Effect>)
    ensures |r| >= 1 && r[|r| - 1].Print?
  {
    match FindMode(table, mode)
    case None => [Print(Warning + " PEI Init-Modus nicht gefunden")]
    case Some(i) =>
      SendEach(c => SendPeiCommand(connected, c), table[i].commands) + [Print(Done + " PEI Init abgeschlossen")]
  }

  /** A mode missing from the table sends nothing; a mode present writes
      the commands of its first entry, in order, when the port is open. */
  lemma RunPeiInitWrites(connected: bool, table: seq<InitEntry>, mode: string)
    ensures (forall k :: 0 <= k < |table| ==> table[k].mode != mode) ==>
      RunPeiInit(connected, table, mode) == [Print(Warning + " PEI Init-Modus nicht gefunden")]
    ensures forall i :: 0 <= i < |table| && table[i].mode == mode && (forall k :: 0 <= k < i ==> table[k].mode != mode) ==>
      var w := Writes(RunPeiInit(connected, table, mode));
      var cmds := table[i].commands;
      && (connected ==> |w| == |cmds| && forall k :: 0 <= k < |cmds| ==> w[k] == PeiData(cmds[k]))
      && (!connected ==> w == [])
  {
    FindModeFirst(table, mode);
    var found := FindMode(table, mode);
    if found.Some? {
      var i := found.value;
      var send := c => SendPeiCommand(connected, c);
      var sent := SendEach(send, table[i].commands);
      forall c ensures Writes(send(c)) == if connected then [PeiData(c)] else [] {
        PeiSendWrites(connected, c);
      }
      if connected {
        SendEachWrites(send, PeiData, table[i].commands);
      } else {
        SendEachSilent(send, table[i].commands);
      }
      WritesAppend(sent, [Print(Done + " PEI Init abgeschlossen")]);
      forall j | 0 <= j < |table| && table[j].mode == mode && (forall k :: 0 <= k < j ==> table[k].mode != mode)
        ensures j == i
      {
      }
    }
  }
}

=== FILE: radio.dfy ===
/** The receive path of the radio link (parsing.js): incoming data is cut
    into lines, and each line goes through the talkgroup tracker, the SDS
    reassembly (a `+CTSDSR` header, continuation lines, then the hex
    payload), the `+GCLI` cell listing and the single-line reports. A
    decoded SDS is classified, its positions are stored, a LIP reply that
    lacks a longitude schedules a bounded number of re-requests, and every
    SDS but an acknowledgement is answered with an acknowledgement when
    those are enabled. */
module Radio {
  import opened Wrappers
  import opened JsText
  import opened JsNum
  import opened SdsDecoder
  import opened Events
  import opened SdsOut
  import opened MapModel
  import opened AtLines

  /** The line parser's module state; the empty header stands for `null`
      (a real header is never empty, it starts with `+CTSDSR`). */
  datatype ParserState = ParserState(pendingCtsdsr: string, pendingGcliLines: int, callRefs: CallRefs)

  /** Everything the receive path reads or changes. */
  datatype Session = Session(parser: ParserState, sds: SdsState, view: MapState)

  const InitialParserState: ParserState := ParserState([], 0, map[])

  /** The sender shown when the header names none. */
  const UnknownIssi: string := "Unbekannt"

  const SdsHeaderTag: string := "+CTSDSR"
  const CmeBusy: string := "+CME ERROR: 35"
  const GcliHeader: string := "+GCLI:"

  // ---------------------------------------------------------------------
  // parseSds

  /** The sending ISSI: the second comma field of the header, trimmed,
      or `Unbekannt` when that is missing or blank. */
  function HeaderFrom(header: string): (from: string)
    ensures from != []
    ensures from == UnknownIssi || (|Split(header, ',')| >= 2 && from == Trim(Split(header, ',')[1]))
  {
    var parts := Split(header, ',');
    if |parts| >= 2 && Trim(parts[1]) != [] then Trim(parts[1]) else UnknownIssi
  }

  /** The destination: the fourth comma field, trimmed, if present and not blank. */
  function HeaderDest(header: string): (dest: Option<string>)
    ensures dest.Some? ==> |Split(header, ',')| >= 4 && dest.value != [] && dest.value == Trim(Split(header, ',')[3])
  {
    var parts := Split(header, ',');
    if |parts| >= 4 && Trim(parts[3]) != [] then Some(Trim(parts[3])) else None
  }

  /** A header `<tag>,<from>,<x>,<dest>,...` names its sender and its
      destination. */
  lemma HeaderNames(header: string, tag: string, from: string, x: string, dest: string, rest: string,
                    t1: string, t2: string, t3: string)
    requires ',' !in tag && ',' !in from && ',' !in x && ',' !in dest
    requires from != [] && dest != [] && !IsSpace(from[0]) && !IsSpace(from[|from| - 1])
    requires !IsSpace(dest[0]) && !IsSpace(dest[|dest| - 1])
    requires header == tag + [','] + t1 && t1 == from + [','] + t2 && t2 == x + [','] + t3
    requires t3 == dest + [','] + rest
    ensures HeaderFrom(header) == from && HeaderDest(header) == Some(dest)
  {
    HeaderPieces(header, tag, from, x, dest, rest, t1, t2, t3);
    TrimmedAlready(from);
    TrimmedAlready(dest);
  }

  /** The comma pieces of such a header: the sender second, the
      destination fourth. */
  lemma HeaderPieces(header: string, tag: string, from: string, x: string, dest: string, rest: string,
                     t1: string, t2: string, t3: string)
    requires ',' !in tag && ',' !in from && ',' !in x && ',' !in dest
    requires header == tag + [','] + t1 && t1 == from + [','] + t2 && t2 == x + [','] + t3
    requires t3 == dest + [','] + rest
    ensures var parts := Split(header, ','); |parts| >= 4 && parts[1] == from && parts[3] == dest
  {
    SplitAtSeparator(dest, rest, ',');
    SplitAtSeparator(x, t3, ',');
    SplitAtSeparator(from, t2, ',');
    SplitAtSeparator(tag, t1, ',');
  }

  /** A text with no space at either end trims to itself. */
  lemma TrimmedAlready(t: string)
    requires t != [] && !IsSpace(t[0]) && !IsSpace(t[|t| - 1])
    ensures Trim(t) == t
  {
    assert TrimStart(t) == t;
  }

  /** A decoded report, if any: the position is stored under the ISSI and
      added to the current track, and the report is shown. */
  function Reported(s: Session, issi: string, report: Option<Report>): (r: (Session, seq<Event>))
    ensures r.0.parser == s.parser && r.0.sds == s.sds && Quiet(r.1)
    ensures report.None? ==> r == (s, [])
    ensures report.Some? ==> (r.0.view == RecordPosition(s.view, issi, report.value.fix)
      && r.1 == [PositionReported(issi, report.value)])
  {
    match report
    case None => (s, [])
    case Some(rep) => (s.(view := RecordPosition(s.view, issi, rep.fix)), [PositionReported(issi, rep)])
  }

  /** `gpsRequestRetries[issi] || 0`. */
  function RetryCount(s: SdsState, issi: string): int {
    if issi in s.gpsRequestRetries then s.gpsRequestRetries[issi] else 0
  }

  /** A LIP payload whose main decode found both coordinates. */
  predicate FullFix(payload: Payload) {
    payload.Lip? && payload.main.lat.Some? && payload.main.lon.Some?
  }

  /** A LIP payload whose main decode found a latitude only. */
  predicate LatOnlyFix(payload: Payload) {
    payload.Lip? && payload.main.lat.Some? && payload.main.lon.None?
  }

  /** The re-request a payload schedules: attempt `c + 1` after a
      latitude-only reply while the sender's counter `c` is below 2. */
  function Rescheduled(s: SdsState, from: string, payload: Payload): seq<Event> {
    if LatOnlyFix(payload) && RetryCount(s, from) < 2 then [RetryScheduled(RetryCount(s, from) + 1, from)] else []
  }

  /** The end of the main LIP decode: both coordinates give a fix that is
      stored and resets the sender's retry counter; a latitude alone
      schedules re-request `c + 1` while the counter `c` is below 2 and
      gives up otherwise; no latitude is reported as invalid data. */
  function MainOutcome(s: Session, from: string, hex: string, main: MainFields): (r: (Session, seq<Event>))
    ensures r.0.parser == s.parser
    ensures r.0.sds.ackEnabled == s.sds.ackEnabled && r.0.sds.lastGpsIssi == s.sds.lastGpsIssi
    ensures main.lat.Some? && main.lon.Some? ==>
      && r.0.sds.gpsRequestRetries == s.sds.gpsRequestRetries[from := 0]
      && r.0.view == RecordPosition(s.view, from, Fix(main.lat.value, main.lon.value))
      && Quiet(r.1)
    ensures main.lat.Some? && main.lon.None? ==> (r.0 == s
      && r.1 == [LatOnly(from, main.lat.value)] +
        (if RetryCount(s.sds, from) < 2 then [RetryScheduled(RetryCount(s.sds, from) + 1, from)]
         else [RetriesExhausted]))
    ensures main.lat.None? ==> r == (s, [InvalidGps(hex)])
  {
    if main.lat.Some? && main.lon.Some? then
      var fix := Fix(main.lat.value, main.lon.value);
      var report := Report(MainFix, fix, main.speed, main.heading, main.accuracy, None);
      var sds := s.sds.(gpsRequestRetries := s.sds.gpsRequestRetries[from := 0]);
      (s.(view := RecordPosition(s.view, from, fix), sds := sds), [PositionReported(from, report)])
    else if main.lat.Some? then
      var c := RetryCount(s.sds, from);
      (s, [LatOnly(from, main.lat.value)] + (if c < 2 then [RetryScheduled(c + 1, from)] else [RetriesExhausted]))
    else
      (s, [InvalidGps(hex)])
  }

  /** The reports of a LIP payload before its main decode: the LIP
      helper (or its complaint about a short payload), Long-LIP and LRRP,
      then the note about a missing longitude field. */
  function LipReports(s: Session, from: string, lip: Option<Report>, longLip: Option<Report>,
                      lrrp: Option<Report>, lonMissing: bool): (r: (Session, seq<Event>))
    ensures r.0.parser == s.parser && r.0.sds == s.sds && Quiet(r.1)
  {
    var (s1, e1) := if lip.Some? then Reported(s, from, lip) else (s, [LipTooShort]);
    var (s2, e2) := Reported(s1, from, longLip);
    var (s3, e3) := Reported(s2, from, lrrp);
    var note := if lonMissing then [LonMissing] else [];
    QuietAppend(e1, e2);
    QuietAppend(e1 + e2, e3);
    QuietAppend(e1 + e2 + e3, note);
    (s3, e1 + e2 + e3 + note)
  }

  /** What a classified payload does before the acknowledgement: only a
      position changes the map, and only a complete main fix changes the
      retry counters. */
  function Outcome(s: Session, from: string, hex: string, payload: Payload): (r: (Session, seq<Event>))
    ensures r.0.parser == s.parser
    ensures r.0.sds.ackEnabled == s.sds.ackEnabled && r.0.sds.lastGpsIssi == s.sds.lastGpsIssi
    ensures FullFix(payload) ==> (r.0.sds.gpsRequestRetries == s.sds.gpsRequestRetries[from := 0]
      && from in r.0.view.gpsPositions
      && r.0.view.gpsPositions[from] == Fix(payload.main.lat.value, payload.main.lon.value))
    ensures !FullFix(payload) ==> r.0.sds == s.sds
    ensures payload.Compact? ==> r.0.view == RecordPosition(s.view, from, payload.report.fix)
    ensures payload.Ack? || payload.Text? || payload.Short? ==> r.0 == s
  {
    match payload
    case Ack => (s, [AckReceived(from)])
    case Text(text) => (s, [TextReceived(from, text)])
    case Compact(report) => Reported(s, from, Some(report))
    case Short(headerText) =>
      (s, [TooShortForGps(hex)] + (if headerText.Some? then [TextReceived(from, headerText.value)] else []))
    case Lip(lip, longLip, lrrp, main) =>
      var first := LipReports(s, from, lip, longLip, lrrp, main.lon.None?);
      var last := MainOutcome(first.0, from, hex, main);
      (last.0, first.1 + last.1)
  }

  /** The acknowledgement a payload gets: none for an acknowledgement. */
  function AckFor(s: SdsState, from: string, payload: Payload): seq<Event> {
    if payload.Ack? then [] else SendSdsAck(s, from)
  }

  /** `parseSds(hex, header)`: nothing unless the header carries
      `+CTSDSR`; otherwise the SDS is answered as its payload classifies. */
  function ParseSds(s: Session, hex: string, header: string): (r: (Session, seq<Event>))
    requires AllHex(hex)
    ensures r.0.parser == s.parser
    ensures !Contains(header, SdsHeaderTag) ==> r == (s, [])
  {
    if !Contains(header, SdsHeaderTag) then (s, []) else Answer(s, hex, header, Decode(hex))
  }

  /** A tagged SDS with a classified payload: logged with sender and
      destination, handled, and acknowledged unless it is an
      acknowledgement itself. Only a complete fix touches the retry
      counters, and then only the sender's. */
  function Answer(s: Session, hex: string, header: string, payload: Payload): (r: (Session, seq<Event>))
    ensures |r.1| >= 1 && r.1[0] == SdsReceived(HeaderFrom(header), HeaderDest(header), hex)
    ensures r.0.parser == s.parser
    ensures r.0.sds.ackEnabled == s.sds.ackEnabled && r.0.sds.lastGpsIssi == s.sds.lastGpsIssi
    ensures r.0.sds.gpsRequestRetries == s.sds.gpsRequestRetries
      || r.0.sds.gpsRequestRetries == s.sds.gpsRequestRetries[HeaderFrom(header) := 0]
  {
    var from := HeaderFrom(header);
    var outcome := Outcome(s, from, hex, payload);
    (outcome.0, [SdsReceived(from, HeaderDest(header), hex)] + outcome.1 + AckFor(s.sds, from, payload))
  }

  lemma QuietAppend(a: seq<Event>, b: seq<Event>)
    requires Quiet(a) && Quiet(b)
    ensures Quiet(a + b)
  {
    forall k | 0 <= k < |a + b|
      ensures !(a + b)[k].Command? && !(a + b)[k].RetryScheduled?
    {
      if k >= |a| {
        assert (a + b)[k] == b[k - |a|];
      }
    }
  }

  lemma QuietAppend4(a: seq<Event>, b: seq<Event>, c: seq<Event>, d: seq<Event>)
    requires Quiet(a) && Quiet(b) && Quiet(c) && Quiet(d)
    ensures Quiet(a + b + c + d)
  {
    QuietAppend(a, b);
    QuietAppend(a + b, c);
    QuietAppend(a + b + c, d);
  }

  /** The main decode's events: no command, and a re-request only after
      a latitude alone with budget left. */
  lemma MainOutcomeEffects(s: Session, from: string, hex: string, main: MainFields)
    ensures var events := MainOutcome(s, from, hex, main).1;
      && Commands(events) == []
      && Scheduled(events) == (if main.lat.Some? && main.lon.None? && RetryCount(s.sds, from) < 2
                               then [RetryScheduled(RetryCount(s.sds, from) + 1, from)] else [])
  {
    var events := MainOutcome(s, from, hex, main).1;
    if main.lat.Some? && main.lon.None? {
      var tail := events[1..];
      assert events == [events[0]] + tail && events[0].LatOnly?;
      assert |tail| == 1 && tail[1..] == [];
    } else if main.lat.Some? {
      QuietFilters(events);
    }
  }

  /** A classified payload sends no command of its own, and it schedules
      a re-request exactly when it is a latitude-only reply with budget
      left. */
  lemma OutcomeEffects(s: Session, from: string, hex: string, payload: Payload)
    ensures var events := Outcome(s, from, hex, payload).1;
      Commands(events) == [] && Scheduled(events) == Rescheduled(s.sds, from, payload)
  {
    var events := Outcome(s, from, hex, payload).1;
    if payload.Lip? {
      LipOutcomeEffects(s, from, hex, payload.lip, payload.longLip, payload.lrrp, payload.main);
    } else if payload.Short? {
      assert Quiet(events);
      QuietFilters(events);
    } else if payload.Compact? {
      QuietFilters(events);
    }
  }

  /** The LIP case of `OutcomeEffects`: the quiet reports first, then the
      main outcome's events. */
  lemma LipOutcomeEffects(s: Session, from: string, hex: string, lip: Option<Report>,
                          longLip: Option<Report>, lrrp: Option<Report>, main: MainFields)
    ensures var events := Outcome(s, from, hex, Lip(lip, longLip, lrrp, main)).1;
      Commands(events) == [] && Scheduled(events) == Rescheduled(s.sds, from, Lip(lip, longLip, lrrp, main))
  {
    var payload := Lip(lip, longLip, lrrp, main);
    var first := LipReports(s, from, lip, longLip, lrrp, main.lon.None?);
    var e2 := MainOutcome(first.0, from, hex, main).1;
    assert Outcome(s, from, hex, payload).1 == first.1 + e2;
    QuietThen(first.1, e2);
    MainOutcomeEffects(first.0, from, hex, main);
    assert first.0.sds == s.sds;
    RescheduledLip(s.sds, from, payload);
  }

  lemma RescheduledLip(sds: SdsState, from: string, payload: Payload)
    requires payload.Lip?
    ensures Rescheduled(sds, from, payload) ==
      if payload.main.lat.Some? && payload.main.lon.None? && RetryCount(sds, from) < 2
      then [RetryScheduled(RetryCount(sds, from) + 1, from)] else []
  {
  }

  /** An acknowledgement schedules no re-request. */
  lemma AckSchedulesNothing(s: SdsState, from: string, payload: Payload)
    ensures Scheduled(AckFor(s, from, payload)) == []
  {
    if !payload.Ack? && s.ackEnabled && from != [] {
      var cmds := HexCommands(from, AckPattern, DefaultType);
      assert AckFor(s, from, payload) == CommandEvents(cmds) + [SdsSent(from, AckPattern, DefaultType)];
      ScheduledAppend(CommandEvents(cmds), [SdsSent(from, AckPattern, DefaultType)]);
      CommandEventsSchedule(cmds);
    }
  }

  /** The commands an SDS causes are the acknowledgement's, and an
      acknowledgement is not answered. */
  lemma AnswerCommands(s: Session, hex: string, header: string, payload: Payload)
    ensures Commands(Answer(s, hex, header, payload).1) ==
      if payload.Ack? then [] else Commands(SendSdsAck(s.sds, HeaderFrom(header)))
  {
    var from := HeaderFrom(header);
    var outcome := Outcome(s, from, hex, payload).1;
    var ack := AckFor(s.sds, from, payload);
    var head := [SdsReceived(from, HeaderDest(header), hex)];
    assert Answer(s, hex, header, payload).1 == head + outcome + ack;
    assert Commands(outcome) == [] by {
      OutcomeEffects(s, from, hex, payload);
    }
    CommandsAppend(head, outcome);
    CommandsAppend(head + outcome, ack);
  }

  /** The only re-request an SDS schedules is the one a latitude-only
      reply earns. */
  lemma AnswerScheduled(s: Session, hex: string, header: string, payload: Payload)
    ensures Scheduled(Answer(s, hex, header, payload).1) == Rescheduled(s.sds, HeaderFrom(header), payload)
  {
    var from := HeaderFrom(header);
    var outcome := Outcome(s, from, hex, payload).1;
    var ack := AckFor(s.sds, from, payload);
    var head := [SdsReceived(from, HeaderDest(header), hex)];
    assert Answer(s, hex, header, payload).1 == head + outcome + ack;
    assert Scheduled(outcome) == Rescheduled(s.sds, from, payload) by {
      OutcomeEffects(s, from, hex, payload);
    }
    assert Scheduled(ack) == [] by {
      AckSchedulesNothing(s.sds, from, payload);
    }
    ScheduledAppend(head, outcome);
    ScheduledAppend(head + outcome, ack);
  }

  /** What an SDS does to the stored positions and the retry counters:
      a complete main fix is stored under the sender and resets its
      counter, a Compact-LIP report is stored, and an acknowledgement, a
      text or a short payload changes nothing. */
  lemma AnswerState(s: Session, hex: string, header: string, payload: Payload)
    ensures var r, from := Answer(s, hex, header, payload).0, HeaderFrom(header);
      && (FullFix(payload) ==>
        && r.sds.gpsRequestRetries == s.sds.gpsRequestRetries[from := 0]
        && from in r.view.gpsPositions
        && r.view.gpsPositions[from] == Fix(payload.main.lat.value, payload.main.lon.value))
      && (!FullFix(payload) ==> r.sds == s.sds)
      && (payload.Compact? ==> r.view == RecordPosition(s.view, from, payload.report.fix))
      && (payload.Ack? || payload.Text? || payload.Short? ==> r == s)
  {
  }

  /** The payload classes of `parseSds` that touch the retry protocol:
      a LIP payload has a complete fix exactly when it has 26 digits or
      more, and only a latitude otherwise. */
  lemma LipFixByLength(hex: string)
    requires AllHex(hex) && Decode(hex).Lip?
    ensures FullFix(Decode(hex)) <==> |hex| >= 26
    ensures LatOnlyFix(Decode(hex)) <==> |hex| < 26
  {
  }

  /** An acknowledgement changes nothing and sends nothing. */
  lemma AckNotAnswered(s: Session, header: string)
    requires Contains(header, SdsHeaderTag)
    ensures AllHex(AckPattern)
    ensures var r := ParseSds(s, AckPattern, header);
      r.0 == s && r.1 == [SdsReceived(HeaderFrom(header), HeaderDest(header), AckPattern), AckReceived(HeaderFrom(header))]
  {
    AckPatternHex();
  }

  lemma AckPatternHex()
    ensures AllHex(AckPattern)
  {
  }

  /** The GPS re-request that a `RetryScheduled` event stands for, run
      when its timer fires: `sendSdsRaw(attempt, issi)`. */
  function FireRetry(s: Session, e: Event): (r: (Session, seq<Event>))
    requires e.RetryScheduled?
    ensures r.0.parser == s.parser && r.0.view == s.view
    ensures e.issi != [] ==> r.0.sds.gpsRequestRetries == s.sds.gpsRequestRetries[e.issi := e.attempt]
  {
    var (sds, events) := SendSdsRaw(s.sds, e.attempt, e.issi);
    (s.(sds := sds), events)
  }

  /** A latitude-only reply earns at most two re-requests: after the
      first request (counter 0) the reply schedules attempt 1, firing it
      sets the counter to 1 and the next reply schedules attempt 2, and
      after that one the same reply schedules nothing. */
  lemma RetryBudget(s: Session, hex: string, header: string, payload: Payload)
    requires LatOnlyFix(payload)
    ensures var issi := HeaderFrom(header);
      var a := s.(sds := SendSdsRaw(s.sds, 0, issi).0);
      var b := Answer(a, hex, header, payload);
      var c := FireRetry(b.0, RetryScheduled(1, issi)).0;
      var d := Answer(c, hex, header, payload);
      var e := FireRetry(d.0, RetryScheduled(2, issi)).0;
      && Scheduled(b.1) == [RetryScheduled(1, issi)]
      && Scheduled(d.1) == [RetryScheduled(2, issi)]
      && Scheduled(Answer(e, hex, header, payload).1) == []
  {
    var issi := HeaderFrom(header);
    var a := s.(sds := SendSdsRaw(s.sds, 0, issi).0);
    var b := Answer(a, hex, header, payload);
    var c := FireRetry(b.0, RetryScheduled(1, issi)).0;
    var d := Answer(c, hex, header, payload);
    var e := FireRetry(d.0, RetryScheduled(2, issi)).0;
    assert Scheduled(b.1) == [RetryScheduled(1, issi)] && b.0.sds == a.sds by {
      assert RetryCount(a.sds, issi) == 0;
      AnswerState(a, hex, header, payload);
      AnswerScheduled(a, hex, header, payload);
    }
    assert Scheduled(d.1) == [RetryScheduled(2, issi)] && d.0.sds == c.sds by {
      assert RetryCount(c.sds, issi) == 1;
      AnswerState(c, hex, header, payload);
      AnswerScheduled(c, hex, header, payload);
    }
    assert Scheduled(Answer(e, hex, header, payload).1) == [] by {
      assert RetryCount(e.sds, issi) == 2;
      AnswerScheduled(e, hex, header, payload);
    }
  }

  // ---------------------------------------------------------------------
  // handleData

  /** A line that continues a pending header: `/^\s*,/`. */
  predicate Continues(line: string) {
    var t := TrimStart(line);
    t != [] && t[0] == ','
  }

  /** A trimmed line that is a hex payload: `/^[0-9A-Fa-f]+$/`. */
  predicate HexLine(t: string) {
    t != [] && AllHex(t)
  }

  /** `line.split(':')[1]`, empty when there is no colon. */
  function SecondPiece(line: string): string {
    var pieces := Split(line, ':');
    if |pieces| >= 2 then pieces[1] else []
  }

  /** The single-line readers that run when no block is open: `+CSQ`,
      `+CREG`, the terminal's own `+GPSPOS` and a `+CMGS` delivery report,
      each independently of the others. */
  function Routine(line: string): (r: seq<Event>)
    ensures Quiet(r)
  {
    var csq := if "+CSQ: " <= line then ParseSignalStrength(line) else [];
    var creg := if "+CREG:" <= line then ParseCreg(line) else [];
    var gps := if Contains(line, "+GPSPOS:") then [TerminalGps(line)] else [];
    var cmgs := if Contains(line, "+CMGS:") then [DeliveryReport(line)] else [];
    assert Quiet(creg) by {
      if creg != [] {
        assert creg[0].CregDbm? || creg[0].CregRssi?;
      }
    }
    assert Quiet(csq) && Quiet(gps) && Quiet(cmgs);
    QuietAppend4(csq, creg, gps, cmgs);
    csq + creg + gps + cmgs
  }

  /** What a line is to the reassembly of an SDS and of a `+GCLI`
      listing, checked in `handleData`'s order. */
  datatype Role =
      /** A `+CTSDSR` header, which replaces any pending one. */
    | Header
      /** A line starting with a comma that continues the pending header. */
    | Continuation
      /** The hex line that completes the pending header. */
    | Payload
      /** A `+GCLI:` line announcing a row count. */
    | GcliCount
      /** One of the announced cell rows. */
    | GcliRow
      /** Any other line. */
    | Plain

  function Classify(p: ParserState, line: string): Role {
    if SdsHeaderTag <= line then Header
    else if p.pendingCtsdsr != [] && Continues(line) then Continuation
    else if p.pendingCtsdsr != [] && HexLine(Trim(line)) then Payload
    else if GcliHeader <= line then GcliCount
    else if p.pendingGcliLines > 0 then GcliRow
    else Plain
  }

  /** The bookkeeping a line's role calls for. */
  function Advance(p: ParserState, role: Role, line: string): (r: ParserState)
    ensures r.callRefs == p.callRefs
  {
    match role
    case Header => p.(pendingCtsdsr := line)
    case Continuation => p.(pendingCtsdsr := p.pendingCtsdsr + line)
    case Payload => p.(pendingCtsdsr := [])
    case GcliCount =>
      var count := ParseInt(SecondPiece(line), 0);
      if count.Some? then p.(pendingGcliLines := count.value) else p
    case GcliRow => p.(pendingGcliLines := p.pendingGcliLines - 1)
    case Plain => p
  }

  /** The parser state after a line: it depends on the parser state and
      the line alone. */
  function Reassemble(p: ParserState, line: string): ParserState {
    Advance(p, Classify(p, line), line)
  }

  /** The part of `handleData`'s loop body after the busy notice: SDS
      reassembly first, then the `+GCLI` block, then the single-line
      readers. Only a completed SDS touches anything but the parser
      state, or sends or schedules anything. */
  function Dispatch(s: Session, line: string): (r: (Session, seq<Event>))
    ensures r.0.parser == Reassemble(s.parser, line)
    ensures !Classify(s.parser, line).Payload? ==> (r.0.sds == s.sds && r.0.view == s.view && Quiet(r.1))
  {
    var role := Classify(s.parser, line);
    var next := Advance(s.parser, role, line);
    match role
    case Payload =>
      var answer := ParseSds(s, Trim(line), s.parser.pendingCtsdsr);
      (answer.0.(parser := next), answer.1)
    case _ => (s.(parser := next), Bookkeeping(role, line))
  }

  /** The events of a line that completes no SDS: a `+GCLI` row's cell,
      the single-line readers' events for a plain line, nothing else. */
  function Bookkeeping(role: Role, line: string): (r: seq<Event>)
    ensures Quiet(r)
  {
    match role
    case GcliRow =>
      var e := ParseGcliEntry(line);
      assert Quiet(e) by {
        if e != [] {
          assert e[0].GcliCell? || e[0].GcliRaw?;
        }
      }
      e
    case Plain => Routine(line)
    case _ => []
  }

  /** The start of every line's handling: the echo, the talkgroup
      tracker and the line listeners. */
  function Announce(s: Session, line: string): (r: (Session, seq<Event>))
    ensures r.0 == s.(parser := s.parser.(callRefs := r.0.parser.callRefs))
    ensures |r.1| >= 2 && r.1[0] == Echo(line) && r.1[|r.1| - 1] == LineObserved(line)
    ensures Quiet(r.1)
  {
    var (refs, shown) := GroupActivity(s.parser.callRefs, line);
    var events := [Echo(line)] + shown + [LineObserved(line)];
    assert Quiet(events) by {
      forall k | 0 <= k < |events| ensures !events[k].Command? && !events[k].RetryScheduled? {
        if 0 < k < |events| - 1 {
          assert events[k] == shown[k - 1];
        }
      }
    }
    (s.(parser := s.parser.(callRefs := refs)), events)
  }

  /** One pass of `handleData`'s loop: a line carrying `+CME ERROR: 35`
      only gets the busy notice. */
  function ProcessLine(s: Session, line: string): (r: (Session, seq<Event>))
  {
    var (s1, head) := Announce(s, line);
    if Contains(line, CmeBusy) then (s1, head + [CmeNotice])
    else
      var (s2, rest) := Dispatch(s1, line);
      (s2, head + rest)
  }

  /** A step applied to each line in turn, the events of each step
      following those of the previous one. */
  function Fold(step: (Session, string) -> (Session, seq<Event>), s: Session, lines: seq<string>): (r: (Session, seq<Event>))
    decreases |lines|
  {
    if lines == [] then (s, [])
    else
      var first := step(s, lines[0]);
      var rest := Fold(step, first.0, lines[1..]);
      (rest.0, first.1 + rest.1)
  }

  /** The lines of a chunk, handled in order. */
  function Run(s: Session, lines: seq<string>): (Session, seq<Event>) {
    Fold(ProcessLine, s, lines)
  }

  /** `handleData(data)`: the chunk split at every line feed (dropping one
      carriage return before it), empty lines skipped. Nothing is kept
      between calls but the session: a line cut in two by the transport
      is handled as two lines. */
  function HandleData(s: Session, data: string): (r: (Session, seq<Event>)) {
    Run(s, NonEmpty(SplitLines(data)))
  }

  // ---------------------------------------------------------------------
  // Properties of the line loop

  /** Folding over two runs of lines is folding over one, then the other. */
  lemma {:induction false} FoldAppend(step: (Session, string) -> (Session, seq<Event>), s: Session,
                                      a: seq<string>, b: seq<string>)
    ensures var left := Fold(step, s, a);
      var right := Fold(step, left.0, b);
      Fold(step, s, a + b) == (right.0, left.1 + right.1)
    decreases |a|
  {
    if a == [] {
      assert a + b == b;
      assert [] + Fold(step, s, b).1 == Fold(step, s, b).1;
    } else {
      var first := step(s, a[0]);
      assert (a + b)[0] == a[0] && (a + b)[1..] == a[1..] + b;
      FoldAppend(step, first.0, a[1..], b);
      var mid := Fold(step, first.0, a[1..]);
      var tail := Fold(step, mid.0, b);
      assert first.1 + (mid.1 + tail.1) == (first.1 + mid.1) + tail.1;
    }
  }

  /** Handling a chunk in two parts cut after a line feed is handling it
      at once, as long as the cut does not fall between a carriage return
      and its line feed. */
  lemma HandleDataSplit(s: Session, a: string, b: string)
    requires a == [] || a[|a| - 1] != '\r'
    ensures var (s1, e1) := HandleData(s, a);
      var (s2, e2) := HandleData(s1, b);
      HandleData(s, a + "\n" + b) == (s2, e1 + e2)
  {
    SplitLinesAppend(a, b);
    NonEmptyAppend(SplitLines(a), SplitLines(b));
    FoldAppend(ProcessLine, s, NonEmpty(SplitLines(a)), NonEmpty(SplitLines(b)));
  }

  /** A chunk without a line feed is one line. */
  lemma OneLine(s: Session, line: string)
    requires line != [] && '\n' !in line
    ensures HandleData(s, line) == ProcessLine(s, line)
  {
    SplitSolid(line, '\n');
    assert SplitLines(line) == [line];
    assert NonEmpty([line]) == [line] by {
      assert NonEmpty([line][1..]) == [];
    }
    FoldOne(ProcessLine, s, line);
  }

  /** Folding over one line is one step. */
  lemma FoldOne(step: (Session, string) -> (Session, seq<Event>), s: Session, line: string)
    ensures Fold(step, s, [line]) == step(s, line)
  {
    var first := step(s, line);
    assert [line][1..] == [];
    assert Fold(step, s, [line]) == (first.0, first.1 + []);
    assert first.1 + [] == first.1;
  }

  /** No partial line is carried over: a line that arrives in two chunks
      is echoed as two lines, not as the whole. */
  lemma NoCarryOver(s: Session, a: string, b: string)
    requires a != [] && b != [] && '\n' !in a && '\n' !in b
    ensures var whole := HandleData(s, a + b).1; |whole| >= 1 && whole[0] == Echo(a + b)
    ensures var part := HandleData(s, a).1; |part| >= 1 && part[0] == Echo(a) != Echo(a + b)
  {
    assert '\n' !in a + b by {
      forall k | 0 <= k < |a + b| ensures (a + b)[k] != '\n' {
        if k < |a| { assert (a + b)[k] == a[k]; } else { assert (a + b)[k] == b[k - |a|]; }
      }
    }
    OneLine(s, a + b);
    OneLine(s, a);
    assert |a + b| != |a|;
  }

  /** A busy notice leaves the SDS and `+GCLI` bookkeeping alone. */
  lemma CmeLeavesBlocks(s: Session, line: string)
    requires Contains(line, CmeBusy)
    ensures var (s', events) := ProcessLine(s, line);
      && s'.parser.pendingCtsdsr == s.parser.pendingCtsdsr
      && s'.parser.pendingGcliLines == s.parser.pendingGcliLines
      && s'.sds == s.sds && s'.view == s.view
      && events == Announce(s, line).1 + [CmeNotice]
  {
  }

  /** Without the busy notice, the line is announced and then dispatched. */
  lemma ProcessLineDispatches(s: Session, line: string)
    requires !Contains(line, CmeBusy)
    ensures var (s1, head) := Announce(s, line);
      ProcessLine(s, line) == (Dispatch(s1, line).0, head + Dispatch(s1, line).1)
  {
  }

  /** A line that starts with `+` neither continues a header nor is a
      hex payload. */
  lemma PlusLine(line: string)
    requires line != [] && line[0] == '+'
    ensures !Continues(line) && !HexLine(Trim(line))
  {
    assert TrimStart(line) == line;
    if Trim(line) != [] {
      assert Trim(line) <= line;
    }
  }

  /** The last `+CTSDSR` header wins, whatever was pending. */
  lemma HeaderReplaces(p: ParserState, line: string)
    requires SdsHeaderTag <= line
    ensures Classify(p, line) == Header && Reassemble(p, line) == p.(pendingCtsdsr := line)
  {
  }

  /** While a header is pending, a continuation line is appended to it
      as it is. */
  lemma ContinuationAppends(p: ParserState, line: string)
    requires p.pendingCtsdsr != [] && Continues(line)
    ensures Classify(p, line) == Continuation
    ensures Reassemble(p, line) == p.(pendingCtsdsr := p.pendingCtsdsr + line)
  {
    if SdsHeaderTag <= line {
      PlusLine(line);
    }
  }

  /** While a header is pending, a trimmed hex line is parsed as its
      payload and closes the header, whatever `+GCLI` row count is open. */
  lemma PayloadCloses(s: Session, line: string)
    requires s.parser.pendingCtsdsr != [] && !Continues(line) && HexLine(Trim(line))
    ensures Classify(s.parser, line) == Payload
    ensures var r := ParseSds(s, Trim(line), s.parser.pendingCtsdsr);
      Dispatch(s, line) == (r.0.(parser := s.parser.(pendingCtsdsr := [])), r.1)
  {
    ClassifyPayload(s.parser, line);
    DispatchPayload(s, line);
  }

  lemma ClassifyPayload(p: ParserState, line: string)
    requires p.pendingCtsdsr != [] && !Continues(line) && HexLine(Trim(line))
    ensures Classify(p, line) == Payload
  {
    if SdsHeaderTag <= line {
      PlusLine(line);
    }
  }

  /** A payload line is answered by `parseSds` under the pending header. */
  lemma DispatchPayload(s: Session, line: string)
    requires HexLine(Trim(line)) && Classify(s.parser, line) == Payload
    ensures var r := ParseSds(s, Trim(line), s.parser.pendingCtsdsr);
      Dispatch(s, line) == (r.0.(parser := s.parser.(pendingCtsdsr := [])), r.1)
  {
    assert Advance(s.parser, Payload, line) == s.parser.(pendingCtsdsr := []);
  }

  /** While a header is pending, any other line leaves it pending. */
  lemma OtherLineKeepsHeader(p: ParserState, line: string)
    requires p.pendingCtsdsr != [] && !(SdsHeaderTag <= line) && !Continues(line) && !HexLine(Trim(line))
    ensures Reassemble(p, line).pendingCtsdsr == p.pendingCtsdsr
  {
    if GcliHeader <= line {
      assert Classify(p, line) == GcliCount;
    } else if p.pendingGcliLines > 0 {
      assert Classify(p, line) == GcliRow;
    } else {
      assert Classify(p, line) == Plain;
    }
  }

  /** A `+GCLI:` line with a number sets the row count; without one the
      count stays. Either way a pending header stays pending. */
  lemma GcliCountSet(p: ParserState, line: string)
    requires GcliHeader <= line
    ensures Classify(p, line) == GcliCount
    ensures var n := ParseInt(SecondPiece(line), 0);
      Reassemble(p, line) == if n.Some? then p.(pendingGcliLines := n.value) else p
  {
    assert Classify(p, line) == GcliCount by {
      assert !(SdsHeaderTag <= line) && !Continues(line) && !HexLine(Trim(line)) by {
        PlusLine(line);
        assert line[1] == 'G';
      }
    }
    assert Reassemble(p, line) == Advance(p, GcliCount, line);
  }

  /** While rows are announced, a line that is none of the above is read
      as a cell row and the count drops by exactly one. */
  lemma GcliRowCounted(s: Session, line: string)
    requires s.parser.pendingGcliLines > 0 && !(SdsHeaderTag <= line) && !(GcliHeader <= line)
    requires s.parser.pendingCtsdsr == [] || (!Continues(line) && !HexLine(Trim(line)))
    ensures Classify(s.parser, line) == GcliRow
    ensures Dispatch(s, line) ==
      (s.(parser := s.parser.(pendingGcliLines := s.parser.pendingGcliLines - 1)), ParseGcliEntry(line))
  {
  }

  /** A header, a continuation or a `+GCLI:` line only updates the
      parser state. */
  lemma BookkeepingOnly(s: Session, line: string)
    requires Classify(s.parser, line).Header? || Classify(s.parser, line).Continuation?
      || Classify(s.parser, line).GcliCount?
    ensures Dispatch(s, line) == (s.(parser := Reassemble(s.parser, line)), [])
  {
  }

  /** The session invariant: a pending header is a `+CTSDSR` line (so the
      empty string can stand for none), and every retry counter lies in
      0..2. */
  predicate Good(s: Session) {
    && (s.parser.pendingCtsdsr == [] || SdsHeaderTag <= s.parser.pendingCtsdsr)
    && RetriesBounded(s.sds.gpsRequestRetries)
  }

  /** Every scheduled re-request is attempt 1 or 2. */
  predicate AttemptsInRange(sched: seq<Event>) {
    forall k :: 0 <= k < |sched| ==> sched[k].RetryScheduled? && 1 <= sched[k].attempt <= 2
  }

  lemma AttemptsInRangeAppend(a: seq<Event>, b: seq<Event>)
    requires AttemptsInRange(a) && AttemptsInRange(b)
    ensures AttemptsInRange(a + b)
  {
    forall k | 0 <= k < |a + b| ensures (a + b)[k].RetryScheduled? && 1 <= (a + b)[k].attempt <= 2 {
      if k >= |a| {
        assert (a + b)[k] == b[k - |a|];
      }
    }
  }

  lemma RetriesZeroed(retries: map<string, int>, issi: string)
    requires RetriesBounded(retries)
    ensures RetriesBounded(retries[issi := 0])
  {
  }

  /** An SDS keeps the retry counters in range and schedules only
      attempts 1 and 2. */
  lemma AnswerGood(s: Session, hex: string, header: string, payload: Payload)
    requires RetriesBounded(s.sds.gpsRequestRetries)
    ensures var r := Answer(s, hex, header, payload);
      RetriesBounded(r.0.sds.gpsRequestRetries) && AttemptsInRange(Scheduled(r.1))
  {
    AnswerScheduled(s, hex, header, payload);
    var from := HeaderFrom(header);
    var r := Answer(s, hex, header, payload);
    if r.0.sds.gpsRequestRetries != s.sds.gpsRequestRetries {
      RetriesZeroed(s.sds.gpsRequestRetries, from);
    }
    assert 0 <= RetryCount(s.sds, from) <= 2;
  }

  /** Dispatching a line keeps the invariant and schedules only attempts 1 and 2. */
  lemma DispatchGood(s: Session, line: string)
    requires Good(s)
    ensures Good(Dispatch(s, line).0) && AttemptsInRange(Scheduled(Dispatch(s, line).1))
  {
    var p := s.parser;
    var role := Classify(p, line);
    if role.Payload? {
      assert Contains(p.pendingCtsdsr, SdsHeaderTag);
      AnswerGood(s, Trim(line), p.pendingCtsdsr, Decode(Trim(line)));
    } else {
      if role.Continuation? {
        assert SdsHeaderTag <= p.pendingCtsdsr + line;
      }
      QuietFilters(Dispatch(s, line).1);
    }
  }

  /** Handling a line keeps the invariant and schedules only attempts 1 and 2. */
  lemma ProcessLineGood(s: Session, line: string)
    requires Good(s)
    ensures Good(ProcessLine(s, line).0) && AttemptsInRange(Scheduled(ProcessLine(s, line).1))
  {
    var (s1, head) := Announce(s, line);
    QuietFilters(head);
    if Contains(line, CmeBusy) {
      ScheduledAppend(head, [CmeNotice]);
    } else {
      DispatchGood(s1, line);
      ScheduledAppend(head, Dispatch(s1, line).1);
    }
  }

  /** Over any run of lines the invariant holds, and every re-request
      scheduled is attempt 1 or 2: no ISSI is asked more than three times
      for one position. */
  lemma {:induction false} RunGood(s: Session, lines: seq<string>)
    requires Good(s)
    ensures Good(Run(s, lines).0) && AttemptsInRange(Scheduled(Run(s, lines).1))
    decreases |lines|
  {
    if lines != [] {
      var first := ProcessLine(s, lines[0]);
      var rest := Run(first.0, lines[1..]);
      assert Run(s, lines) == (rest.0, first.1 + rest.1);
      ProcessLineGood(s, lines[0]);
      RunGood(first.0, lines[1..]);
      ScheduledAppend(first.1, rest.1);
      AttemptsInRangeAppend(Scheduled(first.1), Scheduled(rest.1));
    }
  }

  /** Firing a scheduled re-request keeps the invariant. */
  lemma FireRetryGood(s: Session, e: Event)
    requires Good(s) && e.RetryScheduled? && 1 <= e.attempt <= 2
    ensures Good(FireRetry(s, e).0)
  {
    SendSdsRawKeepsRetriesBounded(s.sds, e.attempt, e.issi);
  }

  /** The session before any data: nothing pending, no counters, no positions. */
  const InitialSession: Session := Session(InitialParserState, InitialSdsState, InitialMapState)

  lemma InitialGood()
    ensures Good(InitialSession)
  {
  }
}

=== FILE: sdsdecoder.dfy ===
/** The SDS payload classifier of parsing.js: a payload of hex digits is
    an acknowledgement, a text message, a Compact-LIP position, a LIP
    position (possibly also read as Long-LIP and LRRP), or too short for
    position data. Coordinates are `real`s computed from integer codes. */
module SdsDecoder {
  import opened Wrappers
  import opened JsText
  import opened JsNum
  import opened HexCodec

  /** The acknowledgement payload: text header followed by the ACK character 0x06. */
  const AckPattern: string := "8200010D06"
  /** The header of a text SDS. */
  const TextHeader: string := "8200010D"
  const CompactPrefix: string := "0A00"
  const CompactScale: real := 131072.0
  const CompactLatOffset: real := 1.554295
  const CompactLonOffset: real := 43.045017
  const MicroDegrees: real := 1000000.0

  datatype Fix = Fix(lat: real, lon: real)

  /** Which decoder produced a report: the four helpers plus the main body of `parseSds`. */
  datatype ReportKind = LipFix | LongLipFix | CompactFix | LrrpFix | MainFix

  /** A decoded position with the optional extras each decoder reads. */
  datatype Report = Report(
    kind: ReportKind,
    fix: Fix,
    speed: Option<real>,
    heading: Option<int>,
    accuracy: Option<int>,
    altitude: Option<int>)

  /** The fields the main body of `parseSds` reads from a LIP payload;
      `None` stands for `NaN` or `null`. */
  datatype MainFields = MainFields(
    lat: Option<real>,
    lon: Option<real>,
    speed: Option<real>,
    heading: Option<int>,
    accuracy: Option<int>)

  /** The first-match classification of a payload. */
  datatype Payload =
    | Ack
    | Text(text: string)
    | Compact(report: Report)
    | Lip(lip: Option<Report>, longLip: Option<Report>, lrrp: Option<Report>, main: MainFields)
    | Short(headerText: Option<string>)

  /** `s.slice(n)`. */
  function After(s: string, n: nat): (r: string)
    ensures AllHex(s) ==> AllHex(r)
  {
    if n <= |s| then s[n..] else []
  }

  /** A coordinate in micro-degrees. */
  function Micro(code: int): real {
    code as real / MicroDegrees
  }

  /** `parseLittleEndianSigned(field) / 1e6`, with `NaN` kept as `None`. */
  function LeCoordinate(field: string): (r: Option<real>)
    ensures r.Some? <==> |field| == 8 && AllHex(field)
  {
    match ParseLittleEndianSigned(field)
    case None => None
    case Some(v) => Some(Micro(v))
  }

  /** `parseInt(swapBytes(field), 16)` for a four-digit field. */
  function SwappedValue(field: string): (v: nat)
    requires AllHex(field) && |field| == 4
    ensures v == HexValue(field[2..4]) * 256 + HexValue(field[0..2])
  {
    SwapBytesLittleEndian(field);
    HexValue(SwapBytes(field))
  }

  /** `parseLipSds`: latitude and longitude at digits 10..18 and 18..26,
      then optional speed (tenths, byte-swapped), heading (byte-swapped)
      and accuracy. Payloads shorter than 26 digits give no report. */
  function ParseLip(hex: string): (r: Option<Report>)
    requires AllHex(hex)
    ensures r.Some? <==> |hex| >= 26
    ensures r.Some? ==> (r.value.kind == LipFix && r.value.altitude.None?
      && Some(r.value.fix.lat) == LeCoordinate(hex[10..18])
      && Some(r.value.fix.lon) == LeCoordinate(hex[18..26])
      && (r.value.speed.Some? <==> |hex| >= 30)
      && (r.value.heading.Some? <==> |hex| >= 34)
      && (r.value.accuracy.Some? <==> |hex| >= 36))
  {
    if |hex| < 26 then None
    else
      AllHexSlices(hex);
      var lat := LeCoordinate(hex[10..18]).value;
      var lon := LeCoordinate(hex[18..26]).value;
      var speed := if |hex| >= 30 then Some(SwappedValue(hex[26..30]) as real / 10.0) else None;
      var heading := if |hex| >= 34 then Some(SwappedValue(hex[30..34]) as int) else None;
      var accuracy := if |hex| >= 36 then Some(HexValue(hex[34..36]) as int) else None;
      Some(Report(LipFix, Fix(lat, lon), speed, heading, accuracy, None))
  }

  /** `parseLongLipSds`: the same coordinates plus a byte-swapped
      altitude at digits 26..30; payloads shorter than 40 digits give no
      report. */
  function ParseLongLip(hex: string): (r: Option<Report>)
    requires AllHex(hex)
    ensures r.Some? <==> |hex| >= 40
    ensures r.Some? ==> (r.value.kind == LongLipFix
      && Some(r.value.fix.lat) == LeCoordinate(hex[10..18])
      && Some(r.value.fix.lon) == LeCoordinate(hex[18..26])
      && r.value.altitude == Some(SwappedValue(hex[26..30]) as int))
  {
    if |hex| < 40 then None
    else
      AllHexSlices(hex);
      var lat := LeCoordinate(hex[10..18]).value;
      var lon := LeCoordinate(hex[18..26]).value;
      Some(Report(LongLipFix, Fix(lat, lon), None, None, None, Some(SwappedValue(hex[26..30]) as int)))
  }

  /** `parseCompactLipSds`: signed 24-bit latitude and longitude codes at
      digits 4..10 and 10..16 scaled by 1/131072 and shifted by fixed
      offsets, then one byte each of speed, heading and accuracy. Any
      length but 22 gives no report. */
  function ParseCompactLip(hex: string): (r: Option<Report>)
    requires AllHex(hex)
    ensures r.Some? <==> |hex| == 22
    ensures r.Some? ==> (r.value.kind == CompactFix
      && r.value.fix.lat == Parse24Signed(hex[4..10]).value as real / CompactScale - CompactLatOffset
      && r.value.fix.lon == Parse24Signed(hex[10..16]).value as real / CompactScale - CompactLonOffset
      && r.value.speed == Some(HexValue(hex[16..18]) as real)
      && r.value.heading == Some(HexValue(hex[18..20]) as int)
      && r.value.accuracy == Some(HexValue(hex[20..22]) as int))
  {
    if |hex| != 22 then None
    else
      AllHexSlices(hex);
      var latCode := Parse24Signed(hex[4..10]).value;
      var lonCode := Parse24Signed(hex[10..16]).value;
      var lat := latCode as real / CompactScale - CompactLatOffset;
      var lon := lonCode as real / CompactScale - CompactLonOffset;
      Some(Report(CompactFix, Fix(lat, lon),
        Some(HexValue(hex[16..18]) as real), Some(HexValue(hex[18..20]) as int),
        Some(HexValue(hex[20..22]) as int), None))
  }

  /** `parseLrrpSds`: coordinates at digits 12..20 and 20..28; payloads
      shorter than 28 digits give no report. */
  function ParseLrrp(hex: string): (r: Option<Report>)
    requires AllHex(hex)
    ensures r.Some? <==> |hex| >= 28
    ensures r.Some? ==> (r.value.kind == LrrpFix
      && Some(r.value.fix.lat) == LeCoordinate(hex[12..20])
      && Some(r.value.fix.lon) == LeCoordinate(hex[20..28]))
  {
    if |hex| < 28 then None
    else
      AllHexSlices(hex);
      var lat := LeCoordinate(hex[12..20]).value;
      var lon := LeCoordinate(hex[20..28]).value;
      Some(Report(LrrpFix, Fix(lat, lon), None, None, None, None))
  }

  /** The fields the main body of `parseSds` reads from a payload of at
      least 18 digits. The padding of a six-digit longitude field is kept
      as written although a slice of a long enough payload always has
      eight digits. */
  function MainFieldsOf(hex: string): (r: MainFields)
    requires AllHex(hex) && |hex| >= 18
    ensures r.lat.Some?
    ensures r.lon.Some? <==> |hex| >= 26
  {
    AllHexSlices(hex);
    var lat := LeCoordinate(hex[10..18]);
    var lon :=
      if |hex| >= 26 then
        var lonHex := hex[18..26];
        var padded := if |lonHex| == 6 then lonHex + "00" else lonHex;
        if |padded| == 8 then LeCoordinate(padded) else None
      else None;
    var speed := if |hex| >= 30 then Some(SwappedValue(hex[26..30]) as real / 10.0) else None;
    var heading := if |hex| >= 34 then Some(SwappedValue(hex[30..34]) as int) else None;
    var accuracy := if |hex| >= 36 then Some(HexValue(hex[34..36]) as int) else None;
    MainFields(lat, lon, speed, heading, accuracy)
  }

  /** The LRRP decoder runs on payloads starting with `01` or `81`. */
  predicate LrrpPrefixed(hex: string) {
    "01" <= hex || "81" <= hex
  }

  /** The text of a text SDS: the payload after its four header bytes. */
  function TextOf(hex: string): string
    requires AllHex(hex)
  {
    HexToAscii(After(hex, 8))
  }

  /** The first-match classification of `parseSds`: the exact ACK
      pattern, then the text header, then the printable-text heuristic on
      the bytes after the header, then a 22-digit Compact-LIP, then LIP for
      18 digits or more, and otherwise a payload too short for position
      data (whose text, if it has a header, is still shown). */
  function Decode(hex: string): (r: Payload)
    requires AllHex(hex)
    ensures r.Ack? <==> hex == AckPattern
    ensures r.Text? <==> hex != AckPattern && (TextHeader <= hex || IsLikelyText(After(hex, 8)))
    ensures r.Text? ==> r.text == TextOf(hex)
    ensures r.Compact? <==> (hex != AckPattern && !(TextHeader <= hex) && !IsLikelyText(After(hex, 8))
      && |hex| == 22 && CompactPrefix <= hex)
    ensures r.Lip? ==> |hex| >= 18 && r.main.lat.Some? && (r.main.lon.Some? <==> |hex| >= 26)
    ensures r.Lip? ==> ((r.lip.Some? <==> |hex| >= 26) && (r.longLip.Some? <==> |hex| >= 40)
      && (r.lrrp.Some? <==> LrrpPrefixed(hex) && |hex| >= 28))
    ensures r.Short? <==> !r.Ack? && !r.Text? && !r.Compact? && |hex| < 18
    ensures r.Short? ==> (r.headerText.Some? <==> |hex| >= 8)
  {
    if hex == AckPattern then Ack
    else if TextHeader <= hex then Text(TextOf(hex))
    else if IsLikelyText(After(hex, 8)) then Text(TextOf(hex))
    else if |hex| == 22 && CompactPrefix <= hex then Compact(ParseCompactLip(hex).value)
    else if |hex| >= 18 then
      Lip(ParseLip(hex),
          if |hex| >= 40 then ParseLongLip(hex) else None,
          if LrrpPrefixed(hex) then ParseLrrp(hex) else None,
          MainFieldsOf(hex))
    else Short(if |hex| >= 8 then Some(TextOf(hex)) else None)
  }

  /** A Compact-LIP payload as a sender lays it out: the prefix, two
      signed 24-bit codes and three single bytes. */
  function CompactPayload(latCode: int, lonCode: int, speed: nat, heading: nat, accuracy: nat): (r: string)
    requires -Two23 <= latCode < Two23 && -Two23 <= lonCode < Two23
    requires speed < 256 && heading < 256 && accuracy < 256
    ensures |r| == 22 && AllHex(r)
    ensures r[..4] == CompactPrefix && r[4..10] == Encode24(latCode) && r[10..16] == Encode24(lonCode)
    ensures r[16..18] == HexByte(speed, true) && r[18..20] == HexByte(heading, true)
    ensures r[20..22] == HexByte(accuracy, true)
  {
    var a := CompactPrefix + Encode24(latCode);
    AllHexAppend(CompactPrefix, Encode24(latCode));
    var b := a + Encode24(lonCode);
    AllHexAppend(a, Encode24(lonCode));
    var c := b + HexByte(speed, true);
    AllHexAppend(b, HexByte(speed, true));
    var d := c + HexByte(heading, true);
    AllHexAppend(c, HexByte(heading, true));
    AllHexAppend(d, HexByte(accuracy, true));
    CompactLayout(CompactPrefix, Encode24(latCode), Encode24(lonCode),
                  HexByte(speed, true), HexByte(heading, true), HexByte(accuracy, true));
    d + HexByte(accuracy, true)
  }

  /** Where the six pieces of a Compact-LIP payload sit. */
  lemma CompactLayout<T>(p: seq<T>, a: seq<T>, b: seq<T>, x: seq<T>, y: seq<T>, z: seq<T>)
    requires |p| == 4 && |a| == 6 && |b| == 6 && |x| == 2 && |y| == 2 && |z| == 2
    ensures var r := p + a + b + x + y + z;
      && |r| == 22 && r[..4] == p && r[4..10] == a && r[10..16] == b
      && r[16..18] == x && r[18..20] == y && r[20..22] == z
  {
    var r := p + a + b + x + y + z;
    assert r[..4] == p;
    assert r[4..10] == a;
    assert r[10..16] == b;
    assert r[16..18] == x;
    assert r[18..20] == y;
    assert r[20..22] == z;
  }

  /** The fields of a laid-out Compact-LIP payload read back to their codes. */
  lemma CompactFieldsRoundTrip(latCode: int, lonCode: int, speed: nat, heading: nat, accuracy: nat)
    requires -Two23 <= latCode < Two23 && -Two23 <= lonCode < Two23
    requires speed < 256 && heading < 256 && accuracy < 256
    ensures ParseCompactLip(CompactPayload(latCode, lonCode, speed, heading, accuracy)) ==
      Some(Report(CompactFix,
        Fix(latCode as real / CompactScale - CompactLatOffset, lonCode as real / CompactScale - CompactLonOffset),
        Some(speed as real), Some(heading), Some(accuracy), None))
  {
    Parse24RoundTrip(latCode);
    Parse24RoundTrip(lonCode);
  }

  /** Unless its bytes after the header happen to look like text, a
      Compact-LIP payload is decoded back to its codes and extras. */
  lemma CompactRoundTrip(latCode: int, lonCode: int, speed: nat, heading: nat, accuracy: nat)
    requires -Two23 <= latCode < Two23 && -Two23 <= lonCode < Two23
    requires speed < 256 && heading < 256 && accuracy < 256
    requires !IsLikelyText(After(CompactPayload(latCode, lonCode, speed, heading, accuracy), 8))
    ensures Decode(CompactPayload(latCode, lonCode, speed, heading, accuracy)) ==
      Compact(Report(CompactFix,
        Fix(latCode as real / CompactScale - CompactLatOffset, lonCode as real / CompactScale - CompactLonOffset),
        Some(speed as real), Some(heading), Some(accuracy), None))
  {
    var hex := CompactPayload(latCode, lonCode, speed, heading, accuracy);
    assert hex[..4] == CompactPrefix;
    assert hex[1] == 'A' != TextHeader[1];
    CompactFieldsRoundTrip(latCode, lonCode, speed, heading, accuracy);
  }

  /** `n` copies of a byte pair. */
  function RepeatPair(pair: string, n: nat): (r: string)
    requires AllHex(pair)
    ensures AllHex(r) && |r| == n * |pair|
  {
    if n == 0 then []
    else
      AllHexAppend(pair, RepeatPair(pair, n - 1));
      pair + RepeatPair(pair, n - 1)
  }

  /** `n` copies of a character. */
  function RepeatChar(c: char, n: nat): (r: string)
    ensures |r| == n
  {
    if n == 0 then [] else [c] + RepeatChar(c, n - 1)
  }

  lemma {:induction false} HexToAsciiRepeat(pair: string, n: nat)
    requires AllHex(pair) && |pair| == 2
    ensures HexValue(pair) < 256
    ensures HexToAscii(RepeatPair(pair, n)) == RepeatChar(FromCharCode(HexValue(pair)), n)
  {
    PairValue(pair);
    if n > 0 {
      HexToAsciiRepeat(pair, n - 1);
      HexToAsciiPair(pair, RepeatPair(pair, n - 1));
    }
  }

  lemma {:induction false} CountPrintableRepeat(c: char, n: nat)
    requires IsPrintable(c)
    ensures CountPrintable(RepeatChar(c, n)) == n
  {
    if n > 0 {
      CountPrintableRepeat(c, n - 1);
    }
  }

  /** A Compact-LIP payload whose seven bytes after the header look like
      text is taken for a text message: the text test comes first, so
      the position in it is never decoded. */
  lemma CompactShadowedByText(head: string, tail: string)
    requires |head| == 8 && AllHex(head) && head[..4] == CompactPrefix
    requires |tail| == 14 && AllHex(tail) && IsLikelyText(tail)
    ensures var hex := head + tail;
      && AllHex(hex) && |hex| == 22 && CompactPrefix <= hex
      && Decode(hex) == Text(HexToAscii(tail))
  {
    var hex := head + tail;
    AllHexAppend(head, tail);
    assert After(hex, 8) == tail;
    assert hex != AckPattern && !(TextHeader <= hex) by {
      assert hex[..4] == CompactPrefix;
      assert hex[1] != TextHeader[1];
    }
  }

  /** Such payloads exist: seven `A`s (0x41) after any compact header. */
  lemma CompactShadowedByLetters(head: string, pair: string)
    requires |head| == 8 && AllHex(head) && head[..4] == CompactPrefix
    requires |pair| == 2 && pair[0] == '4' && pair[1] == '1'
    ensures Decode(head + RepeatPair(pair, 7)) == Text(RepeatChar('A', 7))
  {
    assert AllHex(pair);
    var tail := RepeatPair(pair, 7);
    assert HexToAscii(tail) == RepeatChar('A', 7) by {
      HexToAsciiRepeat(pair, 7);
      PairValue(pair);
      assert FromCharCode(HexValue(pair)) == 'A';
    }
    assert IsLikelyText(tail) by {
      CountPrintableRepeat('A', 7);
    }
    CompactShadowedByText(head, tail);
  }

  /** A LIP payload as a sender lays it out: a five-byte header, then
      latitude and longitude as little-endian 32-bit fields. */
  function LipPayload(header: string, latCode: int, lonCode: int): (r: string)
    requires AllHex(header) && |header| == 10
    ensures |r| == 26 && AllHex(r)
  {
    AllHexAppend(header, EncodeLe32(latCode));
    AllHexAppend(header + EncodeLe32(latCode), EncodeLe32(lonCode));
    header + EncodeLe32(latCode) + EncodeLe32(lonCode)
  }

  /** What the decoder makes of a LIP payload: both the LIP helper and
      the main body report the same position (so it is recorded twice),
      and each coordinate is the code modulo 2^32 minus one, in
      micro-degrees. */
  lemma LipReadBack(header: string, latCode: int, lonCode: int)
    requires AllHex(header) && |header| == 10 && !(TextHeader <= header)
    requires !IsLikelyText(After(LipPayload(header, latCode, lonCode), 8))
    ensures var r := Decode(LipPayload(header, latCode, lonCode));
      var fix := Fix(Micro(latCode % Two32 - 1), Micro(lonCode % Two32 - 1));
      && r.Lip?
      && r.main.lat == Some(fix.lat) && r.main.lon == Some(fix.lon)
      && r.lip.Some? && r.lip.value.fix == fix
      && r.longLip.None?
  {
    var hex := LipPayload(header, latCode, lonCode);
    assert hex[..10] == header;
    assert hex[10..18] == EncodeLe32(latCode);
    assert hex[18..26] == EncodeLe32(lonCode);
    LittleEndianReadBack(latCode);
    LittleEndianReadBack(lonCode);
  }
}

=== FILE: sdsout.dfy ===
/** The sending side of sds.js: the command sequence that puts an SDS on
    the air, the text PDU, the fixed position-request payloads, the
    acknowledgement and the GPS request that records its retry counter. */
module SdsOut {
  import opened Wrappers
  import opened JsText
  import opened JsNum
  import opened HexCodec
  import opened SdsDecoder
  import opened Events

  /** The LIP position request. */
  const LipRequest: string := "0A4591C128293D"
  /** The Long-LIP position request. */
  const LongLipRequest: string := "0A4591C128293D00"
  /** The LRRP position request. */
  const LrrpRequest: string := "0B01A1000000"
  /** The SDS type used when the caller gives none. */
  const DefaultType: string := "0"
  /** The character that ends an SDS payload on the AT interface. */
  const CtrlZ: char := 26 as char
  /** The acknowledgement character. */
  const AckChar: char := 6 as char

  /** The module state of sds.js. */
  datatype SdsState = SdsState(
    gpsRequestRetries: map<string, int>,
    lastGpsIssi: Option<string>,
    ackEnabled: bool)

  const InitialSdsState: SdsState := SdsState(map[], None, false)

  /** `setAckEnabled`: stores the flag and nothing else. */
  function SetAckEnabled(s: SdsState, on: bool): (r: SdsState)
    ensures r.ackEnabled == on
    ensures r.gpsRequestRetries == s.gpsRequestRetries && r.lastGpsIssi == s.lastGpsIssi
  {
    s.(ackEnabled := on)
  }

  /** The `AT+CMGS` command announcing `bits` bits for `dest`. */
  function CmgsCommand(dest: string, bits: nat): string {
    "AT+CMGS=" + dest + "," + Decimal(bits)
  }

  /** The `AT+CTSDS` command selecting the SDS type. */
  function CtsdsCommand(sdsType: string): string {
    "AT+CTSDS=12," + sdsType + ",0,0,0"
  }

  /** `sendSdsHex`: without a destination or payload only a warning is
      shown; otherwise the type command, the length announcement (four
      bits per hex digit) and the payload closed by Ctrl-Z are sent in
      that order, then the SDS is logged. */
  function SendSdsHex(dest: string, hex: string, sdsType: string): (events: seq<Event>)
    ensures dest == [] || hex == [] ==> events == [MissingTarget]
    ensures dest != [] && hex != [] ==>
      Commands(events) == HexCommands(dest, hex, sdsType)
      && events[|events| - 1] == SdsSent(dest, hex, sdsType)
  {
    if dest == [] || hex == [] then [MissingTarget]
    else
      var cmds := HexCommands(dest, hex, sdsType);
      var done := SdsSent(dest, hex, sdsType);
      CommandsThen(cmds, [done]);
      CommandEvents(cmds) + [done]
  }

  /** The commands `sendSdsHex` hands to the serial link: the type command,
      the length announcement (four bits per hex digit) and the payload
      closed by Ctrl-Z. */
  function HexCommands(dest: string, hex: string, sdsType: string): seq<string> {
    [CtsdsCommand(sdsType), CmgsCommand(dest, 4 * |hex|), hex + [CtrlZ]]
  }

  /** The announced length is eight bits per payload byte, it reads back
      as a decimal number, and the payload goes out unchanged before the
      Ctrl-Z. */
  lemma SdsLengthAnnounced(dest: string, hex: string, sdsType: string, bytes: nat)
    requires dest != [] && |hex| == 2 * bytes && bytes > 0
    ensures var cmds := Commands(SendSdsHex(dest, hex, sdsType));
      && |cmds| == 3
      && cmds[1] == CmgsCommand(dest, 8 * bytes)
      && ParseInt(Decimal(8 * bytes), 10) == Some(8 * bytes)
      && cmds[2][..|cmds[2]| - 1] == hex && cmds[2][|cmds[2]| - 1] == CtrlZ
  {
    assert 4 * |hex| == 8 * bytes;
    ParseDecimal(8 * bytes, 10);
    var last := hex + [CtrlZ];
    assert last[..|last| - 1] == hex;
  }

  /** `c.charCodeAt(0)` for a one-code-point string: code points above
      the 16-bit range give their high surrogate. */
  function CodeUnit(c: char): (u: nat)
    ensures u < 0x1_0000
    ensures (c as int) < 0x1_0000 ==> u == c as int
  {
    if (c as int) < 0x1_0000 then c as int else 0xD800 + (c as int - 0x1_0000) / 0x400
  }

  /** One character of the text payload: its code in upper-case hex,
      padded to at least two digits. */
  function CodeHex(code: nat): (r: string)
    ensures |r| >= 2 && AllHex(r)
  {
    var digits := ToRadix(code, 16, true);
    PadStart(digits, 2, '0')
  }

  /** The hex text of a message, one `CodeHex` per code point. */
  function TextHex(msg: string): (r: string)
    ensures AllHex(r)
    ensures |r| >= 2 * |msg|
  {
    if msg == [] then []
    else
      var head := CodeHex(CodeUnit(msg[0]));
      var tail := TextHex(msg[1..]);
      AllHexAppend(head, tail);
      head + tail
  }

  /** The text PDU of `sendSds`: the text header and the message's codes. */
  function TextPdu(msg: string): (r: string)
    ensures AllHex(r)
    ensures |r| >= 8 && r[..8] == TextHeader
  {
    var body := TextHex(msg);
    TextHeaderIsHex();
    AllHexAppend(TextHeader, body);
    TextHeader + body
  }

  lemma TextHeaderIsHex()
    ensures AllHex(TextHeader)
  {
  }

  /** `sendSds`: the destination and message fields are trimmed; without
      both only a warning is shown; otherwise the profile command, the type
      command, the length announcement and the PDU closed by Ctrl-Z are
      sent in that order, and the message is logged. The length
      `(pdu.length / 2) * 8` is exactly four bits per digit. */
  function SendSds(destField: string, messageField: string, sdsType: string): (events: seq<Event>)
    ensures Trim(destField) == [] || Trim(messageField) == [] ==> events == [MissingTarget]
    ensures Trim(destField) != [] && Trim(messageField) != [] ==>
      Commands(events) == TextCommands(Trim(destField), Trim(messageField), sdsType)
      && events[|events| - 1] == TextSdsSent(Trim(destField), Trim(messageField), sdsType)
  {
    var dest, msg := Trim(destField), Trim(messageField);
    if dest == [] || msg == [] then [MissingTarget]
    else
      var cmds := TextCommands(dest, msg, sdsType);
      var done := TextSdsSent(dest, msg, sdsType);
      CommandsThen(cmds, [done]);
      CommandEvents(cmds) + [done]
  }

  /** The commands `sendSds` hands to the serial link: the profile command,
      the type command, the length announcement and the PDU closed by Ctrl-Z. */
  function TextCommands(dest: string, msg: string, sdsType: string): seq<string> {
    var pdu := TextPdu(msg);
    ["AT+CTSP=1,3,2", CtsdsCommand(sdsType), CmgsCommand(dest, 4 * |pdu|), pdu + [CtrlZ]]
  }

  /** Every character code fits in one byte. */
  predicate Latin1(msg: string) {
    forall k :: 0 <= k < |msg| ==> (msg[k] as int) < 256
  }

  /** A code below 256 is written as exactly one byte pair. */
  lemma CodeHexByte(code: nat)
    requires code < 256
    ensures CodeHex(code) == HexByte(code, true)
  {
  }

  /** Reading the hex text of a one-byte-per-character message back with
      `hexToAscii` gives the message. */
  lemma {:induction false} TextHexRoundTrip(msg: string)
    requires Latin1(msg)
    ensures |TextHex(msg)| == 2 * |msg|
    ensures HexToAscii(TextHex(msg)) == msg
  {
    if msg != [] {
      TextHexStep(msg);
      TextHexRoundTrip(msg[1..]);
      HexToAsciiCons(HexByte(msg[0] as int, true), TextHex(msg[1..]), msg[0], msg[1..]);
      HeadTail(msg);
    }
  }

  /** The hex text of a one-byte character followed by the rest. */
  lemma TextHexStep(msg: string)
    requires Latin1(msg) && msg != []
    ensures Latin1(msg[1..])
    ensures TextHex(msg) == HexByte(msg[0] as int, true) + TextHex(msg[1..])
  {
    CodeHexByte(msg[0] as int);
  }

  lemma HexToAsciiCons(head: string, tail: string, c: char, rest: string)
    requires AllHex(head) && |head| == 2 && HexValue(head) == c as int && AllHex(tail)
    requires HexToAscii(tail) == rest
    ensures HexToAscii(head + tail) == [c] + rest
  {
    HexToAsciiPair(head, tail);
  }

  /** A text PDU is read back by the receiving decoder as the same text,
      unless the message is the single character 0x06 (see
      `AckCharTextReadAsAck`). */
  lemma TextPduRoundTrip(msg: string)
    requires Latin1(msg) && msg != [AckChar]
    ensures Decode(TextPdu(msg)) == Text(msg)
    ensures 4 * |TextPdu(msg)| == 8 * (4 + |msg|)
  {
    TextHexRoundTrip(msg);
    var pdu := TextPdu(msg);
    assert After(pdu, 8) == TextHex(msg);
    assert TextHex(msg) == "06" ==> msg == [AckChar] by {
      var hex := TextHex(msg);
      if |hex| == 2 && hex[0] == '0' && hex[1] == '6' {
        AckTextHex(msg);
      }
    }
    assert pdu == AckPattern ==> TextHex(msg) == "06";
  }

  /** Only the message made of the ACK character has the hex text `06`. */
  lemma AckTextHex(msg: string)
    requires Latin1(msg)
    requires |TextHex(msg)| == 2 && TextHex(msg)[0] == '0' && TextHex(msg)[1] == '6'
    ensures msg == [AckChar]
  {
    TextHexRoundTrip(msg);
    var c := msg[0];
    assert msg[1..] == [];
    CodeHexByte(c as int);
    var hex := TextHex(msg);
    assert hex == HexByte(c as int, true);
    PairValue(hex);
    assert c as int == 6;
    assert msg == [c];
  }

  /** A text message consisting of the single character 0x06 produces
      exactly the acknowledgement payload, so the receiver takes it for an
      acknowledgement and not for a text. */
  lemma AckCharTextReadAsAck(msg: string)
    requires msg == [AckChar]
    ensures TextPdu(msg) == AckPattern
    ensures Decode(TextPdu(msg)) == Ack
  {
    assert CodeUnit(msg[0]) == 6;
    assert TextHex(msg) == CodeHex(6) + TextHex([]);
  }

  /** `sendSdsAck`: nothing unless acknowledgements are enabled; then the
      acknowledgement payload is sent with the default type. */
  function SendSdsAck(s: SdsState, issi: string): (events: seq<Event>)
    ensures !s.ackEnabled ==> events == []
  {
    if !s.ackEnabled then [] else SendSdsHex(issi, AckPattern, DefaultType)
  }

  /** What `sendSdsAck` puts on the air is the pattern the receiving
      decoder classifies as an acknowledgement. */
  lemma AckSentIsAck(s: SdsState, issi: string)
    requires s.ackEnabled && issi != []
    ensures var cmds := Commands(SendSdsAck(s, issi));
      |cmds| == 3 && cmds[2] == AckPattern + [CtrlZ] && Decode(cmds[2][..|cmds[2]| - 1]) == Ack
  {
    var last := AckPattern + [CtrlZ];
    assert last[..|last| - 1] == AckPattern;
  }

  /** `sendLipRequest`, `sendLongLipRequest` and `sendLrrpRequest`: a
      fixed payload with the default type. */
  function SendLipRequest(issi: string): seq<Event> {
    SendSdsHex(issi, LipRequest, DefaultType)
  }

  function SendLongLipRequest(issi: string): seq<Event> {
    SendSdsHex(issi, LongLipRequest, DefaultType)
  }

  function SendLrrpRequest(issi: string): seq<Event> {
    SendSdsHex(issi, LrrpRequest, DefaultType)
  }

  /** The Long-LIP request is the LIP request with one more zero byte,
      and each request is a whole number of bytes of hex digits. */
  lemma RequestPayloads()
    ensures LongLipRequest == LipRequest + "00"
    ensures AllHex(LipRequest) && AllHex(LrrpRequest)
    ensures |LipRequest| == 14 && |LongLipRequest| == 16 && |LrrpRequest| == 12
  {
  }

  /** `sendSdsRaw(retryCount, issi)` for an already resolved ISSI: without
      one nothing changes; otherwise the ISSI becomes the last GPS target,
      its retry counter is set to `retryCount`, and the LIP request goes
      out. */
  function SendSdsRaw(s: SdsState, retryCount: int, issi: string): (r: (SdsState, seq<Event>))
    ensures issi == [] ==> r == (s, [MissingIssi])
    ensures issi != [] ==>
      && r.0.lastGpsIssi == Some(issi)
      && r.0.gpsRequestRetries == s.gpsRequestRetries[issi := retryCount]
      && r.0.ackEnabled == s.ackEnabled
      && Commands(r.1) == Commands(SendLipRequest(issi))
  {
    if issi == [] then (s, [MissingIssi])
    else
      var s' := s.(lastGpsIssi := Some(issi), gpsRequestRetries := s.gpsRequestRetries[issi := retryCount]);
      CommandsAppend(SendLipRequest(issi), [GpsRequestSent(issi, retryCount)]);
      (s', SendLipRequest(issi) + [GpsRequestSent(issi, retryCount)])
  }

  /** `requestGps`: the ISSI field as entered, and a first attempt. */
  function RequestGps(s: SdsState, issiField: string): (SdsState, seq<Event>) {
    if issiField == [] then (s, [MissingIssi]) else SendSdsRaw(s, 0, issiField)
  }

  /** Every stored retry counter lies in 0..2. */
  predicate RetriesBounded(retries: map<string, int>) {
    forall issi :: issi in retries ==> 0 <= retries[issi] <= 2
  }

  /** A request with an attempt number in 0..2 keeps the counters in
      range, and the requested ISSI's counter is the attempt number. */
  lemma SendSdsRawKeepsRetriesBounded(s: SdsState, retryCount: int, issi: string)
    requires RetriesBounded(s.gpsRequestRetries) && 0 <= retryCount <= 2
    ensures RetriesBounded(SendSdsRaw(s, retryCount, issi).0.gpsRequestRetries)
    ensures issi != [] ==> SendSdsRaw(s, retryCount, issi).0.gpsRequestRetries[issi] == retryCount
  {
  }
}

=== FILE: serial.dfy ===
/** The main serial link to the radio, on the command side: how a command
    is written, which start-up commands are sent, and the service-profile
    commands. The port itself, the response-time line and the pauses
    between commands are left out; the read side is `Radio.HandleData`. */
module Serial {
  import opened Wrappers
  import opened JsText
  import opened JsNum
  import opened Link

  /** The commands sent after connecting when no list is given. */
  const DefaultInitCommands: seq<string> := [
    "ATE0",
    "AT+CSCS=\"8859-1\"",
    "AT+CTSP=1,1,11",
    "AT+CTSP=2,0,0",
    "AT+CREG=2",
    "AT+IFC=0,0",
    "AT+CTSP=1,3,2",
    "ATI",
    "AT+GMI",
    "AT+CTGS?",
    "AT+CTSP=2,2,20",
    "AT+CTSP=1,3,130",
    "AT+CTSP=1,3,137",
    "AT+CTSP=1,3,138",
    "AT+CTSP=1,3,140",
    "AT+GMI?",
    "AT+CNUMF?",
    "AT+GMM",
    "ATI1",
    "AT+CTSP=1,3,3",
    "AT+CTSP=1,3,131",
    "AT+CTSP=1,3,10",
    "AT+CTSP=1,3,224",
    "AT+CTSP=1,3,195",
    "AT+CTSP=1,3,204",
    "AT+CTSP=1,3,210",
    "AT+CTSP=1,3,220",
    "AT+CTSP=1,3,242",
    "ATI7",
    "AT+CTGL=0,0,1",
    "AT+MCDNTN=ComPort-Verbunden,TETRA-Terminal,10,4"
  ]

  /** `sendCommand(cmd)`: a warning when the port is not open; otherwise
      the command is echoed, handed to the log store and written with a
      `\r\n` after it. Without a port the only effect is the warning;
      with one, the port sees exactly one write, the last effect, and the
      logged command is that write less its line end. */
  function SendCommand(connected: bool, cmd: string): (r: seq<Effect>)
    ensures !connected ==> Silent(r) && Prints(r) == [Warning + " Nicht verbunden"] && |r| == 1
    ensures connected ==>
      && Writes(r) == [cmd + "\r\n"]
      && Prints(r) == [Outgoing + " " + cmd]
      && r[0].Print? && r[|r| - 1].Write?
      && (forall k :: 0 <= k < |r| && r[k].LogCommand? ==> r[k].cmd + "\r\n" == r[|r| - 1].data)
      && |r| == 3 && r[1].LogCommand?
  {
    if !connected then [Print(Warning + " Nicht verbunden")]
    else
      var r := [Print(Outgoing + " " + cmd), LogCommand(cmd), Write(cmd + "\r\n")];
      assert r[1..][1..][1..] == [];
      assert Prints(r[1..]) == [] by {
        assert Prints(r[1..][1..]) == [];
      }
      assert Writes(r[1..]) == [cmd + "\r\n"] by {
        assert Writes(r[1..][1..]) == [cmd + "\r\n"];
      }
      r
  }

  /** A command is written once, and only when the port is open. */
  lemma SendCommandWrites(connected: bool, cmd: string)
    ensures Writes(SendCommand(connected, cmd)) == if connected then [cmd + "\r\n"] else []
  {
    var r := SendCommand(connected, cmd);
    if connected {
      var last := r[1..][1..];
      assert last == [Write(cmd + "\r\n")];
      assert Writes(last) == [cmd + "\r\n"] by {
        assert last[1..] == [];
      }
    } else {
      assert r[1..] == [];
    }
  }

  /** What is written for a command without a line feed reads back, with
      the link's own line splitting, as that command and nothing more. */
  lemma SendCommandLine(cmd: string)
    requires '\n' !in cmd
    ensures var w := Writes(SendCommand(true, cmd));
      |w| == 1 && SplitLines(w[0]) == [cmd, []]
  {
    SendCommandWrites(true, cmd);
    SplitLinesOfCrLf(cmd);
  }

  /** `runInitialSetup(commands)`: the given list when it is an array with
      at least one command, the default list otherwise (`None` standing
      for a value that is not an array). */
  function InitCommands(commands: Option<seq<string>>): (cmds: seq<string>)
    ensures cmds != []
    ensures commands.Some? && commands.value != [] ==> cmds == commands.value
    ensures commands.None? || commands.value == [] ==> cmds == DefaultInitCommands
  {
    if commands.Some? && commands.value != [] then commands.value else DefaultInitCommands
  }

  function RunInitialSetup(connected: bool, commands: Option<seq<string>>): seq<Effect> {
    SendEach(c => SendCommand(connected, c), InitCommands(commands))
  }

  /** The start-up commands are written once each and in list order, the
      default list standing in for a missing or empty one; nothing is
      written when the port is not open. */
  lemma RunInitialSetupWrites(connected: bool, commands: Option<seq<string>>)
    ensures var w := Writes(RunInitialSetup(connected, commands));
      var cmds := InitCommands(commands);
      && (connected ==> |w| == |cmds| && forall k :: 0 <= k < |cmds| ==> w[k] == cmds[k] + "\r\n")
      && (!connected ==> w == [])
  {
    if connected {
      SendAllWrites(InitCommands(commands));
    } else {
      SendAllSilent(InitCommands(commands));
    }
  }

  /** On an open port each command is written with its line end. */
  lemma SendAllWrites(cmds: seq<string>)
    ensures var w := Writes(SendEach(c => SendCommand(true, c), cmds));
      |w| == |cmds| && forall k :: 0 <= k < |cmds| ==> w[k] == cmds[k] + "\r\n"
  {
    var send := c => SendCommand(true, c);
    forall c ensures Writes(send(c)) == [c + "\r\n"] {
      SendCommandWrites(true, c);
    }
    SendEachWrites(send, c => c + "\r\n", cmds);
  }

  /** On a closed port nothing is written. */
  lemma SendAllSilent(cmds: seq<string>)
    ensures Writes(SendEach(c => SendCommand(false, c), cmds)) == []
  {
    var send := c => SendCommand(false, c);
    forall c ensures Writes(send(c)) == [] {
      SendCommandWrites(false, c);
    }
    SendEachSilent(send, cmds);
  }

  /** The command that switches on TNP1 service profile `i`. */
  function ProfileCommand(i: nat): string {
    "AT+CTSP=1," + Decimal(i) + ",1"
  }

  /** The profile index reads back from its command's second field. */
  lemma ProfileIndexReadBack(i: nat)
    ensures var fields := Split(ProfileCommand(i), ',');
      |fields| == 3 && fields[0] == "AT+CTSP=1" && ParseInt(fields[1], 10) == Some(i) && fields[2] == "1"
  {
    var d := Decimal(i);
    assert ',' !in d by {
      forall k | 0 <= k < |d| ensures d[k] != ',' {
        assert IsDigitOf(d[k], 10);
      }
    }
    var t := d + [','] + "1";
    assert ProfileCommand(i) == "AT+CTSP=1" + [','] + t;
    assert Split("1", ',') == ["1"] by {
      SplitSolid("1", ',');
    }
    SplitAtSeparator(d, "1", ',');
    SplitAtSeparator("AT+CTSP=1", t, ',');
    ParseDecimal(i, 10);
  }

  /** The commands of `enableAllTnp1Profiles`, profiles 0 to 15. */
  function AllProfileCommands(): (cmds: seq<string>)
    ensures |cmds| == 16
  {
    seq(16, i requires 0 <= i < 16 => ProfileCommand(i))
  }

  function EnableAllTnp1Profiles(connected: bool): seq<Effect> {
    SendEach(c => SendCommand(connected, c), AllProfileCommands())
      + [Print(Done + " Alle TNP1 Service-Profile aktiviert")]
  }

  /** Sixteen commands are written, profile 0 first and 15 last. */
  lemma EnableAllWrites(connected: bool)
    ensures var w := Writes(EnableAllTnp1Profiles(connected));
      && (connected ==> |w| == 16 && forall i :: 0 <= i < 16 ==> w[i] == ProfileCommand(i) + "\r\n")
      && (!connected ==> w == [])
  {
    var send := c => SendCommand(connected, c);
    forall c ensures Writes(send(c)) == if connected then [c + "\r\n"] else [] {
      SendCommandWrites(connected, c);
    }
    var sent := SendEach(send, AllProfileCommands());
    if connected {
      SendEachWrites(send, c => c + "\r\n", AllProfileCommands());
    } else {
      SendEachSilent(send, AllProfileCommands());
    }
    WritesAppend(sent, [Print(Done + " Alle TNP1 Service-Profile aktiviert")]);
  }

  /** `enableTnp1Profile(profile)`: the profile is read as a decimal
      integer; anything that is not a number from 0 to 15 is refused with a
      warning, a valid one is sent and confirmed. */
  function EnableTnp1Profile(connected: bool, profile: string): (r: seq<Effect>)
    ensures |r| >= 1 && r[|r| - 1].Print?
  {
    var idx := ParseInt(profile, 10);
    if idx.None? || idx.value < 0 || idx.value > 15 then [Print(Warning + " Ung\U{00FC}ltiges Profil")]
    else
      SendCommand(connected, ProfileCommand(idx.value))
        + [Print(Done + " TNP1 Service-Profile " + Decimal(idx.value) + " aktiviert")]
  }

  /** A profile that does not read as 0..15 writes nothing; one that does
      writes exactly the command for that profile, when the port is open. */
  lemma EnableTnp1ProfileWrites(connected: bool, profile: string)
    ensures var idx := ParseInt(profile, 10);
      var w := Writes(EnableTnp1Profile(connected, profile));
      && (idx.None? || idx.value < 0 || idx.value > 15 ==> w == [])
      && (idx.Some? && 0 <= idx.value <= 15 ==> w == if connected then [ProfileCommand(idx.value) + "\r\n"] else [])
  {
    var idx := ParseInt(profile, 10);
    if idx.Some? && 0 <= idx.value <= 15 {
      var closing := [Print(Done + " TNP1 Service-Profile " + Decimal(idx.value) + " aktiviert")];
      SendCommandWrites(connected, ProfileCommand(idx.value));
      WritesAppend(SendCommand(connected, ProfileCommand(idx.value)), closing);
    }
  }

  /** The decimal digits of a profile 0..15 are accepted and write the
      command for that profile. */
  lemma EnableTnp1ProfileOf(n: nat)
    requires n <= 15
    ensures Writes(EnableTnp1Profile(true, Decimal(n))) == [ProfileCommand(n) + "\r\n"]
  {
    ParseDecimal(n, 10);
    EnableTnp1ProfileWrites(true, Decimal(n));
  }
}

=== FILE: uilog.dfy ===
/** The console (`print` in utils.js): every line goes to the output pane
    and into the in-memory log, and lines about received SDS texts and GPS
    positions are mirrored to the SDS pane; the log exports as CSV. The
    clock is a parameter (the ISO time stamp of each call). */
module UiLog {
  import opened Wrappers
  import opened JsText
  import opened Csv

  /** One `logEntries` element. */
  datatype LogRecord = LogRecord(timestamp: string, text: string)

  /** The output pane, the SDS pane (`None` when the page has none) and
      the log. */
  datatype Console = Console(output: string, sdsPane: Option<string>, entries: seq<LogRecord>)

  const SdsTextPrefix: string := "\U{1F4E9} Text-SDS"
  const GpsPrefix: string := "\U{1F4CD} GPS von ISSI"

  /** Lines the SDS pane shows as well. */
  predicate Mirrored(text: string) {
    SdsTextPrefix <= text || GpsPrefix <= text
  }

  /** `print(text)` at time `now`. */
  function Print(c: Console, now: string, text: string): (r: Console)
    ensures |r.entries| == |c.entries| + 1 && r.entries[..|c.entries|] == c.entries
    ensures r.entries[|c.entries|] == LogRecord(now, text)
    ensures c.output <= r.output
    ensures r.sdsPane.Some? <==> c.sdsPane.Some?
    ensures r.sdsPane != c.sdsPane <==> c.sdsPane.Some? && Mirrored(text)
  {
    Console(
      c.output + text + "\n",
      if Mirrored(text) && c.sdsPane.Some? then Some(c.sdsPane.value + text + "\n") else c.sdsPane,
      c.entries + [LogRecord(now, text)])
  }

  /** Lines, each followed by a line feed. */
  function Lines(texts: seq<string>): string {
    if texts == [] then [] else texts[0] + "\n" + Lines(texts[1..])
  }

  lemma {:induction false} LinesAppend(a: seq<string>, b: seq<string>)
    ensures Lines(a + b) == Lines(a) + Lines(b)
  {
    if a == [] {
      assert a + b == b;
    } else {
      assert (a + b)[0] == a[0] && (a + b)[1..] == a[1..] + b;
      LinesAppend(a[1..], b);
      Associate(a[0] + "\n", Lines(a[1..]), Lines(b));
    }
  }

  /** The lines the SDS pane takes, in order. */
  function MirroredOnly(texts: seq<string>): (r: seq<string>)
    ensures |r| <= |texts|
  {
    if texts == [] then []
    else (if Mirrored(texts[0]) then [texts[0]] else []) + MirroredOnly(texts[1..])
  }

  lemma {:induction false} MirroredOnlyAppend(a: seq<string>, b: seq<string>)
    ensures MirroredOnly(a + b) == MirroredOnly(a) + MirroredOnly(b)
  {
    if a == [] {
      assert a + b == b;
    } else {
      assert (a + b)[0] == a[0] && (a + b)[1..] == a[1..] + b;
      MirroredOnlyAppend(a[1..], b);
      Associate(if Mirrored(a[0]) then [a[0]] else [], MirroredOnly(a[1..]), MirroredOnly(b));
    }
  }

  /** A text printed at a time stamp. */
  datatype Stamped = Stamped(now: string, text: string)

  function Texts(calls: seq<Stamped>): (r: seq<string>)
    ensures |r| == |calls| && forall k :: 0 <= k < |calls| ==> r[k] == calls[k].text
  {
    seq(|calls|, k requires 0 <= k < |calls| => calls[k].text)
  }

  /** `print` called for each element, in order. */
  function PrintAll(c: Console, calls: seq<Stamped>): Console
    decreases |calls|
  {
    if calls == [] then c
    else PrintAll(Print(c, calls[0].now, calls[0].text), calls[1..])
  }

  /** One call, then the rest. */
  lemma PrintAllCons(c: Console, calls: seq<Stamped>)
    requires calls != []
    ensures PrintAll(c, calls) == PrintAll(Print(c, calls[0].now, calls[0].text), calls[1..])
    ensures Texts(calls) == [calls[0].text] + Texts(calls[1..])
  {
  }

  /** After a run of `print` calls the output pane holds every line. */
  lemma {:induction false} PrintAllOutput(c: Console, calls: seq<Stamped>)
    ensures PrintAll(c, calls).output == c.output + Lines(Texts(calls))
    decreases |calls|
  {
    if calls == [] {
      assert Lines(Texts(calls)) == [];
      assert c.output + [] == c.output;
    } else {
      var head := calls[0];
      var c1 := Print(c, head.now, head.text);
      PrintAllCons(c, calls);
      PrintAllOutput(c1, calls[1..]);
      var tail := Lines(Texts(calls[1..]));
      assert Lines(Texts(calls)) == head.text + "\n" + tail;
      Associate(c.output + head.text, "\n", tail);
      Associate(c.output, head.text + "\n", tail);
      Associate(c.output, head.text, "\n");
    }
  }

  /** After a run of `print` calls the SDS pane, when the page has one,
      holds exactly the mirrored lines, in the order they were printed. */
  lemma {:induction false} PrintAllPane(c: Console, calls: seq<Stamped>)
    ensures var r := PrintAll(c, calls);
      r.sdsPane == if c.sdsPane.Some? then Some(c.sdsPane.value + Lines(MirroredOnly(Texts(calls)))) else None
    decreases |calls|
  {
    if calls == [] {
      assert Lines(MirroredOnly(Texts(calls))) == [];
      assert c.sdsPane.Some? ==> c.sdsPane.value + [] == c.sdsPane.value;
    } else {
      var head := calls[0];
      var c1 := Print(c, head.now, head.text);
      PrintAllCons(c, calls);
      PrintAllPane(c1, calls[1..]);
      if c.sdsPane.Some? {
        var tail := Lines(MirroredOnly(Texts(calls[1..])));
        MirroredOnlyAppend([head.text], Texts(calls[1..]));
        LinesAppend(MirroredOnly([head.text]), MirroredOnly(Texts(calls[1..])));
        if Mirrored(head.text) {
          assert MirroredOnly([head.text]) == [head.text];
          assert [head.text][1..] == [];
          assert Lines([head.text]) == head.text + "\n" + [];
          assert Lines(MirroredOnly(Texts(calls))) == head.text + "\n" + tail;
          assert c1.sdsPane == Some(c.sdsPane.value + head.text + "\n");
          Associate(c.sdsPane.value + head.text, "\n", tail);
          Associate(c.sdsPane.value, head.text + "\n", tail);
          Associate(c.sdsPane.value, head.text, "\n");
        } else {
          assert MirroredOnly([head.text]) == [];
          assert Lines([]) + tail == tail;
        }
      }
    }
  }

  /** After a run of `print` calls the log holds one more record per call,
      with its time stamp and text, in call order. */
  lemma {:induction false} PrintAllEntries(c: Console, calls: seq<Stamped>)
    ensures var r := PrintAll(c, calls);
      && |r.entries| == |c.entries| + |calls|
      && r.entries[..|c.entries|] == c.entries
      && forall k :: 0 <= k < |calls| ==> r.entries[|c.entries| + k] == LogRecord(calls[k].now, calls[k].text)
    decreases |calls|
  {
    if calls == [] {
      assert c.entries[..|c.entries|] == c.entries;
    } else {
      var head, rest := calls[0], calls[1..];
      var c1 := Print(c, head.now, head.text);
      PrintAllCons(c, calls);
      PrintAllEntries(c1, rest);
      var r := PrintAll(c, calls);
      assert r.entries[..|c.entries|] == c.entries by {
        assert r.entries[..|c1.entries|][..|c.entries|] == c1.entries[..|c.entries|];
      }
      forall k | 0 <= k < |calls|
        ensures r.entries[|c.entries| + k] == LogRecord(calls[k].now, calls[k].text)
      {
        if k > 0 {
          assert calls[k] == rest[k - 1];
        } else {
          assert r.entries[..|c1.entries|] == c1.entries;
        }
      }
    }
  }

  /** The header and one row per log record: the time stamp in quotes as
      it is, the text in quotes with its quotes doubled. */
  function CsvRows(entries: seq<LogRecord>): (rows: seq<string>)
    ensures |rows| == |entries| + 1
  {
    ["timestamp,text"]
      + seq(|entries|, k requires 0 <= k < |entries| =>
          "\"" + entries[k].timestamp + "\",\"" + DoubleQuotes(entries[k].text) + "\"")
  }

  /** `exportToCsv()`: the text of the downloaded file. */
  function ExportToCsv(entries: seq<LogRecord>): string {
    Join(CsvRows(entries), "\n")
  }

  /** The exported rows are quoted records of time stamp and text, when
      time stamps hold no quotes (ISO time stamps never do). */
  lemma CsvRowFields(e: LogRecord)
    requires '"' !in e.timestamp
    ensures "\"" + e.timestamp + "\",\"" + DoubleQuotes(e.text) + "\"" == QuotedRow([e.timestamp, e.text])
  {
    DoubleQuotesNone(e.timestamp);
    assert [e.timestamp, e.text][1..] == [e.text];
  }

  /** The header line reads as the two column names. */
  lemma HeaderRecord(rest: string)
    requires EndsRecord(rest)
    ensures Record("timestamp,text" + rest) == Some((["timestamp", "text"], AfterRecord(rest)))
  {
    var fields := ["timestamp", "text"];
    PlainPair("timestamp", "text");
    assert "timestamp,text" == PlainRow(fields);
    assert forall k | 0 <= k < |fields| :: ',' !in fields[k] && '\n' !in fields[k] && (fields[k] == [] || fields[k][0] != '"');
    PlainRowRecord(fields, rest);
  }

  /** The exported file reads back as the header record followed by the
      time stamp and the exact text of every log record, in log order,
      whatever quotes, commas or line feeds the texts hold. */
  lemma ExportToCsvReadsBack(entries: seq<LogRecord>)
    requires forall k | 0 <= k < |entries| :: '"' !in entries[k].timestamp
    ensures Records(ExportToCsv(entries))
      == Some([["timestamp", "text"]] + seq(|entries|, k requires 0 <= k < |entries| => [entries[k].timestamp, entries[k].text]))
  {
    var lines := CsvRows(entries);
    var rows := [["timestamp", "text"]] + seq(|entries|, k requires 0 <= k < |entries| => [entries[k].timestamp, entries[k].text]);
    forall k, rest | 0 <= k < |lines| && EndsRecord(rest)
      ensures Record(lines[k] + rest) == Some((rows[k], AfterRecord(rest)))
    {
      if k == 0 {
        HeaderRecord(rest);
      } else {
        CsvRowFields(entries[k - 1]);
        QuotedRowRecord([entries[k - 1].timestamp, entries[k - 1].text], rest);
      }
    }
    forall k | 0 <= k < |lines| ensures lines[k] != [] {
      if k > 0 {
        assert lines[k][0] == '"';
      }
    }
    RecordsJoined(lines, rows);
  }
}

=== FILE: webparser.dfy ===
/** The live-status feed (`handleMessage` in webParser.js): frames from the
    status server become the site list, the list of users on air and a
    capped list of log lines. The socket, the database writes and the
    tables are left out; JSON parsing is given, each frame arriving
    already read into the `Frame` it denotes. */
module WebParser {
  import opened Wrappers
  import opened JsText

  /** One site of a `status` message: its three call lists and its
      connection state, each possibly missing. */
  datatype SiteStatus = SiteStatus(
    callsOut: Option<seq<string>>, callsIn: Option<seq<string>>, callsIgnore: Option<seq<string>>,
    wsState: Option<string>)

  /** One user of a `qrv` message, each field possibly missing. */
  datatype QrvUser = QrvUser(issi: Option<string>, callsign: Option<string>, site: Option<string>, groups: Option<string>)

  /** A frame from the socket, as its JSON text reads. A `status` or `qrv`
      frame carries its `msg` parsed as an object (its entries in key
      order), or `None` when `msg` is not JSON; `Rest` is any other type. */
  datatype Frame =
    | Unreadable
    | Status(sites: Option<seq<(string, SiteStatus)>>)
    | Qrv(users: Option<seq<(string, QrvUser)>>)
    | Rest(kind: Option<string>, logModule: Option<string>, origin: Option<string>,
           message: Option<string>, timestamp: Option<string>)

  datatype StatusRow = StatusRow(site: string, state: string, groups: string)
  datatype QrvRow = QrvRow(issi: string, callsign: string, site: string, groups: string)
  datatype WebLog = WebLog(site: string, logModule: string, message: string, timestamp: string)

  /** The three lists the feed keeps. */
  datatype WebState = WebState(statusList: seq<StatusRow>, qrvList: seq<QrvRow>, webLogs: seq<WebLog>)

  /** The most log lines kept. */
  const MaxLogs: nat := 100

  /** `x || ''` on a text field. */
  function Text(x: Option<string>): string {
    if x.Some? then x.value else ""
  }

  /** The talk groups of a site: outgoing, incoming, then ignored calls. */
  function Calls(v: SiteStatus): seq<string> {
    v.callsOut.GetOr([]) + v.callsIn.GetOr([]) + v.callsIgnore.GetOr([])
  }

  function StatusRows(sites: seq<(string, SiteStatus)>): (rows: seq<StatusRow>)
    ensures |rows| == |sites|
    ensures forall k :: 0 <= k < |sites| ==> rows[k].site == sites[k].0
  {
    seq(|sites|, k requires 0 <= k < |sites| =>
      StatusRow(sites[k].0, Text(sites[k].1.wsState), Join(Calls(sites[k].1), " ")))
  }

  function QrvRows(users: seq<(string, QrvUser)>): (rows: seq<QrvRow>)
    ensures |rows| == |users|
  {
    seq(|users|, k requires 0 <= k < |users| =>
      var u := users[k].1;
      QrvRow(Text(u.issi), Text(u.callsign), Text(u.site), Text(u.groups)))
  }

  /** A log frame is kept when its type is `logging` and its module names
      a `log/` path. */
  predicate Accepts(f: Frame) {
    f.Rest? && f.kind == Some("logging") && f.logModule.Some? && f.logModule.value != []
    && Contains(f.logModule.value, "log/")
  }

  function LogOf(f: Frame): WebLog
    requires f.Rest?
  {
    WebLog(Text(f.origin), Text(f.logModule), Text(f.message), Text(f.timestamp))
  }

  /** `unshift` then one `pop` when the list grew past the cap. */
  function PushLog(logs: seq<WebLog>, entry: WebLog): (r: seq<WebLog>)
    ensures 1 <= |r| <= |logs| + 1 && r[0] == entry
    ensures |logs| <= MaxLogs ==> |r| <= MaxLogs
    ensures forall k :: 1 <= k < |r| ==> r[k] == logs[k - 1]
  {
    var grown := [entry] + logs;
    if |grown| > MaxLogs then grown[..|grown| - 1] else grown
  }

  /** `handleMessage(evt)`. A frame that is not JSON, or a `status` or
      `qrv` frame whose `msg` is not, changes nothing; a `status` frame
      replaces the site list, a `qrv` frame the user list, an accepted log
      frame puts its line in front of the log; nothing else changes. */
  function HandleMessage(st: WebState, f: Frame): (r: WebState)
    ensures f.Unreadable? || (f.Status? && f.sites.None?) || (f.Qrv? && f.users.None?) || (f.Rest? && !Accepts(f)) ==> r == st
    ensures f.Status? && f.sites.Some? ==> r == st.(statusList := StatusRows(f.sites.value))
    ensures f.Qrv? && f.users.Some? ==> r == st.(qrvList := QrvRows(f.users.value))
    ensures Accepts(f) ==>
      && r.statusList == st.statusList && r.qrvList == st.qrvList
      && |r.webLogs| >= 1 && r.webLogs[0] == LogOf(f)
      && |r.webLogs| <= (if |st.webLogs| < MaxLogs then MaxLogs else |st.webLogs|)
  {
    match f
    case Unreadable => st
    case Status(sites) => if sites.None? then st else st.(statusList := StatusRows(sites.value))
    case Qrv(users) => if users.None? then st else st.(qrvList := QrvRows(users.value))
    case Rest(_, _, _, _, _) => if Accepts(f) then st.(webLogs := PushLog(st.webLogs, LogOf(f))) else st
  }

  /** A site's groups split on spaces give back its calls, outgoing first,
      when no call holds a space. */
  lemma GroupsReadBack(v: SiteStatus)
    requires Calls(v) != []
    requires forall k | 0 <= k < |Calls(v)| :: ' ' !in Calls(v)[k]
    ensures var row := StatusRows([("", v)])[0];
      Split(row.groups, ' ') == v.callsOut.GetOr([]) + v.callsIn.GetOr([]) + v.callsIgnore.GetOr([])
  {
    SplitJoin(Calls(v), ' ');
  }

  /** The first `MaxLogs` elements, or all of them. */
  function Cap(xs: seq<WebLog>): (r: seq<WebLog>)
    ensures |r| <= MaxLogs && r <= xs
    ensures |xs| <= MaxLogs ==> r == xs
  {
    if |xs| > MaxLogs then xs[..MaxLogs] else xs
  }

  /** Capping the tail first does not change the capped whole. */
  lemma CapAppend(x: seq<WebLog>, y: seq<WebLog>)
    ensures Cap(x + Cap(y)) == Cap(x + y)
  {
    if |y| > MaxLogs {
      assert (x + Cap(y))[..MaxLogs] == (x + y)[..MaxLogs];
    }
  }

  /** Within the cap, pushing a line is capping the longer list. */
  lemma PushIsCap(logs: seq<WebLog>, entry: WebLog)
    requires |logs| <= MaxLogs
    ensures PushLog(logs, entry) == Cap([entry] + logs)
  {
  }

  /** The frames handled one after the other. */
  function HandleAll(st: WebState, frames: seq<Frame>): WebState
    decreases |frames|
  {
    if frames == [] then st else HandleAll(HandleMessage(st, frames[0]), frames[1..])
  }

  /** The accepted log lines of some frames, the latest first. */
  function NewestFirst(frames: seq<Frame>): seq<WebLog>
    decreases |frames|
  {
    if frames == [] then []
    else NewestFirst(frames[1..]) + (if Accepts(frames[0]) then [LogOf(frames[0])] else [])
  }

  /** The log holds the latest accepted log lines, newest first, followed
      by the lines it started with, and never more than `MaxLogs` of them
      when it started within the cap. */
  lemma {:induction false} LogKeepsNewest(st: WebState, frames: seq<Frame>)
    requires |st.webLogs| <= MaxLogs
    ensures HandleAll(st, frames).webLogs == Cap(NewestFirst(frames) + st.webLogs)
    decreases |frames|
  {
    if frames == [] {
      assert NewestFirst(frames) + st.webLogs == st.webLogs;
    } else {
      var f := frames[0];
      var st1 := HandleMessage(st, f);
      var newer := NewestFirst(frames[1..]);
      if Accepts(f) {
        PushIsCap(st.webLogs, LogOf(f));
        LogKeepsNewest(st1, frames[1..]);
        CapAppend(newer, [LogOf(f)] + st.webLogs);
        Associate(newer, [LogOf(f)], st.webLogs);
      } else {
        assert st1.webLogs == st.webLogs;
        LogKeepsNewest(st1, frames[1..]);
        assert NewestFirst(frames) == newer + [];
        assert newer + [] == newer;
      }
    }
  }
}

=== FILE: wrappers.dfy ===
/** The Option and Result types shared by every module of the model. */
module Wrappers {

  /** A value that may be absent: JavaScript's `null`, `undefined` or `NaN`
      depending on the context it is used in. */
  datatype Option<+T> = None | Some(value: T) {

    /** The wrapped value, or `default` when absent (JavaScript's `x ?? d`). */
    function GetOr(default: T): T {
      match this
      case Some(v) => v
      case None => default
    }
  }

  /** The outcome of an operation that either produces a value or throws. */
  datatype Result<+R, +E> = Success(value: R) | Failure(error: E)
}
